=== FILE: README.md ===
# 3DDrive control core in Dafny

This project models the logic core of 3DDrive, a browser driving game. A small car drives over
a flat field with a slope and rolling obstacles and picks up floating emoji items. Each module
mirrors one JavaScript file. The rendering engine, the physics engine and the Web Audio graph
are not modelled. Each call into them that the model covers is either a value the model takes
as a parameter or an entry in a list of calls that the model returns; the calls it does not
cover are listed under "Left out".

- `Basics` holds the shared `Option`, 3-vectors and quaternions, `Clamp` (the game's
  `Math.max(lo, Math.min(hi, v))` idiom), and a few lemmas about real multiplication.
- `Config` (js/config.js) holds the tuning constants, the key table, the item table and the
  spawn pose.
- `Input` (js/input.js) models the key map, the six action flags, the special keys and the
  callback slots.
- `Vehicle` (js/vehicle.js) models the control law of `update`:
  - engine force, with the high-speed attenuation and the top-speed cut;
  - brake force and steering;
  - how the forces are spread over the four wheels;
  - the roll/pitch stabiliser, `reset` and `getSpeed`.
- `Items` (js/items.js) models creating the items, the per-frame pick-up sweep, `collectItem`
  with its three-entry history, `reset` and `dispose`.
- `Terrain` (js/terrain.js) models the adjustable slope and the obstacle watchdog.
- `AudioIntegration` (js/audio-integration.js) models the sound facade. It keeps the
  enabled, engine, turbo and drift flags, and it emits calls to the audio manager on the
  edges of those flags.
- `AudioEngine` (js/audio-engine.js) models:
  - the harmonic oscillator bank;
  - the pitch and gain targets of the engine sound;
  - start and stop of the engine and turbo sounds, with their delayed completion as a
    separate step;
  - the manager's volume and mode switch.
- `Physics` (js/physics.js) models:
  - the index and vertex buffers the debug renderer builds for convex polyhedra and
    heightfields;
  - `clear`;
  - the teardown loops of `PhysicsManager.dispose`.
- `VehicleSpecs` (js/vehicle-specs.js) models the per-car records and the three lookups.
- `Ui` (js/ui.js) models the speedometer rounding, the item slots and the two panels.
- `Game` (js/main.js) models the frame step, the order of calls in a frame, pause and
  resume, and the camera-adjustment callback.

Randomness (`Math.random`) and the clock (`performance.now`) are taken as parameters.
Trigonometric results such as the unit direction of an obstacle are inputs too. Distances
and velocity lengths measured by the engine are also given as inputs. A DOM element or an
engine object that may not exist is an `Option`, which is `None` before initialisation.

### What the control law does and does not do

**Vehicle control law.** `VehicleManager.update` (js/vehicle.js:187-258) has:

- no reverse deadband: the brake key pushes backwards at once, at any speed;
- rear-wheel drive only: engine force goes to wheels 2 and 3;
- no roll-over recovery;
- no cancelling of left against right: `steeringValue` is assigned for left and then for
  right, so right overrides left.

**Engine figures.** The records in js/vehicle-specs.js give a 500 N base force and a
20 m/s top speed. The control law reads js/config.js instead, which has 700 N, a turbo
multiplier of 1500/700 and 25 m/s. `Vehicle.Shipped` uses the js/config.js values.
`VehicleSpecs` keeps the record values, because those are what the lookups return.

## Model

| member | source | states |
|---|---|---|
| Basics.Clamp | js/main.js:133-141 | The result always lies in [lo, hi]. It equals the input when the input is inside the range, and it is the nearer bound otherwise. |
| Config.KeyMappingsBindings | js/config.js:139-148 | Exactly eight keys are bound, a letter and an arrow for each of the four driving actions. Space and both Shift keys are not in the table. |
| Config.TurboForceIs1500 | js/config.js:29-34 | The base force times the turbo multiplier is exactly 1500 N, and the multiplier is above 1. |
| Config.AttenuationCurvesWellFormed | js/config.js:36-48 | Both attenuation curves have a floor in (0, 1] and a positive reduction range. |
| Config.ItemTableShape | js/config.js:108-122 | At most 3 collected items are shown, and they are drawn from 25 pairwise distinct kinds. |
| Config.InitialQuaternionIsIdentity | js/config.js:180-185 | The spawn orientation is the identity rotation. |
| Input.Initial | js/input.js:5-29 | A fresh manager has every action off, no key recorded, and every one of the eleven callback slots present and empty. |
| Input.SetAction | js/input.js:50-53 | Writing one action flag sets that flag and leaves the other five untouched. |
| Input.ApplyKey | js/input.js:50-65 | A mapped key sets its action to the key's direction and leaves every other action flag, the turbo and the handbrake alone. Space drives only the turbo flag, and either Shift key drives only the handbrake. Any other key leaves all flags alone. |
| Input.Call | js/input.js:67-206 | A handler runs exactly when its slot holds one, and it receives the key's argument. |
| Input.OnKeyDown | js/input.js:39-209 | The key is recorded as down and the action flags change as `ApplyKey` says. A key with a special binding invokes that binding's handler with its argument exactly when the slot holds one. A key without a special binding invokes nothing. |
| Input.ToggleKeysDispatch | js/input.js:67-126 | R, C, B, H and M reach the reset, debug, bounding-box, help and mute handlers. N reaches the engine-mode handler unless the car selection is shown. |
| Input.AdjustKeysDispatch | js/input.js:128-206 | Q and E pass +1 and -1 to the height handler, O and L pass +1 and -1 to the slope handler, and 9 and 0 pass +0.1 and -0.1 to the body-height handler. |
| Input.CameraDigitsDispatch | js/input.js:153-187 | Digits 1 to 6 lower and raise the camera's distance, height and side offset by 1. |
| Input.OnKeyUp | js/input.js:211-233 | The key is recorded as up and its action is cleared. The callbacks are unchanged. |
| Input.SetCallback | js/input.js:236-240 | Only an existing slot is replaced, and an unknown name changes nothing. No other slot, key or flag changes. |
| Input.IsKeyPressed | js/input.js:248-250 | A key reads as pressed exactly when it was recorded as down. A key never seen reads as released. |
| Input.PressRelease | js/input.js:39-41 | A key reads as pressed after keydown and as released after keyup. |
| Input.MappedKeyDrivesAction | js/input.js:50-53 | A mapped key turns its action on when pressed and off when released. |
| Input.NoReferenceCounting | js/input.js:216-219 | Releasing W while ArrowUp is still held clears the acceleration flag. |
| Input.SpecialFlags | js/input.js:57-65 | Space sets and clears turbo. Both Shift keys share one handbrake flag, so releasing either one clears it. |
| Input.UnboundKeysLeaveActions | js/input.js:50-65 | Keys that are neither mapped nor special never change the action flags. |
| Input.KeyDDoubleDuty | js/input.js:85-92 | KeyD always steers right. It also fires the debug-log toggle exactly when Ctrl is held and a handler is set. |
| Input.EventsPreserveValid | js/input.js:16-28 | Key events never add or remove callback slots. |
| Vehicle.ShippedIsValid | js/config.js:29-48 | The shipped tuning has positive forces and a well-formed pair of curves. |
| Vehicle.Factor | js/vehicle.js:202-209 | The attenuation is 1 at or below the threshold and never below the floor. Above the threshold it is strictly below 1 unless the floor is 1. |
| Vehicle.RawEngineForce | js/vehicle.js:190-198 | Throttle gives the base force, or the turbo force when turbo is held. Braking alone gives half the base force backwards. Neither flag gives zero. The result lies between half the base force backwards and the turbo force. |
| Vehicle.EngineForce | js/vehicle.js:190-214 | The final engine force is the raw force times the engine curve's factor, except that a positive result above top speed becomes zero. It keeps the raw force's bounds and sign. |
| Vehicle.AttenuatedWithinBounds | js/vehicle.js:207-208 | Scaling by a factor in (0, 1] keeps a value's sign and keeps it inside any bounds around zero. |
| Vehicle.BrakeForce | js/vehicle.js:216-223 | The brake force is 0, the brake force, or double it. The handbrake gives double, and the brake key alone gives single. |
| Vehicle.Steering | js/vehicle.js:225-238 | Steering stays within the lock. Right gives minus the lock times the steering curve's factor, whatever left is. Left alone gives plus that amount, and neither key gives zero. |
| Vehicle.WheelCalls | js/vehicle.js:240-250 | A frame makes eight wheel calls, each to one of the four wheels, and every brake call carries the frame's brake force. |
| Vehicle.WheelLayout | js/vehicle.js:132-144 | There are four wheels, mirrored left/right and front/back, and the first two are the front wheels. |
| Vehicle.WheelDistribution | js/vehicle.js:240-250 | Engine force reaches only wheels 2 and 3. All four wheels get the same brake. Steering reaches only wheels 0 and 1. |
| Vehicle.SteeredWheelsAreFront | js/vehicle.js:144 | A wheel is steered exactly when it is flagged as a front wheel, and it is driven exactly when it is not. |
| Vehicle.Damp | js/vehicle.js:274 | One stabiliser pass multiplies the roll rate by 1 - rollSpeed and the pitch rate by 1 - pitchSpeed, so each shrinks towards zero without crossing it. The yaw rate is left alone. |
| Vehicle.Correction | js/vehicle.js:271-272 | A correcting torque with positive strength opposes the tilt angle. |
| Vehicle.Stabilize | js/vehicle.js:261-290 | The angular velocity is damped by the per-axis factors. The roll torque is -roll times the roll strength about local z only, and the pitch torque is -pitch times the pitch strength about local x only, so each opposes its tilt. The roll and pitch rates do not grow, and the yaw rate is kept. |
| Vehicle.StabilizeDamps | js/vehicle.js:274 | A pass changes the angular velocity only through the damping. |
| Vehicle.StabilizationDecays | js/vehicle.js:274 | Over repeated frames the roll and pitch rates move monotonically towards zero without changing sign, and the yaw rate never changes. |
| Vehicle.DecayIsGeometric | js/vehicle.js:274 | Scaling a rate by q on each of n frames is scaling it by q to the n. |
| Vehicle.StabilizeNDecays | js/vehicle.js:274 | After n passes with the tilt held, the roll rate is scaled by 1 - rollSpeed n times and the pitch rate by 1 - pitchSpeed n times. The yaw rate is unchanged. |
| Vehicle.PassDecays | js/vehicle.js:274 | One more pass adds one more factor to each decayed rate. |
| Vehicle.Reset | js/vehicle.js:310-317 | With a chassis, the car is placed at the target, at rest and upright, with its torque kept. Without a chassis nothing happens. |
| Vehicle.ResetIdempotent | js/vehicle.js:310-317 | Resetting twice to the same place is the same as resetting once. |
| Vehicle.ResetForgetsMotion | js/vehicle.js:310-317 | After a reset, the car's prior motion and pose make no difference. |
| Vehicle.GetSpeed | js/vehicle.js:319-321 | The speed is the velocity length, or 0 without a chassis. |
| Vehicle.Update | js/vehicle.js:187-259 | Without a vehicle there are no calls. Otherwise the eight wheel calls carry the frame's engine force, brake force and steering, in the fixed wheel order, within the force and steering bounds. The stabiliser runs, on the current angular velocity and tilt, exactly when it is enabled. |
| Vehicle.UpdateFollowsWheelLayout | js/vehicle.js:132-144 | In a frame every wheel is braked with the frame's brake force. A wheel is steered exactly when the layout flags it as a front wheel, and driven exactly when it does not. |
| Vehicle.HandbrakeBrakesEveryWheel | js/vehicle.js:216-248 | A pulled handbrake brakes all four wheels at twice the brake force, whatever else is held. |
| Vehicle.AccelerationVersusBraking | js/vehicle.js:190-223 | Throttle never pushes backwards and never brakes unless the handbrake is pulled. The brake key alone never pushes forwards and applies the brake force. |
| Vehicle.TopSpeedCapsForwardOnly | js/vehicle.js:211-214 | Above top speed, throttle gives zero force. The brake key's reverse push survives, attenuated, at every speed. |
| Vehicle.BrakeKeyPushesAndBrakes | js/vehicle.js:196-220 | The brake key alone applies a reverse engine force and a brake force in the same frame. |
| Vehicle.FactorNonIncreasing | js/vehicle.js:202-209 | The attenuation never grows with speed. |
| Vehicle.LowSpeedEngineIsTheFlagTable | js/vehicle.js:190-214 | At or below both the engine threshold and top speed, the engine force is the raw flag table. |
| Vehicle.LowSpeedSteeringIsFullLock | js/vehicle.js:225-238 | At or below the steering threshold, a steering key gives the full lock, with right overriding left. |
| Vehicle.HighSpeedSteering | js/vehicle.js:231-238 | Above the steering threshold, the steering magnitude is the lock times a factor that is strictly below 1 and at least the floor. |
| Vehicle.ShippedAttenuationOnlyReachesReversePush | js/vehicle.js:200-214 | With the shipped tuning, a forward force is never attenuated, because top speed cuts it first. Above 30 m/s the brake key's reverse push is strictly weaker than at low speed. Up to the 25 m/s top speed, every force is the raw flag table. |
| Items.RingSplit | js/items.js:26-56 | There are 25 items: 10 on the inner ring and 15 on the outer ring. |
| Items.RingRadius | js/items.js:29-45 | The first ten items sit on radius 15 and the rest on radius 35. |
| Items.TurnFraction | js/items.js:33-50 | The i-th item's angle, as a fraction of a turn, lies in [0, 1): i/10 on the inner ring and (i - 10)/15 on the outer ring. |
| Items.RingSlotsDistinct | js/items.js:26-56 | Two different items on the same ring never get the same angle. |
| Items.TypeIndex | js/items.js:58-60 | A random draw in [0, 1) picks a valid index into the 25 kinds, namely the one whose slot contains draw times 25. |
| Items.CreateItem | js/items.js:58-110 | A new item has one of the configured kinds, is not collected and sits at its placed position. |
| Items.Init | js/items.js:18-56 | After init there are 25 uncollected items of configured kinds at their placed positions, the history is empty and the count is 0. |
| Items.CountCollected | js/items.js:236-238 | The collected count never exceeds the number of items. |
| Items.TotalCount | js/items.js:240-242 | The total is never below the collected count. |
| Items.NoneCollected | js/items.js:236-238 | With nothing marked collected the count is 0. |
| Items.CountMarkOne | js/items.js:236-238 | Marking one uncollected item raises the count by exactly one. |
| Items.PushCapped | js/items.js:164-170 | The new kind is always last. Below the cap it is simply appended. At the cap, the result is the newest three of the old history plus the new kind. |
| Items.Shift | js/items.js:168 | Dropping the oldest entry leaves the rest of the history, so the dropped entry followed by the rest is the old history. An empty history stays empty. |
| Items.PushAll | js/items.js:164-170 | After one or more pushes the newest kind is last, and a history of at most three stays at most three. With nothing to push it is unchanged. |
| Items.Keep | js/items.js:164-170 | The reference history is the last min(length, cap) entries, in order. |
| Items.PushAllKeepsNewest | js/items.js:164-170 | However many items are picked up, the history is always the newest three kinds, in collection order. |
| Items.KeepOfLonger | js/items.js:164-170 | Trimming older entries first does not change which newest entries survive. |
| Items.CollectItem | js/items.js:137-175 | Only the target item changes: it becomes collected. If it was already collected nothing changes. Otherwise its kind joins the capped history and the count rises by one. |
| Items.CollectNotices | js/items.js:137-173 | An item already taken makes no call. Otherwise the pick-up plays the collect sound and then refreshes the HUD with the updated history, whose newest entry is the item's kind. |
| Items.Sweep | js/items.js:115-133 | A partial sweep keeps the item count and leaves the items it has not reached untouched. |
| Items.SweepFlags | js/items.js:115-133 | After the sweep reaches an item, that item is collected exactly when it already was or was strictly within reach of a car. |
| Items.SweepList | js/items.js:129-131 | The history has received the reference list of newly collected kinds, in item order. |
| Items.SweepCount | js/items.js:129-131 | The count rises by the number of newly collected kinds. |
| Items.SweepIdle | js/items.js:128-133 | Without a car the sweep changes nothing. |
| Items.Update | js/items.js:112-135 | After a frame, each item is collected exactly when it already was or was in reach. The history has received the newly collected kinds in item order, and the count rises by their number. Without a car nothing changes. The frame makes two calls per pick-up, alternating sound and HUD refresh, and the last refresh shows the final history. |
| Items.SweepAll | js/items.js:115-134 | The loop leaves the state and the calls of a sweep over every item. |
| Items.SweepNoticesLength | js/items.js:129-131 | A sweep makes two calls per newly collected kind. |
| Items.SweepNoticesAlternate | js/items.js:147-173 | The calls alternate: the sound first, then the HUD refresh. |
| Items.SweepNoticesLast | js/items.js:167-173 | The last HUD refresh of a sweep shows the history as the sweep leaves it. |
| Items.SweepComplete | js/items.js:112-135 | A full sweep's flags, history and count are those of the reference definitions, and it is idle without a car. |
| Items.SweepCompleteNotices | js/items.js:112-173 | A full sweep's calls number twice the newly collected kinds, alternate, and end with the final history. |
| Items.NewKindsStep | js/items.js:115-133 | Visiting one more item adds at most that item's kind to the reference list. |
| Items.PushAllSnoc | js/items.js:164-170 | Pushing a list of kinds and then one more kind is the same as one capped push after the list. |
| Items.UpdateShowsNewest | js/items.js:112-175 | After any frame the history is the newest (at most three) of the old history plus this frame's pick-ups. |
| Items.Reset | js/items.js:244-259 | Every item is back in play, the history is empty and the count is 0. The HUD is refreshed once, with the empty list. |
| Items.Dispose | js/items.js:260-277 | Both lists are emptied, so the total is 0. |
| Items.ResetThenCollect | js/items.js:137-175 | Reset is idempotent, including its HUD refresh. After a reset, one pick-up gives a one-entry history and a count of 1. |
| Terrain.InitialSlope | js/terrain.js:15-17 | The constructor's slope height is inside [0.5, 10] and has no geometry yet. |
| Terrain.UpdateSlopeGeometry | js/terrain.js:212-224 | The geometry, once it exists, sits at half the slope height. Before it exists nothing changes. |
| Terrain.AdjustSlopeHeight | js/terrain.js:206-210 | One press moves the height by half a unit in the key's direction, saturating at 0.5 and 10, and keeps the geometry consistent. |
| Terrain.RepeatedAdjustSaturates | js/terrain.js:206-210 | Held raise climbs 0.5 per press up to 10. Held lower descends down to 0.5. |
| Terrain.RaiseThenLower | js/terrain.js:206-210 | A raise followed by a lower restores the slope exactly unless the raise hit the cap. |
| Terrain.CreateObstacle | js/terrain.js:159-189 | An obstacle's radius is in [0.5, 2). It rests on the ground, with its centre at height = radius, and it is at rest with its mesh at the body. |
| Terrain.CreateObstacles | js/terrain.js:154-191 | Ten obstacles are made, one per draw, all spawning above the fall limit. |
| Terrain.UpdateObstacle | js/terrain.js:193-204 | The mesh copies the body first. A body below -10 is put back at its spawn point with zero velocity, and any other body is untouched. |
| Terrain.UpdateObstacles | js/terrain.js:193-204 | Each obstacle gets the same watchdog step. |
| Terrain.WatchdogRestores | js/terrain.js:193-204 | After a pass every body is at or above the fall limit. |
| Terrain.RespawnKeepsSpinAndLagsMesh | js/terrain.js:195-201 | A respawned body keeps its spin and orientation, and its mesh shows the fall point for one more frame. |
| AudioIntegration.Initial | js/audio-integration.js:21-43 | Sound starts enabled and silent. |
| AudioIntegration.DoStartEngine | js/audio-integration.js:106-115 | The engine sound starts only when sound is enabled and the engine is not already running. |
| AudioIntegration.DoStopEngine | js/audio-integration.js:120-129 | Only a running engine is stopped, and afterwards it is never running. |
| AudioIntegration.Transition | js/audio-integration.js:143-163 | The start call appears exactly on a rising edge and the stop call exactly on a falling edge. Nothing else appears. |
| AudioIntegration.UpdateVehicleState | js/audio-integration.js:135-168 | An update is ignored unless sound is enabled and the engine is running. Otherwise the state takes the new flags and speed, and the engine-speed call comes first. |
| AudioIntegration.AcceptedCalls | js/audio-integration.js:141-163 | An accepted update's calls are, in order: the engine speed, the turbo edge, the turbo pitch, and the screech edge. |
| AudioIntegration.TurboEdges | js/audio-integration.js:143-154 | The turbo starts exactly on a rising edge and stops exactly on a falling edge. Its pitch follows the speed on every turbo frame. |
| AudioIntegration.ScreechEdges | js/audio-integration.js:156-163 | The screech starts and stops exactly on the drift flag's edges. An update never starts or stops the engine. |
| AudioIntegration.DoPlayCollision | js/audio-integration.js:174-182 | A collision sound plays exactly when sound is enabled. |
| AudioIntegration.DoPlayCollisionDefault | js/audio-integration.js:174-182 | Called without a force, the collision sound uses the default force 0.5 when sound is enabled. The state never changes. |
| AudioIntegration.DoPlayItemCollect | js/audio-integration.js:188-213 | The chime plays exactly when sound is enabled and the audio context exists. |
| AudioIntegration.DoSetMasterVolume | js/audio-integration.js:218-221 | The manager receives the square of the requested volume. |
| AudioIntegration.StopCalls | js/audio-integration.js:226-244 | The stop list holds a stop for the engine, the turbo and the tire screech exactly when each is playing, in that order. |
| AudioIntegration.ToggleMute | js/audio-integration.js:226-244 | The enabled flag flips and the new value is returned. Muting clears all three playing flags and stops exactly the sounds that were playing, engine then turbo then screech. Unmuting starts nothing. |
| AudioIntegration.ToggleEngineMode | js/audio-integration.js:264-289 | The manager is asked for the other mode, which is also returned. |
| AudioIntegration.SetVehicleSpec | js/audio-integration.js:49-66 | A spec with an audio section selects the advanced mode exactly when its mode is "advanced". Without one, nothing is called. |
| AudioIntegration.Dispose | js/audio-integration.js:294-307 | The sounds that were playing are stopped, engine then turbo then screech, and only the engine is marked stopped. |
| AudioIntegration.DisposeAfterMuteIsSilent | js/audio-integration.js:226-244 | After muting, disposing stops nothing. A second dispose still stops the turbo and screech, because the first leaves their flags set. |
| AudioIntegration.SessionsStayConsistent | js/audio-integration.js:106-307 | In any sequence of operations, nothing is playing while sound is disabled. |
| AudioIntegration.MuteUnmuteDoesNotRestart | js/audio-integration.js:226-244 | Muting then unmuting leaves sound enabled but the engine silent. |
| AudioIntegration.RepeatedUpdateIsQuiet | js/audio-integration.js:143-163 | Reporting the same vehicle state twice starts and stops nothing the second time. |
| AudioIntegration.StartEngineOnce | js/audio-integration.js:106-115 | Repeated starts produce at most one engine start. |
| AudioEngine.HarmonicOscillators | js/audio-engine.js:115-136 | There is one oscillator per amplitude. Oscillator i runs at (i+1) times the base with its amplitude as gain, and only the first is a sawtooth. |
| AudioEngine.HarmonicSeries | js/audio-engine.js:124 | The bank is a harmonic series whose spacing is the base frequency. |
| AudioEngine.IdleBank | js/audio-engine.js:11-13 | The idle bank runs 80 to 400 Hz with amplitudes that strictly decrease. |
| AudioEngine.Rpm | js/audio-engine.js:403 | The simulated rpm is speed/30, capped at 1. |
| AudioEngine.RpmMonotone | js/audio-engine.js:403 | Rpm never falls as speed rises. |
| AudioEngine.FrequencyMultiplier | js/audio-engine.js:411-416 | The pitch multiplier is 2.5 under throttle, 0.8 under deceleration and 1 otherwise. |
| AudioEngine.ExhaustIntensity | js/audio-engine.js:429 | The exhaust gain is at least 0.2, and it lies in [0.3, 0.8] across the rpm range. |
| AudioEngine.ExhaustNonIncreasing | js/audio-engine.js:429 | The exhaust gain never rises with rpm. |
| AudioEngine.IntakeIntensity | js/audio-engine.js:434 | The intake gain is in [0, 0.6] across the rpm range, and it is three times stronger under throttle. |
| AudioEngine.Advanced | js/audio-engine.js:427-449 | The exhaust and intake gains are the exhaust and intake intensities. The exhaust pulse, the mechanical and resonance sources and the three filters have frequencies linear in rpm (25(1+rpm), 150+450 rpm, 200(1+2 rpm), 150(1+rpm), 800+600 rpm, 400(1+2 rpm)), and the mechanical gain is 0.1+0.15 rpm. Across the rpm range each target lies in its band. |
| AudioEngine.AdvancedRisesWithRpm | js/audio-engine.js:427-449 | Higher rpm never lowers a frequency target, the mechanical gain or the intake gain, and never raises the exhaust gain. |
| AudioEngine.AdvancedBandEnds | js/audio-engine.js:427-449 | At idle and at the rev limit the targets are exactly the two ends of their bands. |
| AudioEngine.HarmonicFrequencies | js/audio-engine.js:418-422 | There is one pitch target per oscillator. |
| AudioEngine.HarmonicCount | js/audio-engine.js:244-247 | Simple mode retunes one oscillator and advanced mode five, and the five are exactly the harmonics that start first. |
| AudioEngine.HarmonicTarget | js/audio-engine.js:419-421 | At rest and coasting, oscillator k aims at k + 1 times 80 Hz. Unless the car reverses faster than 20 m/s, every target is positive. |
| AudioEngine.TargetPositive | js/audio-engine.js:399-421 | A target with a positive harmonic number and multiplier is positive above -20 m/s. |
| AudioEngine.TargetScales | js/audio-engine.js:410-421 | The throttle multiplier scales the coasting target. |
| AudioEngine.UpdateSpeed | js/audio-engine.js:392-465 | Nothing is set while silent. While playing, every oscillator gets its target, the advanced layers are set only in advanced mode, and the noise and master gains follow speed. |
| AudioEngine.HarmonicTargets | js/audio-engine.js:399-422 | Oscillator i aims at 80 (1 + speed/20) (i + 1) times the multiplier, so the targets stay a harmonic series of the first. |
| AudioEngine.HarmonicScaling | js/audio-engine.js:419-421 | Each oscillator's target is (i + 1) times the fundamental's. |
| AudioEngine.ThrottleRaisesPitch | js/audio-engine.js:410-422 | When not reversing faster than 20 m/s, throttle raises every harmonic above coasting, and coasting is above deceleration. |
| AudioEngine.AdvancedIsLouder | js/audio-engine.js:462-464 | Advanced mode is exactly 0.1 louder than simple mode at the same speed. |
| AudioEngine.StartedSources | js/audio-engine.js:366-383 | Simple mode starts the oscillator, the LFO and the noise. Advanced mode starts 12 distinct sources. |
| AudioEngine.StartEngineSound | js/audio-engine.js:361-390 | A start while playing does nothing. Otherwise it starts the mode's sources and fades in to 0.3. |
| AudioEngine.StopEngineSound | js/audio-engine.js:467-498 | Stopping only schedules a fade, and the sound is still marked as playing. |
| AudioEngine.FinishEngineStop | js/audio-engine.js:476-497 | When the timer fires the sound is silent and rebuilt in the same mode. |
| AudioEngine.StartDuringFadeIsLost | js/audio-engine.js:361-498 | A start issued during a stop's fade is swallowed, and the timer then silences the sound. |
| AudioEngine.StartTurboSound | js/audio-engine.js:556-575 | After a start the turbo is active. The whine starts only if it was not already active. |
| AudioEngine.FinishTurboStop | js/audio-engine.js:577-591 | When the stop timer fires the turbo is inactive. |
| AudioEngine.StopTurboSound | js/audio-engine.js:577-591 | Stopping only schedules a fade, exactly when the turbo is active, and the turbo stays active until the timer fires. |
| AudioEngine.TurboStartDuringFadeIsLost | js/audio-engine.js:556-591 | A turbo start issued during a stop's fade is swallowed, and the timer then leaves the turbo inactive. |
| AudioEngine.TurboStartThenPitch | js/audio-engine.js:556-600 | Outside a fade, a start brings the whine up and pitch updates then reach it. After the stop timer they do not. |
| AudioEngine.TurboPitch | js/audio-engine.js:593-610 | The whine is retuned only while active, to 2000 (1 + speed/40) Hz, which is at least 2000 Hz going forwards. |
| AudioEngine.NewManager | js/audio-engine.js:783-791 | A new manager is uninitialised and in simple mode. |
| AudioEngine.Init | js/audio-engine.js:793-821 | Init runs once. It builds silent sounds in the current mode with master gain 0.7. |
| AudioEngine.SetMasterVolume | js/audio-engine.js:920-923 | The gain is clamped to [0, 1], and the call is ignored before init. |
| AudioEngine.ManagerStartEngine | js/audio-engine.js:873-876 | The start is forwarded only after init, and it starts sources only if the engine was silent. Those are the sources of the current mode, faded in over 0.3 s. |
| AudioEngine.ManagerStartTurbo | js/audio-engine.js:888-891 | The start is forwarded only after init, and it starts the whine only if the turbo was inactive. After init, only the turbo becomes active and nothing else in the manager changes. |
| AudioEngine.ManagerStartsAreIdempotent | js/audio-engine.js:873-891 | Starting the engine or the turbo a second time starts nothing and changes nothing. |
| AudioEngine.SetEngineMode | js/audio-engine.js:934-971 | The same mode is a no-op. A real change before init writes the new mode and then throws. Otherwise it switches mode and beeps at 880 or 440 Hz. A playing engine is stopped for a restart; a silent one is rebuilt in the new mode. A change leaves the manager initialised and keeps its gain and turbo. |
| AudioEngine.EarlyModeRequestSticks | js/audio-engine.js:793-946 | A mode request before init throws, but the mode it wrote survives, so init builds the engine sound in the requested mode. |
| AudioEngine.FinishModeRestart | js/audio-engine.js:958-967 | The restart timer replaces the engine sound with a new one in the manager's current mode and starts that mode's sources, fading in to 0.3. Nothing else changes. |
| AudioEngine.ModeChangeRestartsInNewMode | js/audio-engine.js:934-967 | A mode change while the engine plays keeps the old sound for its fade. The restart timer then plays the requested mode's sources. |
| AudioEngine.ModeToggleRoundTrip | js/audio-engine.js:934-971 | Toggling the mode twice on a silent, initialised manager restores it. |
| Physics.FlatUniformLength | js/physics.js:100-110 | Concatenating parts of equal length k gives k entries per part. |
| Physics.FlatUniformAt | js/physics.js:100-110 | With equal-length parts, part t occupies positions k t to k t + k. |
| Physics.FlatMembers | js/physics.js:66-76 | Every element of a concatenation comes from one of its parts. |
| Physics.FlatLength | js/physics.js:66-76 | A concatenation's length is the sum of its parts' lengths. |
| Physics.FaceIndices | js/physics.js:66-76 | An invalid face contributes nothing. A face with n >= 3 vertices contributes n - 2 triangles. |
| Physics.FanTriangles | js/physics.js:72-75 | Triangle t of a face is (f0, f(t+1), f(t+2)). |
| Physics.FanUsesFaceVertices | js/physics.js:66-76 | A face's triangles use only its own vertices, and only a valid face contributes any. |
| Physics.FanSizes | js/physics.js:66-76 | A valid face of n vertices contributes n - 2 triangles, and any other entry none. |
| Physics.FlatLengthScaled | js/physics.js:66-110 | When each part holds k entries per unit of its count, the concatenation holds k entries per unit of the total. |
| Physics.ConvexIndices | js/physics.js:66-76 | The index buffer holds three indices per fan triangle, summed over the valid faces. |
| Physics.BuildFan | js/physics.js:72-75 | The inner loop pushes exactly the fan of the face. |
| Physics.BuildConvexIndices | js/physics.js:66-76 | The outer loop skips invalid faces and builds exactly the concatenation of the valid faces' fans. |
| Physics.ConvexIndicesFromFaces | js/physics.js:66-76 | Every index in the buffer is a vertex named by some valid face. |
| Physics.ConvexIndicesSnoc | js/physics.js:66-76 | Each face appends its own fan to the buffer. |
| Physics.FlatSnoc | js/physics.js:66-76 | Concatenating one more part appends it at the end. |
| Physics.GridRows | js/physics.js:89-97 | There is one coordinate row per grid row. |
| Physics.GridPoint | js/physics.js:89-97 | Each grid point pushes three coordinates, with the height in the middle. For an even row count n, row n/2 sits at x = 0. For an even column count m, column m/2 sits at z = 0. |
| Physics.RowLengths | js/physics.js:89-97 | There is one point count per grid row, equal to that row's length. |
| Physics.GridRowLengths | js/physics.js:89-97 | Each grid row pushes three coordinates per point. |
| Physics.HeightfieldVertices | js/physics.js:89-97 | The vertex buffer holds three coordinates per grid point, for any grid. |
| Physics.Cell | js/physics.js:100-110 | A cell pushes two triangles that share the diagonal between its second and third corners. The corners are the point at (i, j), its right neighbour, the point below it and that point's right neighbour. |
| Physics.CellCounts | js/physics.js:100-101 | Every row except the last has one cell fewer than its points. |
| Physics.CellRow | js/physics.js:101-108 | A row of cells pushes six indices per cell. |
| Physics.HeightfieldIndices | js/physics.js:100-110 | A grid of at most one row has no triangles. Otherwise the buffer holds six indices per cell, summed over the rows. |
| Physics.GridRowsUniform | js/physics.js:89-97 | In a rectangular grid every row contributes 3 cols coordinates. |
| Physics.HeightfieldVertexCount | js/physics.js:89-97 | A rows x cols grid gives 3 rows cols vertex coordinates. |
| Physics.GridCoordinateAt | js/physics.js:89-97 | Coordinate c of point (i, j) sits at offset 3 (i cols + j) + c. |
| Physics.HeightfieldVertexAt | js/physics.js:89-97 | Point (i, j) has x = (i - rows/2) size, y = data[i][j] and z = (j - cols/2) size, at offset 3 (i cols + j). |
| Physics.HeightfieldTriangles | js/physics.js:100-110 | A rows x cols grid gives 2 (rows-1)(cols-1) triangles, and every index names one of its rows cols points. |
| Physics.CellInGrid | js/physics.js:102-106 | A cell's four corners lie inside the grid. |
| Physics.Clear | js/physics.js:136-142 | Every debug mesh leaves the scene, every other scene object stays, and the list empties. |
| Physics.Dispose | js/physics.js:301-320 | A debug renderer, if present, has its meshes cleared from the scene and is dropped. Every other scene object stays. Without a world nothing else happens. With one, every body and then every constraint is removed in list order, leaving the world empty. |
| VehicleSpecs.GetVehicleSpec | js/vehicle-specs.js:336-338 | "rx7" and "r360" return their records, and any other id returns the default record. |
| VehicleSpecs.GetPhysicsConfig | js/vehicle-specs.js:345-354 | Each physics field is carried over from the spec unchanged. |
| VehicleSpecs.GetAudioConfig | js/vehicle-specs.js:361-370 | Each audio field is carried over, and the turbo section becomes its enabled flag. |
| VehicleSpecs.LookupTotal | js/vehicle-specs.js:336-338 | Lookup never fails. It returns the default record exactly when the id is not in the table. |
| VehicleSpecs.MaxForceIsTurboForce | js/vehicle-specs.js:60-279 | In every record the maximum force is the base force times the turbo multiplier, and the physics projection keeps that relation. |
| VehicleSpecs.OnlyRx7IsAdvancedWithTurbo | js/vehicle-specs.js:88-310 | The advanced sound and the turbo are enabled exactly for "rx7". |
| VehicleSpecs.HarmonicTablesDecrease | js/vehicle-specs.js:90-304 | Every record's harmonic table starts at 1 and strictly decreases. |
| Ui.Round | js/ui.js:62 | Rounding returns the integer within half a unit, with halves going up. |
| Ui.RoundUnique | js/ui.js:62 | That integer is unique. |
| Ui.Kmh | js/ui.js:60-66 | The reading is m/s times 3.6, rounded. |
| Ui.KmhMonotone | js/ui.js:60-66 | A faster car never shows a lower reading, and standing still shows 0. |
| Ui.UpdateSpeed | js/ui.js:60-66 | The reading is written only if the element exists, and nothing else changes. |
| Ui.UpdateCollectedItems | js/ui.js:87-98 | Slot i is filled exactly when there is a non-empty i-th item, and then it shows that item. Otherwise it is cleared. |
| Ui.FilledCount | js/ui.js:87-98 | No more slots are filled than exist. |
| Ui.FilledSlotsMatchItems | js/ui.js:87-98 | With non-empty names, exactly min(items, slots) slots light up. |
| Ui.ShowInstructions | js/ui.js:100-104 | The instructions panel is toggled if it exists, and nothing else changes. |
| Ui.ShowLoading | js/ui.js:106-113 | The loading panel is toggled if it exists. Only showing it replaces the text. |
| Ui.ShowLoadingDefault | js/ui.js:106-113 | With no arguments, an existing loading panel is shown with the default message. |
| Ui.HidingKeepsMessage | js/ui.js:106-113 | Hiding the loading panel keeps the message it last showed. |
| Game.FrameDelta | js/main.js:167-168 | The frame step is elapsed/1000, and it is never above 0.1 s. |
| Game.StallsAreCut | js/main.js:168 | Every stall of 100 ms or more gives the same 0.1 s step. |
| Game.Animate | js/main.js:162-197 | A stopped loop does nothing. A running loop makes nine calls with a chassis and eight without. It schedules the next frame first and renders last, and every stage appears once, in order. The camera follows exactly when a chassis exists. |
| Game.EveryManagerEveryFrame | js/main.js:166-196 | A running frame calls physics, the vehicle, mesh sync, the terrain, the items, the UI and the renderer, whether or not a chassis exists. |
| Game.OneStepPerFrame | js/main.js:168-199 | Every manager in a frame sees the same step. |
| Game.PhysicsBeforeConsumers | js/main.js:171-190 | Physics steps before the car, the items and the camera read it. |
| Game.Pause | js/main.js:226-228 | Pausing stops the loop and keeps the clock. |
| Game.Resume | js/main.js:230-236 | Resuming a running loop does nothing. Resuming a paused loop runs a full frame at once: every stage in order, with the physics step taking the time since resume. |
| Game.ResumeForgetsPause | js/main.js:230-236 | The first frame after resuming steps by the time since resume, not by the length of the pause. |
| Game.PausedFramesAreEmpty | js/main.js:162-163 | Frames do nothing while paused. |
| Game.AdjustCamera | js/main.js:130-145 | The named field becomes its old value plus delta, clamped to its range (distance [5, 30], height [2, 20], side offset [-10, 10]). No other field changes, and an unknown name changes nothing. |
| Game.AdjustInsideRange | js/main.js:133-141 | Inside its range, each field moves by exactly delta. Past the end of its range it stops at that end. |
| Game.CameraStaysInRange | js/main.js:130-145 | No sequence of adjustments leaves the ranges. |
| Game.AdjustAll | js/main.js:130-145 | A run of adjustments never touches the follow factor. A field that no press names keeps its value. |
| Game.InitialCameraInRange | js/config.js:94-105 | The configured camera starts inside the ranges. |

## Left out

- Three.js and Cannon.js are not modelled. That covers meshes, materials, shapes, raycast
  wheels, the solver and `world.step`. Their results (velocity lengths, distances, tilt
  angles, unit directions) are inputs, and the model's output is the list of calls made
  into them.
- Trigonometry, `asin` of the tilt, and quaternion rotation of the torques into world
  space are left out. Torques are stated in the chassis frame, before `vmult`.
- The slope angle (`atan2`) and the rotation it sets are left out. Only the height and the
  geometry's height are modelled.
- The floating and spinning item animation and the collect particle effect are visual only.
  So are the mesh and sprite removal and the `showMessage` toast of `collectItem`.
- The randomness of `createItem`, `createObstacles` and the ring jitter is taken as draws in
  [0, 1). Positions are given, not computed.
- The Web Audio node graph is not modelled. That covers filters, envelopes, reverb, the
  effects chain, `CollisionSound`, `TireSound` synthesis, the item chime's tone, and the
  mode-change beep's envelope. The model states which calls and targets are made, not the
  resulting waveform.
- AudioEngine.Advanced: the resonance gain `max(sin(2 pi rpm) * 0.25, 0)` is not stated,
  because it needs trigonometry.
- The `setTimeout` callbacks of `EngineSound.stop`, `TurboSound.stop` and the delayed
  restart in `setEngineMode` are separate operations (`FinishEngineStop`,
  `FinishTurboStop`, `FinishModeRestart`). Their timing is left out, and so is the
  interleaving of a restart timer with a later stop or mode change.
- `AudioIntegration.init`, `setupUserInteraction`, `resume`, `getDebugInfo` and debug
  logging are left out. They are I/O or diagnostics.
- `UIManager.showTurbo` (a 100 ms hide timer), `showMessage`, `updateDebugInfo`, the debug
  panel and the elevator warning are left out, because they are timers and DOM styling.
- `PhysicsManager.init`, `createMaterials`, `update`, `setDebugMode`, `updateDebugVisuals`,
  `clearDebugVisuals`, the body factories, `syncMeshWithBody` and the debug renderer's
  `update` and other shapes are left out. They only forward to the engine.
- Physics.Dispose: `World.removeBody` and `removeConstraint` belong to the engine. Each is
  taken to remove the element at the front of its list. Disposing the debug renderer's
  geometries and material frees GPU memory and is not modelled.
- The `Game` constructor's `init`, `setupInputCallbacks` (apart from the camera callback),
  `updateUI`'s debug block and `dispose` are left out. They are wiring and I/O.
- `VehicleManager.createVehicle`, `loadModel`, `updateWheelMeshes`, `syncMeshWithBody`,
  `getPosition` and `dispose` are left out. They are engine and asset calls.
- VehicleSpecs: the 3-D model, gameplay and dashboard sections of the records are left out,
  because no lookup reads them. Wheel fields that are the same in all three records are
  listed in a comment, not stored. An id such as "toString", which hits an
  `Object.prototype` key in `getVehicleSpec`, is not modelled.
- Game.AdjustCamera: for a name other than the three fields, the source stores the
  unchanged adjustments and then throws while formatting the message
  (`adjustments[type].toFixed`). The model returns the unchanged adjustments and does not
  model the throw. The input layer only ever sends the three field names.
- Items.Init: the placed positions are inputs. The ring points `cos` and `sin` of the turn
  fraction times the radius, and the random jitter of up to 2.5 m on each axis, need
  trigonometry and randomness. `TurnFraction` and `RingRadius` state the angle and radius.
- Items.CountCollected states only the upper bound on the count. Its exact value follows
  from `CountMarkOne`, `NoneCollected` and the count clauses of `CollectItem`, `Update` and
  `Reset`.
- Scene management (js/scene.js) is not part of this model.

=== FILE: audio_engine.dfy ===
/** The procedural sound engine's parameter arithmetic (js/audio-engine.js): the preset
    table, the harmonic oscillator layout, the engine sound's speed-to-target mapping, the
    turbo pitch, and the start/stop guards of the engine, turbo and manager.

    The Web Audio graph is outside the model: a "target" is the value a parameter is ramped
    towards, and starting a sound is reported as the list of sources it starts. The stops
    complete on a timer; that completion is a separate operation here. */
module AudioEngine {
  import opened Basics

  // ------------------------------------------------------------ presets

  const IdleBaseFrequency: real := 80.0
  const IdleHarmonics: seq<real> := [1.0, 0.7, 0.5, 0.3, 0.2]
  const IdleNoiseAmount: real := 0.1
  const AccelerationFrequencyMultiplier: real := 2.5
  const DecelerationFrequencyMultiplier: real := 0.8
  const TurboWhineFrequency: real := 2000.0

  // ------------------------------------------------------------ oscillators

  datatype Waveform = Sawtooth | Sine

  /** One oscillator of a harmonic bank, with the gain node behind it. */
  datatype Oscillator = Oscillator(frequency: real, waveform: Waveform, gain: real)

  /** `createHarmonicOscillators(baseFrequency, harmonics)`: one oscillator per amplitude. */
  function HarmonicOscillators(base: real, amplitudes: seq<real>): (os: seq<Oscillator>)
    ensures |os| == |amplitudes|
    ensures forall i :: 0 <= i < |os| ==> os[i].gain == amplitudes[i]
    ensures forall i :: 0 <= i < |os| ==> (os[i].waveform == Sawtooth <==> i == 0)
    ensures forall i :: 0 <= i < |os| ==> os[i].frequency == base * (i + 1) as real
  {
    seq(|amplitudes|, i requires 0 <= i < |amplitudes| =>
      Oscillator(base * (i + 1) as real, if i == 0 then Sawtooth else Sine, amplitudes[i]))
  }

  /** The bank is a harmonic series: consecutive oscillators are `base` apart, so every
      oscillator sits at an integer multiple of the first. */
  lemma HarmonicSeries(base: real, amplitudes: seq<real>)
    requires |amplitudes| > 0
    ensures var os := HarmonicOscillators(base, amplitudes);
            && os[0].frequency == base
            && (forall i :: 0 <= i < |os| - 1 ==> os[i + 1].frequency - os[i].frequency == base)
  {
    var os := HarmonicOscillators(base, amplitudes);
    forall i | 0 <= i < |os| - 1
      ensures os[i + 1].frequency - os[i].frequency == base
    {
      assert os[i + 1].frequency == base * (i + 1) as real + base;
    }
  }

  /** The idle bank: 80, 160, 240, 320 and 400 Hz, with amplitudes falling off. */
  lemma IdleBank()
    ensures var os := HarmonicOscillators(IdleBaseFrequency, IdleHarmonics);
            && |os| == 5
            && os[0].frequency == 80.0 && os[4].frequency == 400.0
            && (forall i :: 0 <= i < 4 ==> os[i + 1].gain < os[i].gain)
  {
  }

  // ------------------------------------------------------------ engine targets

  /** `Math.min(speed / 30, 1)`: simulated rpm. */
  function Rpm(speed: real): (r: real)
    ensures r <= 1.0
    ensures speed >= 0.0 ==> 0.0 <= r
    ensures speed >= 30.0 ==> r == 1.0
    ensures speed <= 30.0 ==> r * 30.0 == speed
  {
    Min(speed / 30.0, 1.0)
  }

  lemma RpmMonotone(s1: real, s2: real)
    requires s1 <= s2
    ensures Rpm(s1) <= Rpm(s2)
  {
  }

  /** The pitch multiplier chosen by the sign of the acceleration. */
  function FrequencyMultiplier(acceleration: real): (m: real)
    ensures acceleration > 0.0 ==> m == AccelerationFrequencyMultiplier
    ensures acceleration < 0.0 ==> m == DecelerationFrequencyMultiplier
    ensures acceleration == 0.0 ==> m == 1.0
  {
    if acceleration > 0.0 then AccelerationFrequencyMultiplier
    else if acceleration < 0.0 then DecelerationFrequencyMultiplier
    else 1.0
  }

  /** The targets only advanced mode sets (the resonance gain, a sine of rpm, is left out). */
  datatype AdvancedTargets = AdvancedTargets(
    exhaustGain: real,
    exhaustPulseFrequency: real,
    intakeGain: real,
    mechanicalFrequency: real,
    mechanicalGain: real,
    resonanceFrequency: real,
    exhaustFilterFrequency: real,
    mechanicalFilterFrequency: real,
    resonanceFilterFrequency: real)

  /** Everything `updateSpeed` ramps towards. */
  datatype EngineTargets = EngineTargets(
    harmonicFrequencies: seq<real>,
    advanced: Option<AdvancedTargets>,
    noiseGain: real,
    masterGain: real)

  /** Exhaust intensity: strong at low rpm, weaker at high rpm, floored at 0.2. */
  function ExhaustIntensity(rpm: real): (g: real)
    ensures g >= 0.2
    ensures 0.0 <= rpm <= 1.0 ==> 0.3 <= g <= 0.8 && g == 0.8 - rpm * 0.5
  {
    Max(0.8 - rpm * 0.5, 0.2)
  }

  lemma ExhaustNonIncreasing(r1: real, r2: real)
    requires r1 <= r2
    ensures ExhaustIntensity(r2) <= ExhaustIntensity(r1)
  {
  }

  /** Intake intensity: 0.6 per unit rpm under throttle, 0.2 otherwise. */
  function IntakeIntensity(rpm: real, acceleration: real): (g: real)
    ensures 0.0 <= rpm <= 1.0 ==> 0.0 <= g <= 0.6
    ensures acceleration > 0.0 ==> g == rpm * 0.6
    ensures acceleration <= 0.0 ==> g == rpm * 0.2
  {
    if acceleration > 0.0 then rpm * 0.6 else rpm * 0.2
  }

  /** The advanced-mode targets: the exhaust and intake intensities, and sources and filters
      whose frequencies (and the mechanical gain) rise linearly from their idle value. The
      resonance gain, a sine of rpm, is not among them. */
  function Advanced(rpm: real, acceleration: real): (t: AdvancedTargets)
    ensures t.exhaustGain == ExhaustIntensity(rpm) && t.intakeGain == IntakeIntensity(rpm, acceleration)
    ensures t.exhaustPulseFrequency == 25.0 * (1.0 + rpm)
    ensures t.mechanicalFrequency == 150.0 + 450.0 * rpm && t.mechanicalGain == 0.1 + 0.15 * rpm
    ensures t.resonanceFrequency == 200.0 * (1.0 + 2.0 * rpm)
    ensures t.exhaustFilterFrequency == 150.0 * (1.0 + rpm)
    ensures t.mechanicalFilterFrequency == 800.0 + 600.0 * rpm
    ensures t.resonanceFilterFrequency == 400.0 * (1.0 + 2.0 * rpm)
    ensures 0.0 <= rpm <= 1.0 ==>
              && 0.3 <= t.exhaustGain <= 0.8
              && 25.0 <= t.exhaustPulseFrequency <= 50.0
              && 0.0 <= t.intakeGain <= 0.6
              && 150.0 <= t.mechanicalFrequency <= 600.0
              && 0.1 <= t.mechanicalGain <= 0.25
              && 200.0 <= t.resonanceFrequency <= 600.0
              && 150.0 <= t.exhaustFilterFrequency <= 300.0
              && 800.0 <= t.mechanicalFilterFrequency <= 1400.0
              && 400.0 <= t.resonanceFilterFrequency <= 1200.0
  {
    AdvancedTargets(
      ExhaustIntensity(rpm),
      25.0 + rpm * 25.0,
      IntakeIntensity(rpm, acceleration),
      150.0 + rpm * 450.0,
      0.1 + rpm * 0.15,
      200.0 + rpm * 400.0,
      150.0 + rpm * 150.0,
      800.0 + rpm * 600.0,
      400.0 + rpm * 800.0)
  }

  /** Revving up raises every advanced-mode frequency, the mechanical gain and the intake,
      and thins the exhaust. */
  lemma AdvancedRisesWithRpm(r1: real, r2: real, acceleration: real)
    requires r1 <= r2
    ensures Advanced(r1, acceleration).exhaustPulseFrequency <= Advanced(r2, acceleration).exhaustPulseFrequency
    ensures Advanced(r1, acceleration).mechanicalFrequency <= Advanced(r2, acceleration).mechanicalFrequency
    ensures Advanced(r1, acceleration).mechanicalGain <= Advanced(r2, acceleration).mechanicalGain
    ensures Advanced(r1, acceleration).resonanceFrequency <= Advanced(r2, acceleration).resonanceFrequency
    ensures Advanced(r1, acceleration).exhaustFilterFrequency <= Advanced(r2, acceleration).exhaustFilterFrequency
    ensures Advanced(r1, acceleration).mechanicalFilterFrequency <= Advanced(r2, acceleration).mechanicalFilterFrequency
    ensures Advanced(r1, acceleration).resonanceFilterFrequency <= Advanced(r2, acceleration).resonanceFilterFrequency
    ensures Advanced(r1, acceleration).intakeGain <= Advanced(r2, acceleration).intakeGain
    ensures Advanced(r2, acceleration).exhaustGain <= Advanced(r1, acceleration).exhaustGain
  {
    ExhaustNonIncreasing(r1, r2);
  }

  /** At idle and at the rev limit, the advanced targets are the two ends of their bands. */
  lemma AdvancedBandEnds(acceleration: real)
    ensures Advanced(0.0, acceleration) == AdvancedTargets(0.8, 25.0, 0.0, 150.0, 0.1, 200.0, 150.0, 800.0, 400.0)
    ensures Advanced(1.0, acceleration) ==
              AdvancedTargets(0.3, 50.0, if acceleration > 0.0 then 0.6 else 0.2, 600.0, 0.25, 600.0, 300.0, 1400.0, 1200.0)
  {
  }

  /** The engine sound as `updateSpeed` sees it: its mode and whether it is playing. */
  datatype EngineSound = EngineSound(advancedMode: bool, playing: bool)

  /** Simple mode drives one oscillator; advanced mode the five-harmonic bank. */
  function HarmonicCount(advancedMode: bool): (n: nat)
    ensures advancedMode ==> n == 5
    ensures !advancedMode ==> n == 1
    ensures advancedMode ==> forall i :: 0 <= i < n ==> StartedSources(true)[i] == Harmonic(i)
  {
    if advancedMode then |IdleHarmonics| else 1
  }

  /** The pitch targets of an `n`-oscillator bank: oscillator k (from 0) aims at
      80 (1 + speed/20) (k + 1) times the throttle multiplier. */
  function HarmonicFrequencies(speed: real, acceleration: real, n: nat): (fs: seq<real>)
    ensures |fs| == n
  {
    seq(n, k requires 0 <= k < n => HarmonicTarget(speed, acceleration, k))
  }

  function HarmonicTarget(speed: real, acceleration: real, k: nat): (f: real)
    ensures speed == 0.0 && acceleration == 0.0 ==> f == IdleBaseFrequency * (k + 1) as real
    ensures speed > -20.0 ==> f > 0.0
  {
    TargetPositive(speed, (k + 1) as real, FrequencyMultiplier(acceleration));
    IdleBaseFrequency * (1.0 + speed / 20.0) * (k + 1) as real * FrequencyMultiplier(acceleration)
  }

  lemma TargetPositive(speed: real, harmonic: real, multiplier: real)
    requires harmonic > 0.0 && multiplier > 0.0
    ensures speed > -20.0 ==> IdleBaseFrequency * (1.0 + speed / 20.0) * harmonic * multiplier > 0.0
  {
    if speed > -20.0 {
      var base := IdleBaseFrequency * (1.0 + speed / 20.0);
      MulLtMono(0.0, 1.0 + speed / 20.0, IdleBaseFrequency);
      MulLtMono(0.0, base, harmonic);
      MulLtMono(0.0, base * harmonic, multiplier);
    }
  }

  /** `updateSpeed(speed, acceleration)`: nothing while silent. */
  function UpdateSpeed(e: EngineSound, speed: real, acceleration: real): (t: Option<EngineTargets>)
    ensures t.Some? <==> e.playing
    ensures t.Some? ==> t.value.harmonicFrequencies == HarmonicFrequencies(speed, acceleration, HarmonicCount(e.advancedMode))
    ensures t.Some? ==> (t.value.advanced.Some? <==> e.advancedMode)
    ensures t.Some? && e.advancedMode ==> t.value.advanced.value == Advanced(Rpm(speed), acceleration)
    ensures t.Some? ==> t.value.noiseGain == IdleNoiseAmount + speed / 100.0
    ensures t.Some? && e.advancedMode ==> t.value.masterGain == 0.4 + speed / 200.0
    ensures t.Some? && !e.advancedMode ==> t.value.masterGain == 0.3 + speed / 200.0
  {
    if !e.playing then None
    else
      var freqs := HarmonicFrequencies(speed, acceleration, HarmonicCount(e.advancedMode));
      var rpm := Rpm(speed);
      Some(EngineTargets(
        freqs,
        if e.advancedMode then Some(Advanced(rpm, acceleration)) else None,
        IdleNoiseAmount + speed / 100.0,
        (if e.advancedMode then 0.4 else 0.3) + speed / 200.0))
  }

  /** Oscillator i (harmonic i + 1) targets 80 (1 + speed/20) (i + 1) times the multiplier,
      so the whole bank stays a harmonic series of the first oscillator. */
  lemma HarmonicTargets(e: EngineSound, speed: real, acceleration: real, i: nat)
    requires e.playing && i < HarmonicCount(e.advancedMode)
    ensures var fs := UpdateSpeed(e, speed, acceleration).value.harmonicFrequencies;
            && fs[i] == IdleBaseFrequency * (1.0 + speed / 20.0) * (i + 1) as real * FrequencyMultiplier(acceleration)
            && fs[i] == (i + 1) as real * fs[0]
  {
    var n := HarmonicCount(e.advancedMode);
    var fs := HarmonicFrequencies(speed, acceleration, n);
    assert UpdateSpeed(e, speed, acceleration).value.harmonicFrequencies == fs;
    HarmonicAt(speed, acceleration, n, i);
    HarmonicAt(speed, acceleration, n, 0);
    HarmonicScaling(speed, acceleration, i);
  }

  /** Oscillator i aims at i + 1 times the fundamental's target. */
  lemma HarmonicScaling(speed: real, acceleration: real, i: nat)
    ensures HarmonicTarget(speed, acceleration, i) == (i + 1) as real * HarmonicTarget(speed, acceleration, 0)
  {
    Rearrange(IdleBaseFrequency * (1.0 + speed / 20.0), (i + 1) as real, FrequencyMultiplier(acceleration));
  }

  lemma HarmonicAt(speed: real, acceleration: real, n: nat, i: nat)
    requires i < n
    ensures HarmonicFrequencies(speed, acceleration, n)[i] == HarmonicTarget(speed, acceleration, i)
  {
  }

  lemma Rearrange(a: real, b: real, c: real)
    ensures a * b * c == b * (a * 1.0 * c)
  {
  }

  /** Throttle raises every harmonic above its coasting pitch, which is above its braking pitch,
      as long as the car is not rolling backwards faster than 20 m/s. */
  lemma ThrottleRaisesPitch(e: EngineSound, speed: real, k: nat)
    requires e.playing && 1 <= k <= HarmonicCount(e.advancedMode) && speed > -20.0
    ensures UpdateSpeed(e, speed, -1.0).value.harmonicFrequencies[k - 1]
            < UpdateSpeed(e, speed, 0.0).value.harmonicFrequencies[k - 1]
            < UpdateSpeed(e, speed, 1.0).value.harmonicFrequencies[k - 1]
  {
    var n := HarmonicCount(e.advancedMode);
    var coasting := HarmonicTarget(speed, 0.0, k - 1);
    HarmonicAt(speed, -1.0, n, k - 1);
    HarmonicAt(speed, 0.0, n, k - 1);
    HarmonicAt(speed, 1.0, n, k - 1);
    assert UpdateSpeed(e, speed, -1.0).value.harmonicFrequencies[k - 1] == HarmonicTarget(speed, -1.0, k - 1);
    assert UpdateSpeed(e, speed, 0.0).value.harmonicFrequencies[k - 1] == coasting;
    assert UpdateSpeed(e, speed, 1.0).value.harmonicFrequencies[k - 1] == HarmonicTarget(speed, 1.0, k - 1);
    TargetScales(speed, -1.0, k - 1);
    TargetScales(speed, 1.0, k - 1);
    MulLtMono(0.8, 1.0, coasting);
    MulLtMono(1.0, 2.5, coasting);
  }

  /** The throttle multiplier scales the coasting target. */
  lemma TargetScales(speed: real, acceleration: real, k: nat)
    ensures HarmonicTarget(speed, acceleration, k) == FrequencyMultiplier(acceleration) * HarmonicTarget(speed, 0.0, k)
  {
  }

  /** The advanced mode is always exactly 0.1 louder than simple mode at the same speed. */
  lemma AdvancedIsLouder(speed: real, acceleration: real)
    ensures UpdateSpeed(EngineSound(true, true), speed, acceleration).value.masterGain
            == UpdateSpeed(EngineSound(false, true), speed, acceleration).value.masterGain + 0.1
  {
  }

  // ------------------------------------------------------------ engine start / stop

  /** An audio source a `start` call sets running. */
  datatype Source =
    | Harmonic(index: nat)
    | SimpleOscillator
    | VibrationLfo
    | ExhaustPulse
    | ExhaustLfo
    | IntakeNoise
    | MechanicalOscillator
    | ResonanceOscillator
    | EngineNoise

  /** What a `start` does: the sources it starts and the gain it fades the master to. */
  datatype Started = Started(sources: seq<Source>, fadeTo: real)

  /** The sources `start` starts, in order, for each mode. */
  function StartedSources(advancedMode: bool): (ss: seq<Source>)
    ensures advancedMode ==> |ss| == |IdleHarmonics| + 7
    ensures !advancedMode ==> ss == [SimpleOscillator, VibrationLfo, EngineNoise]
    ensures forall i, j :: 0 <= i < j < |ss| ==> ss[i] != ss[j]
    ensures VibrationLfo in ss && EngineNoise in ss
  {
    if advancedMode then
      seq(|IdleHarmonics|, i requires 0 <= i < |IdleHarmonics| => Harmonic(i))
      + [VibrationLfo, ExhaustPulse, ExhaustLfo, IntakeNoise, MechanicalOscillator, ResonanceOscillator, EngineNoise]
    else
      [SimpleOscillator, VibrationLfo, EngineNoise]
  }

  /** `EngineSound.start`: a second start while playing does nothing. */
  function StartEngineSound(e: EngineSound): (r: (EngineSound, Option<Started>))
    ensures r.0 == e.(playing := true)
    ensures e.playing ==> r.1.None?
    ensures !e.playing ==> r.1 == Some(Started(StartedSources(e.advancedMode), 0.3))
  {
    if e.playing then (e, None)
    else (e.(playing := true), Some(Started(StartedSources(e.advancedMode), 0.3)))
  }

  /** `EngineSound.stop`: fades out at once; the sources stop and `isPlaying` clears only
      when the 500 ms timer fires (`FinishEngineStop`). Returns whether a fade was scheduled. */
  function StopEngineSound(e: EngineSound): (r: (EngineSound, bool))
    ensures r.0 == e && r.1 == e.playing
  {
    (e, e.playing)
  }

  /** The timer callback of `stop`: the engine is silent and its nodes are rebuilt in the same mode. */
  function FinishEngineStop(e: EngineSound): (r: EngineSound)
    ensures r == EngineSound(e.advancedMode, false)
  {
    EngineSound(e.advancedMode, false)
  }

  /** A start issued between a stop and its timer is swallowed: the sound is still marked as
      playing, so nothing is started, and the timer then silences it. */
  lemma StartDuringFadeIsLost(e: EngineSound)
    requires e.playing
    ensures StartEngineSound(StopEngineSound(e).0).1.None?
    ensures !FinishEngineStop(StartEngineSound(StopEngineSound(e).0).0).playing
  {
  }

  // ------------------------------------------------------------ turbo

  datatype TurboSound = TurboSound(active: bool)

  /** `TurboSound.start`: rebuilds and starts the whine and whoosh, fading them to 0.3 and 0.5. */
  function StartTurboSound(t: TurboSound): (r: (TurboSound, bool))
    ensures r.0.active
    ensures r.1 <==> !t.active
  {
    if t.active then (t, false) else (TurboSound(true), true)
  }

  /** `TurboSound.stop`: fades out; `isActive` clears only when the 400 ms timer fires. */
  function FinishTurboStop(t: TurboSound): (r: TurboSound)
    ensures !r.active
  {
    TurboSound(false)
  }

  /** `TurboSound.stop`: fades out at once; the whine stops and `isActive` clears only when
      the 400 ms timer fires (`FinishTurboStop`). Returns whether a fade was scheduled. */
  function StopTurboSound(t: TurboSound): (r: (TurboSound, bool))
    ensures r.0 == t && r.1 == t.active
  {
    (t, t.active)
  }

  /** A turbo start issued inside the 400 ms stop window is swallowed, and the timer then
      leaves the turbo inactive even though the driver is still holding it. */
  lemma TurboStartDuringFadeIsLost(t: TurboSound)
    requires t.active
    ensures StopTurboSound(t).1
    ensures !StartTurboSound(StopTurboSound(t).0).1
    ensures !FinishTurboStop(StartTurboSound(StopTurboSound(t).0).0).active
  {
  }

  /** Outside a stop window, a start always brings an inactive turbo up and starts the whine,
      and pitch updates reach it from then on. */
  lemma TurboStartThenPitch(t: TurboSound, speed: real)
    requires !t.active
    ensures StartTurboSound(t).1
    ensures TurboPitch(StartTurboSound(t).0, speed).Some?
    ensures TurboPitch(FinishTurboStop(StartTurboSound(t).0), speed).None?
  {
  }

  /** `TurboSound.updateSpeed`: the whine and its filter target 2000 (1 + speed/40) Hz. */
  function TurboPitch(t: TurboSound, speed: real): (f: Option<real>)
    ensures f.Some? <==> t.active
    ensures f.Some? && speed >= 0.0 ==> f.value >= TurboWhineFrequency
    ensures f.Some? ==> f.value == TurboWhineFrequency + speed * 50.0
  {
    if t.active then Some(TurboWhineFrequency * (1.0 + speed / 40.0)) else None
  }

  // ------------------------------------------------------------ manager

  /** `AdvancedAudioManager`: the sounds exist only once initialised. */
  datatype Manager = Manager(
    initialized: bool,
    advancedEngineMode: bool,
    masterGain: real,
    engine: EngineSound,
    turbo: TurboSound)

  function NewManager(): (m: Manager)
    ensures !m.initialized && !m.advancedEngineMode
  {
    Manager(false, false, 0.0, EngineSound(false, false), TurboSound(false))
  }

  /** `init`: builds the sounds in the current mode with the master gain at 0.7; once only. */
  function Init(m: Manager): (r: Manager)
    ensures m.initialized ==> r == m
    ensures !m.initialized ==>
              r.initialized && r.masterGain == 0.7 && r.engine == EngineSound(m.advancedEngineMode, false)
              && !r.turbo.active && r.advancedEngineMode == m.advancedEngineMode
  {
    if m.initialized then m
    else Manager(true, m.advancedEngineMode, 0.7, EngineSound(m.advancedEngineMode, false), TurboSound(false))
  }

  /** `setMasterVolume`: clamped to [0, 1]; ignored before `init`. */
  function SetMasterVolume(m: Manager, volume: real): (r: Manager)
    ensures !m.initialized ==> r == m
    ensures m.initialized ==> r == m.(masterGain := r.masterGain) && 0.0 <= r.masterGain <= 1.0
    ensures m.initialized && 0.0 <= volume <= 1.0 ==> r.masterGain == volume
    ensures m.initialized && volume < 0.0 ==> r.masterGain == 0.0
    ensures m.initialized && volume > 1.0 ==> r.masterGain == 1.0
  {
    if !m.initialized then m else m.(masterGain := Clamp(0.0, 1.0, volume))
  }

  /** `startEngine`: forwarded to the engine sound once initialised. */
  function ManagerStartEngine(m: Manager): (r: (Manager, Option<Started>))
    ensures !m.initialized ==> r == (m, None)
    ensures m.initialized ==> r.0 == m.(engine := m.engine.(playing := true))
    ensures r.1.Some? <==> m.initialized && !m.engine.playing
    ensures m.initialized && !m.engine.playing ==>
              r.1 == Some(Started(StartedSources(m.engine.advancedMode), 0.3))
  {
    if !m.initialized then (m, None)
    else
      var (e, started) := StartEngineSound(m.engine);
      (m.(engine := e), started)
  }

  /** `startTurbo`: forwarded to the turbo sound once initialised. */
  function ManagerStartTurbo(m: Manager): (r: (Manager, bool))
    ensures !m.initialized ==> r == (m, false)
    ensures m.initialized ==> r.0.turbo.active
    ensures m.initialized ==> r.0 == m.(turbo := TurboSound(true))
    ensures r.1 <==> m.initialized && !m.turbo.active
  {
    if !m.initialized then (m, false)
    else
      var (t, started) := StartTurboSound(m.turbo);
      (m.(turbo := t), started)
  }

  /** A second start through the manager does nothing: the engine is already playing and
      the turbo already active. */
  lemma ManagerStartsAreIdempotent(m: Manager)
    ensures ManagerStartEngine(ManagerStartEngine(m).0) == (ManagerStartEngine(m).0, None)
    ensures ManagerStartTurbo(ManagerStartTurbo(m).0) == (ManagerStartTurbo(m).0, false)
  {
  }

  /** The outcome of `setEngineMode`. */
  datatype ModeChange =
    | Unchanged
      /** The mode flag is written first; the read of `this.context.state` that follows then
          throws when there is no context yet, leaving the written flag behind. */
    | Throws(manager: Manager)
    | Changed(manager: Manager, beepFrequency: real, restarting: bool)

  /** `setEngineMode(useAdvanced)`: a real change beeps (880 Hz for advanced, 440 Hz for
      simple) and rebuilds the engine sound, restarting it after a delay if it was playing. */
  function SetEngineMode(m: Manager, useAdvanced: bool): (r: ModeChange)
    ensures useAdvanced == m.advancedEngineMode <==> r.Unchanged?
    ensures r.Throws? <==> useAdvanced != m.advancedEngineMode && !m.initialized
    ensures r.Throws? ==> r.manager == m.(advancedEngineMode := useAdvanced)
    ensures r.Changed? ==> r.manager.advancedEngineMode == useAdvanced
    ensures r.Changed? ==> r.beepFrequency == (if useAdvanced then 880.0 else 440.0)
    ensures r.Changed? ==> r.restarting == m.engine.playing
    ensures r.Changed? && !m.engine.playing ==> r.manager.engine == EngineSound(useAdvanced, false)
    ensures r.Changed? ==> r.manager.initialized && r.manager.masterGain == m.masterGain && r.manager.turbo == m.turbo
    ensures r.Changed? && m.engine.playing ==> r.manager.engine == m.engine
  {
    if m.advancedEngineMode == useAdvanced then Unchanged
    else if !m.initialized then Throws(m.(advancedEngineMode := useAdvanced))
    else
      var beep := if useAdvanced then 880.0 else 440.0;
      if m.engine.playing then
        Changed(m.(advancedEngineMode := useAdvanced), beep, true)
      else
        Changed(m.(advancedEngineMode := useAdvanced, engine := EngineSound(useAdvanced, false)), beep, false)
  }

  /** Toggling the mode twice on an initialised, silent manager returns it to where it was. */
  lemma ModeToggleRoundTrip(m: Manager)
    requires m.initialized && !m.engine.playing && m.engine.advancedMode == m.advancedEngineMode
    ensures var once := SetEngineMode(m, !m.advancedEngineMode);
            once.Changed? && SetEngineMode(once.manager, m.advancedEngineMode) == Changed(m, if m.advancedEngineMode then 880.0 else 440.0, false)
  {
  }

  /** A mode request before `init` throws, but the mode it wrote survives: `init` then
      builds the engine sound in the requested mode. */
  lemma EarlyModeRequestSticks(m: Manager, useAdvanced: bool)
    requires !m.initialized && useAdvanced != m.advancedEngineMode
    ensures SetEngineMode(m, useAdvanced).Throws?
    ensures Init(SetEngineMode(m, useAdvanced).manager).engine == EngineSound(useAdvanced, false)
  {
  }

  /** The 600 ms timer of a mode change made while the engine was playing: a new engine sound
      is built in the manager's current mode and started at once. */
  function FinishModeRestart(m: Manager): (r: (Manager, Started))
    ensures r.0 == m.(engine := EngineSound(m.advancedEngineMode, true))
    ensures r.1 == Started(StartedSources(m.advancedEngineMode), 0.3)
  {
    var (e, started) := StartEngineSound(EngineSound(m.advancedEngineMode, false));
    (m.(engine := e), started.value)
  }

  /** Switching mode while the engine plays keeps the old sound fading until the restart timer,
      which then plays the new mode's sources: the sound ends up playing, in the requested mode. */
  lemma ModeChangeRestartsInNewMode(m: Manager, useAdvanced: bool)
    requires m.initialized && m.engine.playing && useAdvanced != m.advancedEngineMode
    ensures var c := SetEngineMode(m, useAdvanced);
            && c.Changed? && c.restarting && c.manager.engine == m.engine
            && FinishModeRestart(c.manager).0.engine == EngineSound(useAdvanced, true)
            && FinishModeRestart(c.manager).1.sources == StartedSources(useAdvanced)
  {
  }
}

=== FILE: audio_integration.dfy ===
/** The glue between the game and the sound engine (js/audio-integration.js): the enable,
    engine-running, turbo and drift flags, and which sound-engine calls each operation makes.
    Calls into the sound engine are recorded as a trace instead of being performed. */
module AudioIntegration {
  import opened Basics

  /** A call into the sound engine's manager, in the order the integration makes it. */
  datatype AudioCall =
    | StartEngine
    | StopEngine
    | UpdateEngineSpeed(speed: real, acceleration: real)
    | StartTurbo
    | StopTurbo
    | UpdateTurboSpeed(turboSpeed: real)
    | StartTireScreech
    | StopTireScreech
    | SetMasterVolume(volume: real)
    | PlayCollision(intensity: real)
    | PlayItemCollect
    | SetEngineMode(advanced: bool)

  /** The integration's own fields; `masterVolume` is `settings.masterVolume`. */
  datatype Integration = Integration(
    enabled: bool,
    engineRunning: bool,
    currentSpeed: real,
    currentAcceleration: real,
    turboActive: bool,
    drifting: bool,
    masterVolume: real)

  /** The new state and the calls made on the way. */
  datatype Step = Step(state: Integration, calls: seq<AudioCall>)

  /** What the game reports each frame. */
  datatype VehicleState = VehicleState(speed: real, acceleration: real, isTurbo: bool, isDrifting: bool)

  /** While sound is disabled nothing is playing. */
  predicate Consistent(s: Integration) {
    !s.enabled ==> !s.engineRunning && !s.turboActive && !s.drifting
  }

  /** The constructor's state: enabled, silent, master volume 0.8. */
  function Initial(): (s: Integration)
    ensures s.enabled && !s.engineRunning && !s.turboActive && !s.drifting
    ensures Consistent(s)
  {
    Integration(true, false, 0.0, 0.0, false, false, 0.8)
  }

  /** `startEngine`: only when enabled and not yet running. */
  function DoStartEngine(s: Integration): (r: Step)
    ensures (!s.enabled || s.engineRunning) ==> r == Step(s, [])
    ensures s.enabled && !s.engineRunning ==> r == Step(s.(engineRunning := true), [StartEngine])
    ensures Consistent(s) ==> Consistent(r.state)
  {
    if !s.enabled || s.engineRunning then Step(s, [])
    else Step(s.(engineRunning := true), [StartEngine])
  }

  /** `stopEngine`: only when running; turbo and drift flags are left as they are. */
  function DoStopEngine(s: Integration): (r: Step)
    ensures !s.engineRunning ==> r == Step(s, [])
    ensures s.engineRunning ==> r == Step(s.(engineRunning := false), [StopEngine])
    ensures !r.state.engineRunning
    ensures Consistent(s) ==> Consistent(r.state)
  {
    if !s.engineRunning then Step(s, [])
    else Step(s.(engineRunning := false), [StopEngine])
  }

  /** The start or stop call a flag change makes: `start` on a rising edge, `stop` on a falling one. */
  function Transition(was: bool, now: bool, start: AudioCall, stop: AudioCall): (r: seq<AudioCall>)
    requires start != stop
    ensures start in r <==> now && !was
    ensures stop in r <==> !now && was
    ensures forall c :: c in r ==> c == start || c == stop
  {
    if now && !was then [start]
    else if !now && was then [stop]
    else []
  }

  /** `updateVehicleState`: feeds the engine sound, then starts or stops the turbo and the
      tyre screech on the edges of their flags. Ignored unless enabled and running. */
  function UpdateVehicleState(s: Integration, v: VehicleState): (r: Step)
    ensures !s.enabled || !s.engineRunning ==> r == Step(s, [])
    ensures s.enabled && s.engineRunning ==>
              && r.state == s.(turboActive := v.isTurbo, drifting := v.isDrifting,
                               currentSpeed := v.speed, currentAcceleration := v.acceleration)
              && |r.calls| >= 1 && r.calls[0] == UpdateEngineSpeed(v.speed, v.acceleration)
    ensures Consistent(s) ==> Consistent(r.state)
  {
    if !s.enabled || !s.engineRunning then Step(s, [])
    else
      var turboCalls := Transition(s.turboActive, v.isTurbo, StartTurbo, StopTurbo);
      var turboSpeed := if v.isTurbo then [UpdateTurboSpeed(v.speed)] else [];
      var screechCalls := Transition(s.drifting, v.isDrifting, StartTireScreech, StopTireScreech);
      var calls := [UpdateEngineSpeed(v.speed, v.acceleration)] + turboCalls + turboSpeed + screechCalls;
      Step(s.(turboActive := v.isTurbo, drifting := v.isDrifting,
              currentSpeed := v.speed, currentAcceleration := v.acceleration), calls)
  }

  /** The calls of an accepted update: the engine-speed call, the turbo transition, the turbo
      pitch on turbo frames, and the screech transition, in that order. */
  lemma AcceptedCalls(s: Integration, v: VehicleState)
    requires s.enabled && s.engineRunning
    ensures UpdateVehicleState(s, v).calls
            == [UpdateEngineSpeed(v.speed, v.acceleration)]
               + Transition(s.turboActive, v.isTurbo, StartTurbo, StopTurbo)
               + (if v.isTurbo then [UpdateTurboSpeed(v.speed)] else [])
               + Transition(s.drifting, v.isDrifting, StartTireScreech, StopTireScreech)
  {
  }

  /** An accepted update starts the turbo only on a rising edge of its flag and stops it only on
      a falling edge; the turbo pitch follows the speed on every turbo frame. */
  lemma TurboEdges(s: Integration, v: VehicleState)
    requires s.enabled && s.engineRunning
    ensures var calls := UpdateVehicleState(s, v).calls;
            && (StartTurbo in calls <==> v.isTurbo && !s.turboActive)
            && (StopTurbo in calls <==> !v.isTurbo && s.turboActive)
            && (UpdateTurboSpeed(v.speed) in calls <==> v.isTurbo)
  {
    AcceptedCalls(s, v);
  }

  /** Likewise the tyre screech, on the edges of the drift flag; and an update never starts
      or stops the engine itself. */
  lemma ScreechEdges(s: Integration, v: VehicleState)
    requires s.enabled && s.engineRunning
    ensures var calls := UpdateVehicleState(s, v).calls;
            && (StartTireScreech in calls <==> v.isDrifting && !s.drifting)
            && (StopTireScreech in calls <==> !v.isDrifting && s.drifting)
            && StartEngine !in calls && StopEngine !in calls
  {
    AcceptedCalls(s, v);
  }

  /** `playCollision`: forwarded only while enabled. */
  function DoPlayCollision(s: Integration, impactForce: real): (r: Step)
    ensures r.state == s
    ensures s.enabled ==> r.calls == [PlayCollision(impactForce)]
    ensures !s.enabled ==> r.calls == []
  {
    Step(s, if s.enabled then [PlayCollision(impactForce)] else [])
  }

  /** `playCollision()` with its default impact force of 0.5. */
  function DoPlayCollisionDefault(s: Integration): (r: Step)
    ensures r.state == s
    ensures s.enabled ==> r.calls == [PlayCollision(0.5)]
    ensures !s.enabled ==> r.calls == []
  {
    DoPlayCollision(s, 0.5)
  }

  /** `playItemCollect`: a chime, only while enabled and once the audio context exists. */
  function DoPlayItemCollect(s: Integration, contextReady: bool): (r: Step)
    ensures r.state == s
    ensures r.calls == [PlayItemCollect] <==> s.enabled && contextReady
    ensures r.calls == [] <==> !(s.enabled && contextReady)
  {
    Step(s, if s.enabled && contextReady then [PlayItemCollect] else [])
  }

  /** `setMasterVolume(volume)`: the setting is overwritten before it is read, so the manager
      receives `volume * volume`. */
  function DoSetMasterVolume(s: Integration, volume: real): (r: Step)
    ensures r.state == s.(masterVolume := volume)
    ensures r.calls == [SetMasterVolume(volume * volume)]
    ensures Consistent(s) ==> Consistent(r.state)
  {
    var s' := s.(masterVolume := volume);
    var sent := volume * s'.masterVolume;
    assert sent == volume * volume;
    Step(s', [SetMasterVolume(sent)])
  }

  /** The stop calls of muting and of `dispose`, in source order: the engine (through
      `stopEngine`, so only if it runs), then the turbo, then the screech. */
  function StopCalls(engineRunning: bool, turboActive: bool, drifting: bool): (c: seq<AudioCall>)
    ensures StopEngine in c <==> engineRunning
    ensures StopTurbo in c <==> turboActive
    ensures StopTireScreech in c <==> drifting
    ensures |c| <= 3
    ensures forall i, j :: 0 <= i < j < |c| ==> StopRank(c[i]) < StopRank(c[j])
  {
    (if engineRunning then [StopEngine] else [])
      + (if turboActive then [StopTurbo] else [])
      + (if drifting then [StopTireScreech] else [])
  }

  /** Where a stop call comes in `toggleMute` and `dispose`; other calls rank last. */
  function StopRank(c: AudioCall): nat {
    match c
    case StopEngine => 0
    case StopTurbo => 1
    case StopTireScreech => 2
    case _ => 3
  }

  /** `toggleMute`: flips `isEnabled` and returns the new value. Muting stops the engine, the
      turbo and the screech; unmuting restarts nothing. */
  function ToggleMute(s: Integration): (r: (Step, bool))
    ensures r.1 == !s.enabled && r.0.state.enabled == r.1
    ensures !r.1 ==> !r.0.state.engineRunning && !r.0.state.turboActive && !r.0.state.drifting
    ensures !r.1 ==>
              && (StopEngine in r.0.calls <==> s.engineRunning)
              && (StopTurbo in r.0.calls <==> s.turboActive)
              && (StopTireScreech in r.0.calls <==> s.drifting)
    ensures !r.1 ==> r.0 == Step(s.(enabled := false, engineRunning := false, turboActive := false, drifting := false),
                                 StopCalls(s.engineRunning, s.turboActive, s.drifting))
    ensures r.1 ==> r.0 == Step(s.(enabled := true), [])
    ensures Consistent(r.0.state)
  {
    var flipped := s.(enabled := !s.enabled);
    if !flipped.enabled then
      var stopped := DoStopEngine(flipped);
      var turbo := if stopped.state.turboActive then [StopTurbo] else [];
      var screech := if stopped.state.drifting then [StopTireScreech] else [];
      (Step(stopped.state.(turboActive := false, drifting := false), stopped.calls + turbo + screech), false)
    else if flipped.engineRunning then
      // `startEngine` is guarded by `isEngineRunning`, so this branch makes no call.
      (DoStartEngine(flipped), true)
    else
      (Step(flipped, []), true)
  }

  /** `toggleEngineMode`: asks the manager for the other mode and returns it. */
  function ToggleEngineMode(s: Integration, currentAdvanced: bool): (r: (Step, bool))
    ensures r.1 == !currentAdvanced
    ensures r.0 == Step(s, [SetEngineMode(!currentAdvanced)])
  {
    (Step(s, [SetEngineMode(!currentAdvanced)]), !currentAdvanced)
  }

  /** `setVehicleSpec`: with an audio section, selects advanced mode iff the spec's engine
      mode is exactly "advanced". */
  function SetVehicleSpec(s: Integration, audioEngineMode: Option<string>): (r: Step)
    ensures r.state == s
    ensures audioEngineMode.None? ==> r.calls == []
    ensures audioEngineMode.Some? ==> r.calls == [SetEngineMode(audioEngineMode.value == "advanced")]
  {
    match audioEngineMode
    case None => Step(s, [])
    case Some(mode) => Step(s, [SetEngineMode(mode == "advanced")])
  }

  /** `dispose`: stops the engine and any turbo or screech, without clearing their flags. */
  function Dispose(s: Integration): (r: Step)
    ensures r == Step(s.(engineRunning := false), StopCalls(s.engineRunning, s.turboActive, s.drifting))
    ensures !r.state.engineRunning
    ensures r.state.turboActive == s.turboActive && r.state.drifting == s.drifting
    ensures (StopEngine in r.calls <==> s.engineRunning)
    ensures (StopTurbo in r.calls <==> s.turboActive)
    ensures (StopTireScreech in r.calls <==> s.drifting)
    ensures Consistent(s) ==> Consistent(r.state)
  {
    var stopped := DoStopEngine(s);
    stopped.(calls := stopped.calls
                      + (if s.turboActive then [StopTurbo] else [])
                      + (if s.drifting then [StopTireScreech] else []))
  }

  /** Muting already stopped everything, so a `dispose` after it makes no call; and since
      `dispose` keeps the turbo and drift flags, disposing twice repeats their stops. */
  lemma DisposeAfterMuteIsSilent(s: Integration)
    requires s.enabled
    ensures Dispose(ToggleMute(s).0.state).calls == []
    ensures Dispose(Dispose(s).state).calls == StopCalls(false, s.turboActive, s.drifting)
  {
  }

  // ------------------------------------------------------------ sessions

  /** One operation the game can invoke on the integration. */
  datatype Op =
    | OpStartEngine
    | OpStopEngine
    | OpUpdate(v: VehicleState)
    | OpToggleMute
    | OpSetMasterVolume(volume: real)
    | OpPlayCollision(impactForce: real)
    | OpDispose

  function Apply(s: Integration, op: Op): Step {
    match op
    case OpStartEngine => DoStartEngine(s)
    case OpStopEngine => DoStopEngine(s)
    case OpUpdate(v) => UpdateVehicleState(s, v)
    case OpToggleMute => ToggleMute(s).0
    case OpSetMasterVolume(v) => DoSetMasterVolume(s, v)
    case OpPlayCollision(f) => DoPlayCollision(s, f)
    case OpDispose => Dispose(s)
  }

  /** The state after a whole session of operations. */
  function Run(s: Integration, ops: seq<Op>): Integration
    decreases |ops|
  {
    if |ops| == 0 then s else Run(Apply(s, ops[0]).state, ops[1..])
  }

  /** Whatever the game does, from construction on, sound is never playing while disabled. */
  lemma {:induction false} SessionsStayConsistent(s: Integration, ops: seq<Op>)
    requires Consistent(s)
    ensures Consistent(Run(s, ops))
    decreases |ops|
  {
    if |ops| > 0 {
      var next := Apply(s, ops[0]).state;
      assert Consistent(next) by {
        match ops[0]
        case OpStartEngine =>
        case OpStopEngine =>
        case OpUpdate(v) =>
        case OpToggleMute =>
        case OpSetMasterVolume(v) =>
        case OpPlayCollision(f) =>
        case OpDispose =>
      }
      SessionsStayConsistent(next, ops[1..]);
    }
  }

  /** Muting then unmuting leaves sound enabled but silent: the engine is not restarted. */
  lemma MuteUnmuteDoesNotRestart(s: Integration)
    requires s.enabled
    ensures var muted := ToggleMute(s).0;
            var unmuted := ToggleMute(muted.state).0;
            unmuted.state.enabled && !unmuted.state.engineRunning && StartEngine !in unmuted.calls
  {
  }

  /** Reporting the same vehicle state twice in a row starts and stops nothing the second time. */
  lemma RepeatedUpdateIsQuiet(s: Integration, v: VehicleState)
    ensures var second := UpdateVehicleState(UpdateVehicleState(s, v).state, v);
            StartTurbo !in second.calls && StopTurbo !in second.calls
            && StartTireScreech !in second.calls && StopTireScreech !in second.calls
  {
    var first := UpdateVehicleState(s, v).state;
    if first.enabled && first.engineRunning {
      TurboEdges(first, v);
      ScreechEdges(first, v);
    }
  }

  /** The engine sound starts at most once however often `startEngine` is called. */
  lemma StartEngineOnce(s: Integration)
    ensures DoStartEngine(DoStartEngine(s).state).calls == []
    ensures |DoStartEngine(s).calls + DoStartEngine(DoStartEngine(s).state).calls| <= 1
  {
  }
}

=== FILE: basics.dfy ===
/** Shared vocabulary for the game model: optional values, 3-vectors,
    quaternions and the `Math.min`/`Math.max` clamps the game code uses everywhere. */
module Basics {

  datatype Option<+T> = None | Some(value: T)

  /** A Cannon.js / Three.js vector, with real components. */
  datatype Vec3 = Vec3(x: real, y: real, z: real)

  /** A rotation as stored by the physics engine, in (x, y, z, w) order. */
  datatype Quat = Quat(x: real, y: real, z: real, w: real)

  const Zero: Vec3 := Vec3(0.0, 0.0, 0.0)
  const Identity: Quat := Quat(0.0, 0.0, 0.0, 1.0)

  function Min(a: real, b: real): (r: real)
    ensures r <= a && r <= b
    ensures r == a || r == b
  {
    if a <= b then a else b
  }

  function Max(a: real, b: real): (r: real)
    ensures r >= a && r >= b
    ensures r == a || r == b
  {
    if a >= b then a else b
  }

  function Abs(x: real): (r: real)
    ensures r >= 0.0
    ensures r == x || r == -x
  {
    if x >= 0.0 then x else -x
  }

  /** `Math.max(lo, Math.min(hi, v))`: the clamp idiom of the game code. */
  function Clamp(lo: real, hi: real, v: real): (r: real)
    requires lo <= hi
    ensures lo <= r <= hi
    ensures lo <= v <= hi ==> r == v
    ensures v < lo ==> r == lo
    ensures v > hi ==> r == hi
  {
    Max(lo, Min(hi, v))
  }

  // ---- small facts about real products, used by the attenuation curves ----

  /** Scaling by a factor in [0, 1] moves a value towards zero without crossing it. */
  lemma ScaleBetween(x: real, f: real)
    requires 0.0 <= f <= 1.0
    ensures x >= 0.0 ==> 0.0 <= x * f <= x
    ensures x <= 0.0 ==> x <= x * f <= 0.0
  {
  }

  /** `q` raised to the `n`-th power. */
  function Pow(q: real, n: nat): real
  {
    if n == 0 then 1.0 else q * Pow(q, n - 1)
  }

  lemma ScaledTwice(x: real, p: real, q: real)
    ensures (x * p) * q == x * (q * p)
  {
  }

  lemma MulLeMono(a: real, b: real, c: real)
    requires a <= b && c >= 0.0
    ensures a * c <= b * c
  {
  }

  lemma MulLtMono(a: real, b: real, c: real)
    requires a < b && c > 0.0
    ensures a * c < b * c
  {
  }

  lemma DivLeMono(a: real, b: real, c: real)
    requires a <= b && c > 0.0
    ensures a / c <= b / c
  {
  }
}

=== FILE: config.dfy ===
/** The game's tuning constants (js/config.js): vehicle, slope, camera, items,
    key bindings and spawn defaults. Every other module is parameterised by these. */
module Config {
  import opened Basics

  // ---- VEHICLE.chassis / mass / wheel ----
  const ChassisDepth: real := 4.29
  const ChassisWidth: real := 1.76
  const ChassisHeight: real := 0.83
  const Mass: real := 170.0
  const WheelRadius: real := 0.33
  /** Lateral offset of every wheel: 42% of the chassis width. */
  const AxisPosition: real := 1.76 * 0.42

  // ---- VEHICLE.engine ----
  const BaseForce: real := 700.0
  const TurboMultiplier: real := 1500.0 / 700.0
  const BrakeForce: real := 10.0
  const MaxSpeed: real := 25.0

  // ---- VEHICLE.steering ----
  const BaseMaxSteerVal: real := 0.65
  const SteerHighSpeedThreshold: real := 15.0
  const SteerMinFactorAtHighSpeed: real := 0.5
  const SteerReductionSpeedRange: real := 30.0

  // ---- VEHICLE.engineForce (high-speed attenuation) ----
  const EngineHighSpeedThreshold: real := 30.0
  const EngineMinFactorAtHighSpeed: real := 0.2
  const EngineReductionSpeedRange: real := 50.0

  // ---- VEHICLE.stabilization ----
  const RollCorrectionStrength: real := 25.0
  const RollCorrectionSpeed: real := 0.1
  const PitchCorrectionStrength: real := 10.0
  const PitchCorrectionSpeed: real := 0.03

  // ---- SLOPE ----
  const SlopeDefaultHeight: real := 3.0
  const SlopeLength: real := 15.0
  const SlopeAdjustmentStep: real := 0.5

  // ---- CAMERA.adjustments (initial values) ----
  const CameraDistance: real := 10.0
  const CameraHeight: real := 10.0
  const CameraSideOffset: real := 10.0

  // ---- ITEMS ----
  const MaxCollected: nat := 3
  const CollectRadius: real := 2.0

  /** The 25 emoji an item may show, in table order. */
  const ItemTypes: seq<string> := [
    "\U{26BD}", "\U{1F3C0}", "\U{1F3C8}", "\U{26BE}", "\U{1F3BE}",
    "\U{1F3D0}", "\U{1F3C9}", "\U{1F3B1}", "\U{1F3D3}", "\U{1F3F8}",
    "\U{1F94A}", "\U{1F94B}", "\U{1F3F9}", "\U{26F3}", "\U{1F3A3}",
    "\U{1F3BF}", "\U{1F6F7}", "\U{1F94C}", "\U{1F3AF}", "\U{1F3B3}",
    "\U{1F3AE}", "\U{1F3B2}", "\U{1F3B8}", "\U{1F3A8}", "\U{1F3AD}"
  ]

  // ---- KEY_MAPPINGS ----

  /** The four actions a mapped key can drive. */
  datatype DriveAction = Acceleration | Braking | Left | Right

  const KeyMappings: map<string, DriveAction> := map[
    "KeyW" := Acceleration, "ArrowUp" := Acceleration,
    "KeyS" := Braking, "ArrowDown" := Braking,
    "KeyA" := Left, "ArrowLeft" := Left,
    "KeyD" := Right, "ArrowRight" := Right
  ]

  // ---- DEFAULTS ----
  const InitialPosition: Vec3 := Vec3(0.0, 2.0, 10.0)
  const InitialQuaternion: Quat := Quat(0.0, 0.0, 0.0, 1.0)

  /** Eight keys are bound, a letter and an arrow for each action; Space and Shift are not
      among them (they are handled apart). */
  lemma KeyMappingsBindings()
    ensures KeyMappings.Keys == {"KeyW", "ArrowUp", "KeyS", "ArrowDown", "KeyA", "ArrowLeft", "KeyD", "ArrowRight"}
    ensures KeyMappings["KeyW"] == Acceleration && KeyMappings["ArrowUp"] == Acceleration
    ensures KeyMappings["KeyS"] == Braking && KeyMappings["ArrowDown"] == Braking
    ensures KeyMappings["KeyA"] == Left && KeyMappings["ArrowLeft"] == Left
    ensures KeyMappings["KeyD"] == Right && KeyMappings["ArrowRight"] == Right
    ensures "Space" !in KeyMappings && "ShiftLeft" !in KeyMappings && "ShiftRight" !in KeyMappings
  {
  }

  /** Full turbo force is 1500 N: the multiplier is written as 1500/700 over a 700 N base. */
  lemma TurboForceIs1500()
    ensures BaseForce * TurboMultiplier == 1500.0
    ensures TurboMultiplier > 1.0
  {
  }

  /** Both attenuation curves keep a strictly positive floor and a positive range. */
  lemma AttenuationCurvesWellFormed()
    ensures 0.0 < EngineMinFactorAtHighSpeed <= 1.0 && EngineReductionSpeedRange > 0.0
    ensures 0.0 < SteerMinFactorAtHighSpeed <= 1.0 && SteerReductionSpeedRange > 0.0
  {
  }

  /** Three collected items are kept on screen, chosen from 25 distinct emoji. */
  lemma ItemTableShape()
    ensures MaxCollected == 3 && |ItemTypes| == 25
    ensures forall i, j :: 0 <= i < j < |ItemTypes| ==> ItemTypes[i] != ItemTypes[j]
  {
  }

  /** The spawn orientation is the identity rotation. */
  lemma InitialQuaternionIsIdentity()
    ensures InitialQuaternion == Identity
  {
  }
}

=== FILE: game.dfy ===
/** The game loop (js/main.js): the frame time step, the order in which a frame drives the
    managers, the camera-adjustment callback, and pause / resume. The managers themselves are
    the other modules; here a frame is the list of calls it makes. */
module Game {
  import opened Basics
  import Config

  /** The longest step a frame may take, in seconds. */
  const MaxFrameStep: real := 0.1

  /** The step for `elapsed` milliseconds since the previous frame. */
  function FrameDelta(elapsed: real): (dt: real)
    ensures dt <= MaxFrameStep
    ensures elapsed <= 100.0 ==> dt == elapsed / 1000.0
    ensures elapsed >= 100.0 ==> dt == MaxFrameStep
    ensures elapsed >= 0.0 ==> dt >= 0.0
  {
    Min(elapsed / 1000.0, MaxFrameStep)
  }

  /** A long stall is cut to one tenth of a second, however long it was. */
  lemma StallsAreCut(e1: real, e2: real)
    requires 100.0 <= e1 <= e2
    ensures FrameDelta(e1) == FrameDelta(e2) == MaxFrameStep
  {
  }

  // ------------------------------------------------------------ one frame

  /** A call one frame makes, with the step it passes where it passes one. */
  datatype Call =
    | ScheduleNextFrame
    | PhysicsStep(dt: real)
    | VehicleUpdate(dt: real)
    | MeshSync
    | TerrainUpdate(dt: real)
    | ItemsUpdate
    | CameraFollow
    | UiUpdate(dt: real)
    | Render

  /** Where each call belongs in a frame. */
  function Stage(c: Call): nat {
    match c
    case ScheduleNextFrame => 0
    case PhysicsStep(_) => 1
    case VehicleUpdate(_) => 2
    case MeshSync => 3
    case TerrainUpdate(_) => 4
    case ItemsUpdate => 5
    case CameraFollow => 6
    case UiUpdate(_) => 7
    case Render => 8
  }

  /** The loop's own state. */
  datatype Loop = Loop(isRunning: bool, lastTime: real)

  /** The constructor's state: stopped, clock at 0. */
  const Constructed: Loop := Loop(false, 0.0)

  /** `animate` at clock `now` (milliseconds), with or without a chassis to follow. */
  function Animate(l: Loop, now: real, chassisPresent: bool): (r: (Loop, seq<Call>))
    ensures !l.isRunning ==> r == (l, [])
    ensures l.isRunning ==> r.0 == Loop(true, now)
    ensures l.isRunning ==> |r.1| == (if chassisPresent then 9 else 8)
    ensures l.isRunning ==> r.1[0] == ScheduleNextFrame && r.1[|r.1| - 1] == Render
    ensures l.isRunning ==> forall i :: 0 <= i < |r.1| ==>
              Stage(r.1[i]) == if chassisPresent || i < 6 then i else i + 1
    ensures CameraFollow in r.1 <==> l.isRunning && chassisPresent
    ensures forall i, j :: 0 <= i < j < |r.1| ==> Stage(r.1[i]) < Stage(r.1[j])
    ensures forall i :: 0 <= i < |r.1| && r.1[i].PhysicsStep? ==> r.1[i].dt == FrameDelta(now - l.lastTime)
  {
    if !l.isRunning then (l, [])
    else
      var dt := FrameDelta(now - l.lastTime);
      var camera := if chassisPresent then [CameraFollow] else [];
      var calls := [ScheduleNextFrame, PhysicsStep(dt), VehicleUpdate(dt), MeshSync, TerrainUpdate(dt), ItemsUpdate]
                   + camera + [UiUpdate(dt), Render];
      (Loop(true, now), calls)
  }

  /** A running frame calls every manager, whether or not there is a chassis; only the
      camera follow depends on one. */
  lemma EveryManagerEveryFrame(l: Loop, now: real, chassisPresent: bool)
    requires l.isRunning
    ensures var dt := FrameDelta(now - l.lastTime);
            var calls := Animate(l, now, chassisPresent).1;
            && PhysicsStep(dt) in calls && VehicleUpdate(dt) in calls && MeshSync in calls
            && TerrainUpdate(dt) in calls && ItemsUpdate in calls && UiUpdate(dt) in calls && Render in calls
  {
    var dt := FrameDelta(now - l.lastTime);
    var calls := Animate(l, now, chassisPresent).1;
    assert calls[1] == PhysicsStep(dt) && calls[2] == VehicleUpdate(dt) && calls[3] == MeshSync;
    assert calls[4] == TerrainUpdate(dt) && calls[5] == ItemsUpdate;
    assert calls[|calls| - 2] == UiUpdate(dt);
  }

  /** Every manager in a frame sees the same step, and it is never above 0.1 s. */
  lemma OneStepPerFrame(l: Loop, now: real, chassisPresent: bool)
    requires l.isRunning
    ensures var calls := Animate(l, now, chassisPresent).1;
            forall i :: 0 <= i < |calls| && (calls[i].PhysicsStep? || calls[i].VehicleUpdate? || calls[i].TerrainUpdate? || calls[i].UiUpdate?) ==>
              calls[i].dt == FrameDelta(now - l.lastTime) && calls[i].dt <= MaxFrameStep
  {
  }

  /** The physics world steps before the car reads it, and the car moves before the items
      look for it and the camera follows it. */
  lemma PhysicsBeforeConsumers(l: Loop, now: real, chassisPresent: bool, i: nat, j: nat)
    requires var calls := Animate(l, now, chassisPresent).1;
             i < |calls| && j < |calls| && calls[i].PhysicsStep? && (calls[j].ItemsUpdate? || calls[j].CameraFollow? || calls[j].VehicleUpdate?)
    ensures i < j
  {
  }

  /** `pause`. */
  function Pause(l: Loop): (r: Loop)
    ensures !r.isRunning && r.lastTime == l.lastTime
  {
    l.(isRunning := false)
  }

  /** `resume` at clock `now`, whose immediate frame reads the clock again at `later`. */
  function Resume(l: Loop, now: real, later: real, chassisPresent: bool): (r: (Loop, seq<Call>))
    ensures l.isRunning ==> r == (l, [])
    ensures !l.isRunning ==> r.0 == Loop(true, later)
    ensures !l.isRunning ==> |r.1| == (if chassisPresent then 9 else 8)
    ensures !l.isRunning ==> forall i :: 0 <= i < |r.1| ==>
              Stage(r.1[i]) == if chassisPresent || i < 6 then i else i + 1
    ensures !l.isRunning ==> forall i :: 0 <= i < |r.1| && r.1[i].PhysicsStep? ==> r.1[i].dt == FrameDelta(later - now)
  {
    if l.isRunning then (l, [])
    else Animate(Loop(true, now), later, chassisPresent)
  }

  /** However long the game was paused, the first frame after resuming steps only by the time
      since `resume` itself, not by the pause. */
  lemma ResumeForgetsPause(l: Loop, now: real, later: real, chassisPresent: bool)
    requires l.isRunning
    ensures var r := Resume(Pause(l), now, later, chassisPresent);
            r.1[1] == PhysicsStep(FrameDelta(later - now))
  {
  }

  /** Once paused, frames do nothing until `resume`. */
  lemma PausedFramesAreEmpty(l: Loop, now: real, chassisPresent: bool)
    ensures Animate(Pause(l), now, chassisPresent) == (Pause(l), [])
  {
  }

  // ------------------------------------------------------------ camera adjustment

  /** `CAMERA.adjustments`: the camera's distance, height and sideways offset. */
  datatype Adjustments = Adjustments(distance: real, height: real, sideOffset: real, followFactor: real)

  const InitialAdjustments: Adjustments :=
    Adjustments(Config.CameraDistance, Config.CameraHeight, Config.CameraSideOffset, 0.1)

  /** Every adjustable field is inside its range. */
  predicate InRange(a: Adjustments) {
    5.0 <= a.distance <= 30.0 && 2.0 <= a.height <= 20.0 && -10.0 <= a.sideOffset <= 10.0
  }

  /** The `onCameraAdjust(type, delta)` callback: clamps the field `type` names and nothing else. */
  function AdjustCamera(a: Adjustments, kind: string, delta: real): (r: Adjustments)
    ensures kind == "distance" ==> r == a.(distance := Clamp(5.0, 30.0, a.distance + delta))
    ensures kind == "height" ==> r == a.(height := Clamp(2.0, 20.0, a.height + delta))
    ensures kind == "sideOffset" ==> r == a.(sideOffset := Clamp(-10.0, 10.0, a.sideOffset + delta))
    ensures kind == "distance" ==> 5.0 <= r.distance <= 30.0
    ensures kind == "height" ==> 2.0 <= r.height <= 20.0
    ensures kind == "sideOffset" ==> -10.0 <= r.sideOffset <= 10.0
    ensures kind !in {"distance", "height", "sideOffset"} ==> r == a
    ensures r.followFactor == a.followFactor
  {
    if kind == "distance" then a.(distance := Clamp(5.0, 30.0, a.distance + delta))
    else if kind == "height" then a.(height := Clamp(2.0, 20.0, a.height + delta))
    else if kind == "sideOffset" then a.(sideOffset := Clamp(-10.0, 10.0, a.sideOffset + delta))
    else a
  }

  /** Inside its range, a field moves by exactly `delta`; past either end it stops at the end. */
  lemma AdjustInsideRange(a: Adjustments, delta: real)
    ensures 5.0 <= a.distance + delta <= 30.0 ==> AdjustCamera(a, "distance", delta).distance == a.distance + delta
    ensures 2.0 <= a.height + delta <= 20.0 ==> AdjustCamera(a, "height", delta).height == a.height + delta
    ensures -10.0 <= a.sideOffset + delta <= 10.0 ==>
              AdjustCamera(a, "sideOffset", delta).sideOffset == a.sideOffset + delta
    ensures a.distance + delta > 30.0 ==> AdjustCamera(a, "distance", delta).distance == 30.0
    ensures a.height + delta < 2.0 ==> AdjustCamera(a, "height", delta).height == 2.0
    ensures a.sideOffset + delta < -10.0 ==> AdjustCamera(a, "sideOffset", delta).sideOffset == -10.0
  {
  }

  /** A sequence of camera-key presses. */
  function AdjustAll(a: Adjustments, presses: seq<(string, real)>): (r: Adjustments)
    ensures r.followFactor == a.followFactor
    ensures (forall k :: 0 <= k < |presses| ==> presses[k].0 != "distance") ==> r.distance == a.distance
    ensures (forall k :: 0 <= k < |presses| ==> presses[k].0 != "height") ==> r.height == a.height
    ensures (forall k :: 0 <= k < |presses| ==> presses[k].0 != "sideOffset") ==> r.sideOffset == a.sideOffset
    decreases |presses|
  {
    if |presses| == 0 then a
    else AdjustAll(AdjustCamera(a, presses[0].0, presses[0].1), presses[1..])
  }

  /** Starting from the configured camera, no sequence of presses leaves the ranges. */
  lemma {:induction false} CameraStaysInRange(a: Adjustments, presses: seq<(string, real)>)
    requires InRange(a)
    ensures InRange(AdjustAll(a, presses))
    decreases |presses|
  {
    if |presses| > 0 {
      CameraStaysInRange(AdjustCamera(a, presses[0].0, presses[0].1), presses[1..]);
    }
  }

  lemma InitialCameraInRange()
    ensures InRange(InitialAdjustments)
  {
  }
}

=== FILE: input.dfy ===
/** Keyboard state machine of the input manager (js/input.js): a record of raw key
    states, the six vehicle action flags, and the named callback slots that special
    keys dispatch to. Browser events are reduced to their `code` (and `ctrlKey`). */
module Input {
  import opened Basics
  import opened Config

  /** `vehicleActions`: what the vehicle controller reads every frame. */
  datatype Actions = Actions(
    acceleration: bool,
    braking: bool,
    left: bool,
    right: bool,
    turbo: bool,
    handbrake: bool)

  const NoActions: Actions := Actions(false, false, false, false, false, false)

  /** An opaque handler registered by the game (its identity is all that matters here). */
  datatype Handler = Handler(id: nat)

  /** The argument a special key passes to its callback. */
  datatype Arg = NoArg | Amount(amount: real) | CameraArg(kind: string, delta: real)

  /** One callback invocation caused by a key press. */
  datatype Invocation = Invocation(slot: string, handler: Handler, arg: Arg)

  datatype InputState = InputState(
    keys: map<string, bool>,
    actions: Actions,
    callbacks: map<string, Option<Handler>>)

  /** The eleven callback slots the manager is constructed with. */
  const CallbackSlots: set<string> := {
    "onReset", "onDebugToggle", "onHelpToggle", "onHeightAdjust", "onSlopeAdjust",
    "onCameraAdjust", "onBoundingBoxToggle", "onBodyHeightAdjust", "onMuteToggle",
    "onEngineModeToggle", "onDebugLogToggle"
  }

  /** The slots exist exactly as constructed; only their contents ever change. */
  ghost predicate Valid(s: InputState) {
    s.callbacks.Keys == CallbackSlots
  }

  function Initial(): (s: InputState)
    ensures Valid(s)
    ensures s.actions == NoActions
    ensures forall code :: code !in s.keys
    ensures forall slot :: slot in s.callbacks ==> s.callbacks[slot] == None
  {
    InputState(map[], NoActions, map slot | slot in CallbackSlots :: None)
  }

  /** `vehicleActions[action] = value` for a mapped action name. */
  function SetAction(a: Actions, act: DriveAction, value: bool): (r: Actions)
    ensures GetAction(r, act) == value
    ensures forall other :: other != act ==> GetAction(r, other) == GetAction(a, other)
    ensures r.turbo == a.turbo && r.handbrake == a.handbrake
  {
    match act
    case Acceleration => a.(acceleration := value)
    case Braking => a.(braking := value)
    case Left => a.(left := value)
    case Right => a.(right := value)
  }

  /** Reads a mapped action flag back. */
  function GetAction(a: Actions, act: DriveAction): bool {
    match act
    case Acceleration => a.acceleration
    case Braking => a.braking
    case Left => a.left
    case Right => a.right
  }

  /** The action-flag part of a key event: the mapped action, then the turbo/handbrake keys. */
  function ApplyKey(a: Actions, code: string, down: bool): (r: Actions)
    ensures code in KeyMappings ==> GetAction(r, KeyMappings[code]) == down
    ensures code == "Space" ==> r == a.(turbo := down)
    ensures code == "ShiftLeft" || code == "ShiftRight" ==> r == a.(handbrake := down)
    ensures code in KeyMappings ==> r.turbo == a.turbo && r.handbrake == a.handbrake
    ensures code in KeyMappings ==> forall o :: o != KeyMappings[code] ==> GetAction(r, o) == GetAction(a, o)
    ensures code !in KeyMappings && code != "Space" && code != "ShiftLeft" && code != "ShiftRight" ==> r == a
  {
    KeyMappingsBindings();
    var mapped := if code in KeyMappings then SetAction(a, KeyMappings[code], down) else a;
    if code == "Space" then mapped.(turbo := down)
    else if code == "ShiftLeft" || code == "ShiftRight" then mapped.(handbrake := down)
    else mapped
  }

  /** Invokes the handler in `slot` if one is registered. */
  function Call(s: InputState, slot: string, arg: Arg): (r: Option<Invocation>)
    ensures r.Some? <==> slot in s.callbacks && s.callbacks[slot].Some?
    ensures r.Some? ==> r.value == Invocation(slot, s.callbacks[slot].value, arg)
  {
    if slot in s.callbacks && s.callbacks[slot].Some? then
      Some(Invocation(slot, s.callbacks[slot].value, arg))
    else
      None
  }

  /** The slot and argument each special key is bound to, if any. `ctrl` is `event.ctrlKey`,
      `modalShown` whether the car-selection dialog is on screen (it silences KeyN). */
  function SpecialKey(code: string, ctrl: bool, modalShown: bool): Option<(string, Arg)> {
    match code
    case "KeyR" => Some(("onReset", NoArg))
    case "KeyC" => Some(("onDebugToggle", NoArg))
    case "KeyB" => Some(("onBoundingBoxToggle", NoArg))
    case "KeyD" => if ctrl then Some(("onDebugLogToggle", NoArg)) else None
    case "KeyH" => Some(("onHelpToggle", NoArg))
    case "KeyM" => Some(("onMuteToggle", NoArg))
    case "KeyN" => if modalShown then None else Some(("onEngineModeToggle", NoArg))
    case "KeyQ" => Some(("onHeightAdjust", Amount(1.0)))
    case "KeyE" => Some(("onHeightAdjust", Amount(-1.0)))
    case "KeyO" => Some(("onSlopeAdjust", Amount(1.0)))
    case "KeyL" => Some(("onSlopeAdjust", Amount(-1.0)))
    case "Digit1" => Some(("onCameraAdjust", CameraArg("distance", -1.0)))
    case "Digit2" => Some(("onCameraAdjust", CameraArg("distance", 1.0)))
    case "Digit3" => Some(("onCameraAdjust", CameraArg("height", -1.0)))
    case "Digit4" => Some(("onCameraAdjust", CameraArg("height", 1.0)))
    case "Digit5" => Some(("onCameraAdjust", CameraArg("sideOffset", -1.0)))
    case "Digit6" => Some(("onCameraAdjust", CameraArg("sideOffset", 1.0)))
    case "Digit9" => Some(("onBodyHeightAdjust", Amount(0.1)))
    case "Digit0" => Some(("onBodyHeightAdjust", Amount(-0.1)))
    case _ => None
  }

  datatype KeyDownResult = KeyDownResult(state: InputState, invoked: Option<Invocation>)

  /** `onKeyDown`: records the key, updates the action flags, then dispatches a special key. */
  function OnKeyDown(s: InputState, code: string, ctrl: bool, modalShown: bool): (r: KeyDownResult)
    ensures r.state.keys == s.keys[code := true]
    ensures r.state.callbacks == s.callbacks
    ensures r.state.actions == ApplyKey(s.actions, code, true)
    ensures r.invoked.Some? ==>
              (r.invoked.value.slot in s.callbacks && s.callbacks[r.invoked.value.slot] == Some(r.invoked.value.handler))
    ensures SpecialKey(code, ctrl, modalShown).None? ==> r.invoked.None?
    ensures SpecialKey(code, ctrl, modalShown).Some? ==>
              r.invoked == Call(s, SpecialKey(code, ctrl, modalShown).value.0, SpecialKey(code, ctrl, modalShown).value.1)
  {
    var state := InputState(s.keys[code := true], ApplyKey(s.actions, code, true), s.callbacks);
    var invoked := match SpecialKey(code, ctrl, modalShown)
      case None => None
      case Some(binding) => Call(s, binding.0, binding.1);
    KeyDownResult(state, invoked)
  }

  /** The toggle keys reach their own handlers; a handler runs whenever its slot holds one,
      and `KeyN` is blocked while the car selection is shown. */
  lemma ToggleKeysDispatch(s: InputState, ctrl: bool, modalShown: bool)
    ensures OnKeyDown(s, "KeyR", ctrl, modalShown).invoked == Call(s, "onReset", NoArg)
    ensures OnKeyDown(s, "KeyC", ctrl, modalShown).invoked == Call(s, "onDebugToggle", NoArg)
    ensures OnKeyDown(s, "KeyB", ctrl, modalShown).invoked == Call(s, "onBoundingBoxToggle", NoArg)
    ensures OnKeyDown(s, "KeyH", ctrl, modalShown).invoked == Call(s, "onHelpToggle", NoArg)
    ensures OnKeyDown(s, "KeyM", ctrl, modalShown).invoked == Call(s, "onMuteToggle", NoArg)
    ensures OnKeyDown(s, "KeyN", ctrl, modalShown).invoked ==
              if modalShown then None else Call(s, "onEngineModeToggle", NoArg)
  {
    assert SpecialKey("KeyR", ctrl, modalShown) == Some(("onReset", NoArg));
    assert SpecialKey("KeyC", ctrl, modalShown) == Some(("onDebugToggle", NoArg));
    assert SpecialKey("KeyB", ctrl, modalShown) == Some(("onBoundingBoxToggle", NoArg));
    assert SpecialKey("KeyH", ctrl, modalShown) == Some(("onHelpToggle", NoArg));
    assert SpecialKey("KeyM", ctrl, modalShown) == Some(("onMuteToggle", NoArg));
    assert SpecialKey("KeyN", ctrl, modalShown) == if modalShown then None else Some(("onEngineModeToggle", NoArg));
  }

  /** The height, slope and body-height keys come in raise/lower pairs on one handler. */
  lemma AdjustKeysDispatch(s: InputState, ctrl: bool, modalShown: bool)
    ensures OnKeyDown(s, "KeyQ", ctrl, modalShown).invoked == Call(s, "onHeightAdjust", Amount(1.0))
    ensures OnKeyDown(s, "KeyE", ctrl, modalShown).invoked == Call(s, "onHeightAdjust", Amount(-1.0))
    ensures OnKeyDown(s, "KeyO", ctrl, modalShown).invoked == Call(s, "onSlopeAdjust", Amount(1.0))
    ensures OnKeyDown(s, "KeyL", ctrl, modalShown).invoked == Call(s, "onSlopeAdjust", Amount(-1.0))
    ensures OnKeyDown(s, "Digit9", ctrl, modalShown).invoked == Call(s, "onBodyHeightAdjust", Amount(0.1))
    ensures OnKeyDown(s, "Digit0", ctrl, modalShown).invoked == Call(s, "onBodyHeightAdjust", Amount(-0.1))
  {
    assert SpecialKey("KeyQ", ctrl, modalShown) == Some(("onHeightAdjust", Amount(1.0)));
    assert SpecialKey("KeyE", ctrl, modalShown) == Some(("onHeightAdjust", Amount(-1.0)));
    assert SpecialKey("KeyO", ctrl, modalShown) == Some(("onSlopeAdjust", Amount(1.0)));
    assert SpecialKey("KeyL", ctrl, modalShown) == Some(("onSlopeAdjust", Amount(-1.0)));
    assert SpecialKey("Digit9", ctrl, modalShown) == Some(("onBodyHeightAdjust", Amount(0.1)));
    assert SpecialKey("Digit0", ctrl, modalShown) == Some(("onBodyHeightAdjust", Amount(-0.1)));
  }

  /** Digits 1 to 6 lower and raise the camera's distance, height and side offset. */
  lemma CameraDigitsDispatch(s: InputState, ctrl: bool, modalShown: bool)
    ensures OnKeyDown(s, "Digit1", ctrl, modalShown).invoked == Call(s, "onCameraAdjust", CameraArg("distance", -1.0))
    ensures OnKeyDown(s, "Digit2", ctrl, modalShown).invoked == Call(s, "onCameraAdjust", CameraArg("distance", 1.0))
    ensures OnKeyDown(s, "Digit3", ctrl, modalShown).invoked == Call(s, "onCameraAdjust", CameraArg("height", -1.0))
    ensures OnKeyDown(s, "Digit4", ctrl, modalShown).invoked == Call(s, "onCameraAdjust", CameraArg("height", 1.0))
    ensures OnKeyDown(s, "Digit5", ctrl, modalShown).invoked == Call(s, "onCameraAdjust", CameraArg("sideOffset", -1.0))
    ensures OnKeyDown(s, "Digit6", ctrl, modalShown).invoked == Call(s, "onCameraAdjust", CameraArg("sideOffset", 1.0))
  {
    assert SpecialKey("Digit1", ctrl, modalShown) == Some(("onCameraAdjust", CameraArg("distance", -1.0)));
    assert SpecialKey("Digit2", ctrl, modalShown) == Some(("onCameraAdjust", CameraArg("distance", 1.0)));
    assert SpecialKey("Digit3", ctrl, modalShown) == Some(("onCameraAdjust", CameraArg("height", -1.0)));
    assert SpecialKey("Digit4", ctrl, modalShown) == Some(("onCameraAdjust", CameraArg("height", 1.0)));
    assert SpecialKey("Digit5", ctrl, modalShown) == Some(("onCameraAdjust", CameraArg("sideOffset", -1.0)));
    assert SpecialKey("Digit6", ctrl, modalShown) == Some(("onCameraAdjust", CameraArg("sideOffset", 1.0)));
  }

  /** `onKeyUp`: releases the key and clears the action it drives; no callback fires. */
  function OnKeyUp(s: InputState, code: string): (r: InputState)
    ensures r.keys == s.keys[code := false]
    ensures r.callbacks == s.callbacks
    ensures r.actions == ApplyKey(s.actions, code, false)
  {
    InputState(s.keys[code := false], ApplyKey(s.actions, code, false), s.callbacks)
  }

  /** `setCallback`: only an existing slot is replaced. */
  function SetCallback(s: InputState, name: string, handler: Option<Handler>): (r: InputState)
    ensures name !in s.callbacks ==> r == s
    ensures name in s.callbacks ==> name in r.callbacks && r.callbacks[name] == handler
    ensures forall slot :: slot != name ==> (slot in r.callbacks <==> slot in s.callbacks)
    ensures forall slot :: slot in s.callbacks && slot != name ==> r.callbacks[slot] == s.callbacks[slot]
    ensures r.keys == s.keys && r.actions == s.actions
    ensures Valid(s) ==> Valid(r)
  {
    if name in s.callbacks then s.(callbacks := s.callbacks[name := handler]) else s
  }

  /** `isKeyPressed`: a key never seen counts as released. */
  function IsKeyPressed(s: InputState, code: string): (r: bool)
    ensures code !in s.keys ==> !r
    ensures r <==> code in s.keys && s.keys[code]
  {
    if code in s.keys then s.keys[code] else false
  }

  // ---------------------------------------------------------------- properties

  /** After a key goes down it reads as pressed; after it comes up it reads as released. */
  lemma PressRelease(s: InputState, code: string, ctrl: bool, modalShown: bool)
    ensures IsKeyPressed(OnKeyDown(s, code, ctrl, modalShown).state, code)
    ensures !IsKeyPressed(OnKeyUp(s, code), code)
    ensures !IsKeyPressed(OnKeyUp(OnKeyDown(s, code, ctrl, modalShown).state, code), code)
  {
  }

  /** A mapped key sets its action on press and clears it on release. */
  lemma MappedKeyDrivesAction(s: InputState, code: string, ctrl: bool, modalShown: bool)
    requires code in KeyMappings
    ensures GetAction(OnKeyDown(s, code, ctrl, modalShown).state.actions, KeyMappings[code])
    ensures !GetAction(OnKeyUp(s, code).actions, KeyMappings[code])
  {
  }

  /** Releasing one of two keys bound to the same action clears the action even though
      the other key is still held: there is no per-action reference count. */
  lemma NoReferenceCounting(s: InputState)
    ensures var s1 := OnKeyDown(s, "KeyW", false, false).state;
            var s2 := OnKeyDown(s1, "ArrowUp", false, false).state;
            var s3 := OnKeyUp(s2, "KeyW");
            IsKeyPressed(s3, "ArrowUp") && !s3.actions.acceleration
  {
    var s1 := OnKeyDown(s, "KeyW", false, false).state;
    var s2 := OnKeyDown(s1, "ArrowUp", false, false).state;
    var s3 := OnKeyUp(s2, "KeyW");
    assert "KeyW" != "ArrowUp";
    assert s3.keys["ArrowUp"] == s2.keys["ArrowUp"];
  }

  /** Both Shift keys drive the one handbrake flag, and Space drives turbo; the mapped
      driving keys never touch either flag. */
  lemma SpecialFlags(s: InputState, ctrl: bool, modalShown: bool)
    ensures OnKeyDown(s, "Space", ctrl, modalShown).state.actions == s.actions.(turbo := true)
    ensures OnKeyUp(s, "Space").actions == s.actions.(turbo := false)
    ensures OnKeyDown(s, "ShiftLeft", ctrl, modalShown).state.actions == s.actions.(handbrake := true)
    ensures OnKeyDown(s, "ShiftRight", ctrl, modalShown).state.actions == s.actions.(handbrake := true)
    ensures OnKeyUp(OnKeyDown(s, "ShiftLeft", ctrl, modalShown).state, "ShiftRight").actions.handbrake == false
  {
    assert "Space" !in KeyMappings && "ShiftLeft" !in KeyMappings && "ShiftRight" !in KeyMappings;
  }

  /** Keys that are neither mapped nor Space/Shift leave the action record untouched,
      in either direction. */
  lemma UnboundKeysLeaveActions(s: InputState, code: string, ctrl: bool, modalShown: bool)
    requires code !in KeyMappings && code != "Space" && code != "ShiftLeft" && code != "ShiftRight"
    ensures OnKeyDown(s, code, ctrl, modalShown).state.actions == s.actions
    ensures OnKeyUp(s, code).actions == s.actions
  {
  }

  /** KeyD steers right and, only with Ctrl held and a handler set, also toggles debug logging. */
  lemma KeyDDoubleDuty(s: InputState, ctrl: bool, modalShown: bool)
    ensures OnKeyDown(s, "KeyD", ctrl, modalShown).state.actions.right
    ensures OnKeyDown(s, "KeyD", ctrl, modalShown).invoked.Some?
            <==> ctrl && "onDebugLogToggle" in s.callbacks && s.callbacks["onDebugLogToggle"].Some?
  {
  }

  /** Every operation keeps the slot set as constructed. */
  lemma EventsPreserveValid(s: InputState, code: string, ctrl: bool, modalShown: bool)
    requires Valid(s)
    ensures Valid(OnKeyDown(s, code, ctrl, modalShown).state)
    ensures Valid(OnKeyUp(s, code))
  {
  }
}

=== FILE: items.dfy ===
/** The collectible items (js/items.js): 25 emoji items on two rings, collected when the
    car comes within the collect radius, with the three most recent kinds kept for display.

    Randomness, the float animation and the sphere/sprite meshes are outside the model:
    the random draws and each item's per-frame distance to the car arrive as inputs. */
module Items {
  import opened Basics
  import Config

  /** One item: its emoji, where it was placed, and whether it has been picked up. */
  datatype Item = Item(kind: string, home: Vec3, collected: bool)

  /** `items` and `collectedItems` (the kinds shown in the HUD, oldest first). */
  datatype ItemState = ItemState(items: seq<Item>, collectedItems: seq<string>)

  // ------------------------------------------------------------ placement

  const ItemCount: nat := 25
  /** `Math.floor(itemCount * 0.4)` items go on the inner ring, the rest on the outer one. */
  const InnerCount: int := (ItemCount as real * 0.4).Floor
  const OuterCount: int := ItemCount - InnerCount
  const InnerRadius: real := 15.0
  const OuterRadius: real := 35.0

  lemma RingSplit()
    ensures InnerCount == 10 && OuterCount == 15
    ensures InnerCount + OuterCount == ItemCount == |Config.ItemTypes|
  {
  }

  /** The ring radius the `i`th created item is placed on. */
  function RingRadius(i: nat): (r: real)
    requires i < ItemCount
    ensures i < 10 ==> r == InnerRadius
    ensures i >= 10 ==> r == OuterRadius
  {
    RingSplit();
    if i < InnerCount then InnerRadius else OuterRadius
  }

  /** Where on its ring the `i`th item goes, as a fraction of a full turn: the `k`th of a
      ring's `count` items is placed at angle `(k / count) 2 pi`. */
  function TurnFraction(i: nat): (f: real)
    requires i < ItemCount
    ensures 0.0 <= f < 1.0
    ensures i < 10 ==> f == i as real / 10.0
    ensures i >= 10 ==> f == (i - 10) as real / 15.0
  {
    RingSplit();
    if i < InnerCount then i as real / InnerCount as real
    else (i - InnerCount) as real / OuterCount as real
  }

  /** No two items share a ring position before the random jitter: two different items on
      the same radius always get different angles. */
  lemma RingSlotsDistinct(i: nat, j: nat)
    requires i < ItemCount && j < ItemCount && i != j
    requires RingRadius(i) == RingRadius(j)
    ensures TurnFraction(i) != TurnFraction(j)
  {
    if i < 10 {
      assert j < 10;
    } else {
      assert j >= 10;
    }
  }

  /** `Math.floor(Math.random() * types.length)` for a draw in [0, 1). */
  function TypeIndex(draw: real): (k: int)
    requires 0.0 <= draw < 1.0
    ensures 0 <= k < |Config.ItemTypes|
    ensures k as real <= draw * 25.0 < k as real + 1.0
  {
    (draw * |Config.ItemTypes| as real).Floor
  }

  /** `createItem`: a fresh, uncollected item of a randomly drawn kind. */
  function CreateItem(draw: real, home: Vec3): (it: Item)
    requires 0.0 <= draw < 1.0
    ensures it.kind in Config.ItemTypes
    ensures !it.collected && it.home == home
  {
    Item(Config.ItemTypes[TypeIndex(draw)], home, false)
  }

  /** The state after `init`: every item created, none collected, an empty HUD list.
      `draws[i]` is the kind draw and `homes[i]` the placed position of the `i`th item. */
  function Init(draws: seq<real>, homes: seq<Vec3>): (st: ItemState)
    requires |draws| == ItemCount && |homes| == ItemCount
    requires forall i :: 0 <= i < |draws| ==> 0.0 <= draws[i] < 1.0
    ensures |st.items| == ItemCount && st.collectedItems == []
    ensures forall i :: 0 <= i < ItemCount ==>
              st.items[i].kind in Config.ItemTypes && !st.items[i].collected && st.items[i].home == homes[i]
    ensures CountCollected(st.items) == 0
  {
    var items := seq(ItemCount, i requires 0 <= i < ItemCount => CreateItem(draws[i], homes[i]));
    NoneCollected(items);
    ItemState(items, [])
  }

  // ------------------------------------------------------------ counting

  /** `getCollectedCount`: how many items are marked collected. */
  function CountCollected(items: seq<Item>): (n: nat)
    ensures n <= |items|
  {
    if |items| == 0 then 0
    else (if items[0].collected then 1 else 0) + CountCollected(items[1..])
  }

  /** `getTotalCount`. */
  function TotalCount(st: ItemState): (n: nat)
    ensures CountCollected(st.items) <= n
  {
    |st.items|
  }

  lemma {:induction false} NoneCollected(items: seq<Item>)
    requires forall i :: 0 <= i < |items| ==> !items[i].collected
    ensures CountCollected(items) == 0
  {
    if |items| > 0 {
      NoneCollected(items[1..]);
    }
  }

  /** Marking one uncollected item collected raises the count by exactly one. */
  lemma {:induction false} CountMarkOne(items: seq<Item>, i: nat)
    requires i < |items| && !items[i].collected
    ensures CountCollected(items[i := items[i].(collected := true)]) == CountCollected(items) + 1
  {
    var marked := items[i := items[i].(collected := true)];
    if i == 0 {
      assert marked[1..] == items[1..];
    } else {
      CountMarkOne(items[1..], i - 1);
      assert marked[1..] == items[1..][i - 1 := items[i].(collected := true)];
    }
  }

  // ------------------------------------------------------------ the HUD list

  /** `Array.prototype.shift` for its effect on the array (an empty array stays empty). */
  function Shift(list: seq<string>): (r: seq<string>)
    ensures |list| == 0 ==> r == []
    ensures |list| > 0 ==> [list[0]] + r == list
  {
    if |list| == 0 then [] else list[1..]
  }

  /** The branch in `collectItem` that appends a kind to `collectedItems`, first dropping
      the oldest entry when the list is already full. */
  function PushCapped(list: seq<string>, kind: string): (r: seq<string>)
    ensures |r| >= 1 && r[|r| - 1] == kind
    ensures |list| < Config.MaxCollected ==> r == list + [kind]
    ensures |list| <= Config.MaxCollected ==> r == Keep(list + [kind], Config.MaxCollected)
  {
    if |list| < Config.MaxCollected then list + [kind] else Shift(list) + [kind]
  }

  /** Reference definition: the newest `cap` entries of a history, oldest first. */
  function Keep(history: seq<string>, cap: nat): (r: seq<string>)
    ensures |r| == (if |history| <= cap then |history| else cap)
    ensures r == history[|history| - |r|..]
  {
    if |history| <= cap then history else history[|history| - cap..]
  }

  /** `collectedItems` after pushing each kind of `kinds` in turn. */
  function PushAll(list: seq<string>, kinds: seq<string>): (r: seq<string>)
    ensures |kinds| == 0 ==> r == list
    ensures |kinds| > 0 ==> |r| >= 1 && r[|r| - 1] == kinds[|kinds| - 1]
    ensures |list| <= Config.MaxCollected ==> |r| <= Config.MaxCollected
    decreases |kinds|
  {
    if |kinds| == 0 then list
    else
      var next := PushCapped(list, kinds[0]);
      assert |kinds| > 1 ==> kinds[1..][|kinds| - 2] == kinds[|kinds| - 1];
      assert |list| <= Config.MaxCollected ==> |next| <= Config.MaxCollected;
      PushAll(next, kinds[1..])
  }

  /** However many items are picked up, starting from a list of at most three the HUD list
      is always the three most recently collected kinds, in collection order. */
  lemma {:induction false} PushAllKeepsNewest(list: seq<string>, kinds: seq<string>)
    requires |list| <= Config.MaxCollected
    ensures PushAll(list, kinds) == Keep(list + kinds, Config.MaxCollected)
    decreases |kinds|
  {
    if |kinds| == 0 {
      assert list + kinds == list;
    } else {
      var history := list + [kinds[0]];
      var rest := kinds[1..];
      var next := PushCapped(list, kinds[0]);
      assert next == Keep(history, Config.MaxCollected);
      PushAllKeepsNewest(next, rest);
      KeepOfLonger(history, rest, Config.MaxCollected);
      SplitFirst(list, kinds);
    }
  }

  lemma SplitFirst(list: seq<string>, kinds: seq<string>)
    requires |kinds| > 0
    ensures (list + [kinds[0]]) + kinds[1..] == list + kinds
  {
  }

  /** Trimming a prefix first does not change which newest entries survive. */
  lemma KeepOfLonger(history: seq<string>, more: seq<string>, cap: nat)
    ensures Keep(Keep(history, cap) + more, cap) == Keep(history + more, cap)
  {
    var k := Keep(history, cap);
    var a, b := k + more, history + more;
    SuffixAppend(history, more, |k|);
    assert a == b[|b| - |a|..];
    if |history| <= cap {
      assert a == b;
    } else if |a| <= cap {
      assert more == [] && b == history;
    } else {
      SuffixOfSuffix(b, |a|, cap);
    }
  }

  /** Appending to a suffix gives a suffix of the appended sequence. */
  lemma SuffixAppend(h: seq<string>, more: seq<string>, n: nat)
    requires n <= |h|
    ensures h[|h| - n..] + more == (h + more)[|h + more| - (n + |more|)..]
  {
  }

  /** The last `n` of the last `m` are the last `n`. */
  lemma SuffixOfSuffix(b: seq<string>, m: nat, n: nat)
    requires n <= m <= |b|
    ensures b[|b| - m..][m - n..] == b[|b| - n..]
  {
  }

  // ------------------------------------------------------------ collecting

  /** `collectItem(index)`: a second pick-up of the same item does nothing. */
  function CollectItem(st: ItemState, i: nat): (r: ItemState)
    requires i < |st.items|
    ensures |r.items| == |st.items| && r.items[i].collected
    ensures forall j :: 0 <= j < |st.items| && j != i ==> r.items[j] == st.items[j]
    ensures r.items[i] == st.items[i].(collected := true)
    ensures st.items[i].collected ==> r == st
    ensures !st.items[i].collected ==> r.collectedItems == PushCapped(st.collectedItems, st.items[i].kind)
    ensures !st.items[i].collected ==> CountCollected(r.items) == CountCollected(st.items) + 1
  {
    if st.items[i].collected then st
    else
      CountMarkOne(st.items, i);
      ItemState(st.items[i := st.items[i].(collected := true)],
                PushCapped(st.collectedItems, st.items[i].kind))
  }

  /** A call a pick-up makes outside the item list: the collect sound
      (`audioIntegration.playItemCollect`) and the HUD refresh
      (`uiManager.updateCollectedItems`) with the history as it now stands. */
  datatype Notice = PlayItemCollect | ShowCollected(kinds: seq<string>)

  /** Calls that alternate between the collect sound and a HUD refresh, sound first. */
  predicate Alternates(n: seq<Notice>) {
    forall j :: 0 <= j < |n| ==> (n[j] == PlayItemCollect <==> j % 2 == 0)
  }

  /** The calls `collectItem(index)` makes: none for an item already taken, otherwise the
      sound first and then the HUD refresh with the updated history. */
  function CollectNotices(st: ItemState, i: nat): (n: seq<Notice>)
    requires i < |st.items|
    ensures st.items[i].collected <==> n == []
    ensures !st.items[i].collected ==>
              n == [PlayItemCollect, ShowCollected(PushCapped(st.collectedItems, st.items[i].kind))]
    ensures !st.items[i].collected ==> n[1].kinds[|n[1].kinds| - 1] == st.items[i].kind
  {
    if st.items[i].collected then []
    else [PlayItemCollect, ShowCollected(CollectItem(st, i).collectedItems)]
  }

  /** Whether an item this frame is close enough: only with a car, and strictly inside the radius. */
  predicate InReach(carPresent: bool, distance: real) {
    carPresent && distance < Config.CollectRadius
  }

  /** Reference definition: the kinds one `update` picks up, in item order. */
  function NewKinds(items: seq<Item>, carPresent: bool, distance: seq<real>): seq<string>
    requires |distance| == |items|
    decreases |items|
  {
    if |items| == 0 then []
    else
      var n := |items| - 1;
      NewKinds(items[..n], carPresent, distance[..n])
        + (if !items[n].collected && InReach(carPresent, distance[n]) then [items[n].kind] else [])
  }

  /** The state once `update` has visited the first `k` items. */
  function Sweep(st: ItemState, carPresent: bool, distance: seq<real>, k: nat): (r: ItemState)
    requires |distance| == |st.items| && k <= |st.items|
    ensures |r.items| == |st.items|
    ensures forall i :: k <= i < |st.items| ==> r.items[i] == st.items[i]
    decreases k
  {
    if k == 0 then st
    else
      var p := Sweep(st, carPresent, distance, k - 1);
      if !p.items[k - 1].collected && InReach(carPresent, distance[k - 1]) then CollectItem(p, k - 1) else p
  }

  /** The calls the first `k` pick-ups of a sweep have made, in order. */
  function SweepNotices(st: ItemState, carPresent: bool, distance: seq<real>, k: nat): seq<Notice>
    requires |distance| == |st.items| && k <= |st.items|
    decreases k
  {
    if k == 0 then []
    else
      var p := Sweep(st, carPresent, distance, k - 1);
      SweepNotices(st, carPresent, distance, k - 1)
        + (if !p.items[k - 1].collected && InReach(carPresent, distance[k - 1]) then CollectNotices(p, k - 1) else [])
  }

  /** A sweep makes two calls per pick-up. */
  lemma {:induction false} SweepNoticesLength(st: ItemState, carPresent: bool, distance: seq<real>, k: nat)
    requires |distance| == |st.items| && k <= |st.items|
    ensures |SweepNotices(st, carPresent, distance, k)| == 2 * |NewKinds(st.items[..k], carPresent, distance[..k])|
    decreases k
  {
    if k > 0 {
      SweepNoticesLength(st, carPresent, distance, k - 1);
      NewKindsStep(st.items, carPresent, distance, k - 1);
      assert Sweep(st, carPresent, distance, k - 1).items[k - 1] == st.items[k - 1];
    }
  }

  /** The calls of a sweep alternate: the sound, then the HUD refresh. */
  lemma {:induction false} SweepNoticesAlternate(st: ItemState, carPresent: bool, distance: seq<real>, k: nat)
    requires |distance| == |st.items| && k <= |st.items|
    ensures |SweepNotices(st, carPresent, distance, k)| % 2 == 0
    ensures Alternates(SweepNotices(st, carPresent, distance, k))
    decreases k
  {
    if k > 0 {
      SweepNoticesAlternate(st, carPresent, distance, k - 1);
      var p := Sweep(st, carPresent, distance, k - 1);
      var before := SweepNotices(st, carPresent, distance, k - 1);
      var n := SweepNotices(st, carPresent, distance, k);
      if !p.items[k - 1].collected && InReach(carPresent, distance[k - 1]) {
        var added := CollectNotices(p, k - 1);
        assert n == before + added;
        AlternatesAppend(before, added);
      } else {
        assert n == before;
      }
    }
  }

  /** One pick-up's pair of calls keeps an alternating record alternating. */
  lemma AlternatesAppend(before: seq<Notice>, added: seq<Notice>)
    requires Alternates(before) && |before| % 2 == 0
    requires |added| == 2 && added[0] == PlayItemCollect && added[1].ShowCollected?
    ensures Alternates(before + added) && |before + added| % 2 == 0
  {
    var n := before + added;
    forall j | 0 <= j < |n|
      ensures n[j] == PlayItemCollect <==> j % 2 == 0
    {
      if j >= |before| {
        assert n[j] == added[j - |before|];
      }
    }
  }

  /** The last HUD refresh of a sweep shows the history as the sweep leaves it. */
  lemma {:induction false} SweepNoticesLast(st: ItemState, carPresent: bool, distance: seq<real>, k: nat)
    requires |distance| == |st.items| && k <= |st.items|
    ensures var n := SweepNotices(st, carPresent, distance, k);
            |n| > 0 ==> n[|n| - 1] == ShowCollected(Sweep(st, carPresent, distance, k).collectedItems)
    decreases k
  {
    if k > 0 {
      SweepNoticesLast(st, carPresent, distance, k - 1);
      var p := Sweep(st, carPresent, distance, k - 1);
      if !p.items[k - 1].collected && InReach(carPresent, distance[k - 1]) {
        var added := CollectNotices(p, k - 1);
        assert SweepNotices(st, carPresent, distance, k) == SweepNotices(st, carPresent, distance, k - 1) + added;
        assert added[1] == ShowCollected(CollectItem(p, k - 1).collectedItems);
      }
    }
  }

  /** The visited items are flagged exactly when they were already collected or are in reach. */
  lemma {:induction false} SweepFlags(st: ItemState, carPresent: bool, distance: seq<real>, k: nat)
    requires |distance| == |st.items| && k <= |st.items|
    ensures forall i :: 0 <= i < k ==>
              Sweep(st, carPresent, distance, k).items[i]
              == st.items[i].(collected := st.items[i].collected || InReach(carPresent, distance[i]))
    decreases k
  {
    if k > 0 {
      SweepFlags(st, carPresent, distance, k - 1);
    }
  }

  /** The HUD list has had the kinds of the reference definition pushed, in order. */
  lemma {:induction false} SweepList(st: ItemState, carPresent: bool, distance: seq<real>, k: nat)
    requires |distance| == |st.items| && k <= |st.items|
    ensures Sweep(st, carPresent, distance, k).collectedItems
            == PushAll(st.collectedItems, NewKinds(st.items[..k], carPresent, distance[..k]))
    decreases k
  {
    if k == 0 {
      assert st.items[..0] == [];
    } else {
      SweepList(st, carPresent, distance, k - 1);
      NewKindsStep(st.items, carPresent, distance, k - 1);
      var p := Sweep(st, carPresent, distance, k - 1);
      var before := NewKinds(st.items[..k - 1], carPresent, distance[..k - 1]);
      var item := st.items[k - 1];
      assert p.items[k - 1] == item;
      if !item.collected && InReach(carPresent, distance[k - 1]) {
        assert Sweep(st, carPresent, distance, k).collectedItems == PushCapped(p.collectedItems, item.kind);
        PushAllSnoc(st.collectedItems, before, item.kind);
      } else {
        assert Sweep(st, carPresent, distance, k) == p;
        assert before + [] == before;
      }
    }
  }

  /** Each pick-up of the sweep raises the collected count by one. */
  lemma {:induction false} SweepCount(st: ItemState, carPresent: bool, distance: seq<real>, k: nat)
    requires |distance| == |st.items| && k <= |st.items|
    ensures CountCollected(Sweep(st, carPresent, distance, k).items)
            == CountCollected(st.items) + |NewKinds(st.items[..k], carPresent, distance[..k])|
    decreases k
  {
    if k == 0 {
      assert st.items[..0] == [];
    } else {
      SweepCount(st, carPresent, distance, k - 1);
      NewKindsStep(st.items, carPresent, distance, k - 1);
      var p := Sweep(st, carPresent, distance, k - 1);
      assert p.items[k - 1] == st.items[k - 1];
    }
  }

  /** Without a car nothing is in reach, so the sweep changes nothing. */
  lemma {:induction false} SweepIdle(st: ItemState, distance: seq<real>, k: nat)
    requires |distance| == |st.items| && k <= |st.items|
    ensures Sweep(st, false, distance, k) == st
    decreases k
  {
    if k > 0 {
      SweepIdle(st, distance, k - 1);
    }
  }

  /** `update(vehiclePosition)`: walks the items in order and collects every uncollected
      item within reach. `distance[i]` is the `i`th item's distance to the car this frame. */
  method Update(st: ItemState, carPresent: bool, distance: seq<real>) returns (r: ItemState, notices: seq<Notice>)
    requires |distance| == |st.items|
    ensures |r.items| == |st.items|
    ensures forall i :: 0 <= i < |st.items| ==>
              r.items[i] == st.items[i].(collected := st.items[i].collected || InReach(carPresent, distance[i]))
    ensures r.collectedItems == PushAll(st.collectedItems, NewKinds(st.items, carPresent, distance))
    ensures CountCollected(r.items) == CountCollected(st.items) + |NewKinds(st.items, carPresent, distance)|
    ensures !carPresent ==> r == st
    ensures |notices| == 2 * |NewKinds(st.items, carPresent, distance)|
    ensures Alternates(notices)
    ensures |notices| > 0 ==> notices[|notices| - 1] == ShowCollected(r.collectedItems)
  {
    r, notices := SweepAll(st, carPresent, distance);
    SweepComplete(st, carPresent, distance);
  }

  /** The loop of `update`: visits the items in order, collecting each uncollected item in
      reach and recording the calls that makes. */
  method SweepAll(st: ItemState, carPresent: bool, distance: seq<real>) returns (r: ItemState, notices: seq<Notice>)
    requires |distance| == |st.items|
    ensures r == Sweep(st, carPresent, distance, |st.items|)
    ensures notices == SweepNotices(st, carPresent, distance, |st.items|)
    ensures |notices| == 2 * |NewKinds(st.items, carPresent, distance)|
    ensures Alternates(notices)
    ensures |notices| > 0 ==> notices[|notices| - 1] == ShowCollected(r.collectedItems)
  {
    r, notices := st, [];
    var k := 0;
    while k < |st.items|
      invariant 0 <= k <= |st.items|
      invariant r == Sweep(st, carPresent, distance, k)
      invariant notices == SweepNotices(st, carPresent, distance, k)
    {
      if !r.items[k].collected && InReach(carPresent, distance[k]) {
        notices := notices + CollectNotices(r, k);
        r := CollectItem(r, k);
      }
      k := k + 1;
    }
    SweepCompleteNotices(st, carPresent, distance);
  }

  /** The facts about a sweep that has visited every item. */
  lemma SweepComplete(st: ItemState, carPresent: bool, distance: seq<real>)
    requires |distance| == |st.items|
    ensures var r := Sweep(st, carPresent, distance, |st.items|);
            && (forall i :: 0 <= i < |st.items| ==>
                  r.items[i] == st.items[i].(collected := st.items[i].collected || InReach(carPresent, distance[i])))
            && r.collectedItems == PushAll(st.collectedItems, NewKinds(st.items, carPresent, distance))
            && CountCollected(r.items) == CountCollected(st.items) + |NewKinds(st.items, carPresent, distance)|
            && (!carPresent ==> r == st)
  {
    var k := |st.items|;
    SweepFlags(st, carPresent, distance, k);
    SweepList(st, carPresent, distance, k);
    SweepCount(st, carPresent, distance, k);
    if !carPresent {
      SweepIdle(st, distance, k);
    }
    assert st.items[..k] == st.items;
    assert distance[..k] == distance;
  }

  /** The calls of a sweep that has visited every item. */
  lemma SweepCompleteNotices(st: ItemState, carPresent: bool, distance: seq<real>)
    requires |distance| == |st.items|
    ensures var n := SweepNotices(st, carPresent, distance, |st.items|);
            && |n| == 2 * |NewKinds(st.items, carPresent, distance)|
            && Alternates(n)
            && (|n| > 0 ==> n[|n| - 1] == ShowCollected(Sweep(st, carPresent, distance, |st.items|).collectedItems))
  {
    var k := |st.items|;
    SweepNoticesLength(st, carPresent, distance, k);
    SweepNoticesAlternate(st, carPresent, distance, k);
    SweepNoticesLast(st, carPresent, distance, k);
    assert st.items[..k] == st.items;
    assert distance[..k] == distance;
  }


  /** One more item extends the reference definition by at most its own kind. */
  lemma NewKindsStep(items: seq<Item>, carPresent: bool, distance: seq<real>, k: nat)
    requires |distance| == |items| && k < |items|
    ensures NewKinds(items[..k + 1], carPresent, distance[..k + 1])
            == NewKinds(items[..k], carPresent, distance[..k])
               + (if !items[k].collected && InReach(carPresent, distance[k]) then [items[k].kind] else [])
  {
    assert items[..k + 1][..k] == items[..k];
    assert distance[..k + 1][..k] == distance[..k];
  }

  lemma {:induction false} PushAllSnoc(list: seq<string>, kinds: seq<string>, kind: string)
    ensures PushAll(list, kinds + [kind]) == PushCapped(PushAll(list, kinds), kind)
    decreases |kinds|
  {
    if |kinds| == 0 {
      assert kinds + [kind] == [kind];
    } else {
      assert (kinds + [kind])[1..] == kinds[1..] + [kind];
      PushAllSnoc(PushCapped(list, kinds[0]), kinds[1..], kind);
    }
  }

  /** After any frame the HUD list shows the newest (at most three) of the kinds it showed
      before plus the ones picked up this frame, in order. */
  lemma UpdateShowsNewest(st: ItemState, carPresent: bool, distance: seq<real>)
    requires |distance| == |st.items| && |st.collectedItems| <= Config.MaxCollected
    ensures PushAll(st.collectedItems, NewKinds(st.items, carPresent, distance))
            == Keep(st.collectedItems + NewKinds(st.items, carPresent, distance), Config.MaxCollected)
    ensures |PushAll(st.collectedItems, NewKinds(st.items, carPresent, distance))| <= Config.MaxCollected
  {
    PushAllKeepsNewest(st.collectedItems, NewKinds(st.items, carPresent, distance));
  }

  // ------------------------------------------------------------ reset / dispose

  /** `reset`: every item is back in play, the HUD list is emptied, and the HUD is refreshed
      with the empty list. */
  function Reset(st: ItemState): (r: (ItemState, seq<Notice>))
    ensures |r.0.items| == |st.items| && r.0.collectedItems == []
    ensures forall i :: 0 <= i < |st.items| ==> r.0.items[i] == st.items[i].(collected := false)
    ensures CountCollected(r.0.items) == 0
    ensures r.1 == [ShowCollected(r.0.collectedItems)] && r.1 == [ShowCollected([])]
  {
    var items := seq(|st.items|, i requires 0 <= i < |st.items| => st.items[i].(collected := false));
    NoneCollected(items);
    var cleared := ItemState(items, []);
    (cleared, [ShowCollected(cleared.collectedItems)])
  }

  /** `dispose`: both lists are emptied. */
  function Dispose(st: ItemState): (r: ItemState)
    ensures r.items == [] && r.collectedItems == []
    ensures TotalCount(r) == 0
  {
    ItemState([], [])
  }

  /** Resetting is idempotent and, after a reset, a frame's pick-ups fill the HUD list from empty. */
  lemma ResetThenCollect(st: ItemState, i: nat)
    requires i < |st.items|
    ensures Reset(Reset(st).0) == Reset(st)
    ensures CollectItem(Reset(st).0, i).collectedItems == [st.items[i].kind]
    ensures CountCollected(CollectItem(Reset(st).0, i).items) == 1
  {
    var once := Reset(st).0;
    var twice := Reset(once).0;
    assert forall k :: 0 <= k < |once.items| ==> twice.items[k] == once.items[k];
    assert twice.items == once.items;
    assert twice == once;
  }
}

=== FILE: physics.dfy ===
/** The index arithmetic of the physics debug renderer and the physics manager's teardown
    (js/physics.js): fan triangulation of convex-polyhedron faces, the heightfield grid's
    vertices and triangles, and the removal loops of `clear` and `dispose`.
    Scene, geometry and world objects are reduced to identifiers. */
module Physics {
  import opened Basics

  // ------------------------------------------------------------ flattening

  /** Concatenation of a sequence of sequences, in order. */
  function Flat<T>(s: seq<seq<T>>): (r: seq<T>)
    decreases |s|
  {
    if |s| == 0 then [] else s[0] + Flat(s[1..])
  }

  /** When every part has length `k`, the concatenation has `k` entries per part. */
  lemma {:induction false} FlatUniformLength<T>(s: seq<seq<T>>, k: nat)
    requires forall t :: 0 <= t < |s| ==> |s[t]| == k
    ensures |Flat(s)| == k * |s|
    decreases |s|
  {
    if |s| > 0 {
      FlatUniformLength(s[1..], k);
      assert k * |s| == k + k * (|s| - 1);
    }
  }

  /** When every part has length `k`, part `t` occupies positions `k*t .. k*t+k`. */
  lemma {:induction false} FlatUniformAt<T>(s: seq<seq<T>>, k: nat, t: nat, r: nat)
    requires forall t :: 0 <= t < |s| ==> |s[t]| == k
    requires t < |s| && r < k
    ensures k * t + r < |Flat(s)| && Flat(s)[k * t + r] == s[t][r]
    decreases t
  {
    FlatUniformLength(s, k);
    if t > 0 {
      FlatUniformAt(s[1..], k, t - 1, r);
      var off := k * (t - 1) + r;
      assert k * t + r == k + off;
      assert |s[0]| == k;
    }
  }

  /** Every element of a concatenation comes from one of its parts. */
  lemma {:induction false} FlatMembers<T>(s: seq<seq<T>>, x: T)
    requires x in Flat(s)
    ensures exists t :: 0 <= t < |s| && x in s[t]
    decreases |s|
  {
    if x !in s[0] {
      FlatMembers(s[1..], x);
      var t :| 0 <= t < |s[1..]| && x in s[1..][t];
      assert x in s[t + 1];
    }
  }

  /** The sum of a sequence of counts. */
  function Sum(xs: seq<nat>): nat
    decreases |xs|
  {
    if |xs| == 0 then 0 else xs[0] + Sum(xs[1..])
  }

  /** When part `t` holds `k` entries per unit of `counts[t]`, the concatenation holds `k`
      entries per unit of the total count. */
  lemma {:induction false} FlatLengthScaled<T>(s: seq<seq<T>>, counts: seq<nat>, k: nat)
    requires |s| == |counts|
    requires forall t :: 0 <= t < |s| ==> |s[t]| == k * counts[t]
    ensures |Flat(s)| == k * Sum(counts)
    decreases |s|
  {
    if |s| > 0 {
      FlatLengthScaled(s[1..], counts[1..], k);
      assert k * Sum(counts) == k * counts[0] + k * Sum(counts[1..]);
    }
  }

  /** The length of a concatenation is the sum of its parts' lengths. */
  function SumLengths<T>(s: seq<seq<T>>): nat
    decreases |s|
  {
    if |s| == 0 then 0 else |s[0]| + SumLengths(s[1..])
  }

  lemma {:induction false} FlatLength<T>(s: seq<seq<T>>)
    ensures |Flat(s)| == SumLengths(s)
    decreases |s|
  {
    if |s| > 0 {
      FlatLength(s[1..]);
    }
  }

  // ------------------------------------------------------------ convex polyhedra

  /** An entry of `shape.faces`: either an array of vertex indices or something else. */
  datatype Face = NotArray | Indices(vertices: seq<int>)

  /** The triangles of one face, as a fan around its first vertex. */
  function FaceIndices(face: Face): (r: seq<int>)
    ensures face.NotArray? || |face.vertices| < 3 ==> r == []
    ensures face.Indices? && |face.vertices| >= 3 ==> |r| == 3 * (|face.vertices| - 2)
  {
    if face.NotArray? || |face.vertices| < 3 then []
    else
      var vs := face.vertices;
      var fan := seq(|vs| - 2, t requires 0 <= t < |vs| - 2 => [vs[0], vs[t + 1], vs[t + 2]]);
      FlatUniformLength(fan, 3);
      Flat(fan)
  }

  /** Triangle `t` of a face with n >= 3 vertices is (f0, f(t+1), f(t+2)), for t in 0 .. n-3. */
  lemma FanTriangles(vs: seq<int>, t: nat)
    requires |vs| >= 3 && t < |vs| - 2
    ensures var r := FaceIndices(Indices(vs));
            r[3 * t] == vs[0] && r[3 * t + 1] == vs[t + 1] && r[3 * t + 2] == vs[t + 2]
  {
    var fan := seq(|vs| - 2, t requires 0 <= t < |vs| - 2 => [vs[0], vs[t + 1], vs[t + 2]]);
    assert fan[t] == [vs[0], vs[t + 1], vs[t + 2]];
    FlatUniformAt(fan, 3, t, 0);
    FlatUniformAt(fan, 3, t, 1);
    FlatUniformAt(fan, 3, t, 2);
  }

  /** A face only ever refers to its own vertices. */
  lemma FanUsesFaceVertices(face: Face, x: int)
    requires x in FaceIndices(face)
    ensures face.Indices? && |face.vertices| >= 3 && x in face.vertices
  {
    var vs := face.vertices;
    var fan := seq(|vs| - 2, t requires 0 <= t < |vs| - 2 => [vs[0], vs[t + 1], vs[t + 2]]);
    FlatMembers(fan, x);
    var t :| 0 <= t < |fan| && x in fan[t];
    assert fan[t] == [vs[0], vs[t + 1], vs[t + 2]];
  }

  /** The index buffer of the ConvexPolyhedron branch: all faces' fans, face by face. */
  function ConvexIndices(faces: seq<Face>): (r: seq<int>)
    ensures |r| == 3 * Sum(FanSizes(faces))
  {
    var parts := seq(|faces|, k requires 0 <= k < |faces| => FaceIndices(faces[k]));
    FlatLengthScaled(parts, FanSizes(faces), 3);
    Flat(parts)
  }

  /** How many triangles each face contributes: n - 2 for a valid face of n vertices,
      none for an entry that is not an array or has fewer than three vertices. */
  function FanSizes(faces: seq<Face>): (ns: seq<nat>)
    ensures |ns| == |faces|
    ensures forall k :: 0 <= k < |faces| ==>
              ns[k] == (if faces[k].Indices? && |faces[k].vertices| >= 3 then |faces[k].vertices| - 2 else 0)
  {
    seq(|faces|, k requires 0 <= k < |faces| =>
      if faces[k].Indices? && |faces[k].vertices| >= 3 then |faces[k].vertices| - 2 else 0)
  }

  /** The inner loop for one valid face: (f0, fi, fi+1) for i = 1 .. n-2. */
  method BuildFan(vs: seq<int>) returns (pushed: seq<int>)
    requires |vs| >= 3
    ensures pushed == FaceIndices(Indices(vs))
  {
    var i := 1;
    pushed := [];
    ghost var all := FaceIndices(Indices(vs));
    while i < |vs| - 1
      invariant 1 <= i <= |vs| - 1
      invariant |pushed| == 3 * (i - 1)
      invariant pushed == all[..3 * (i - 1)]
    {
      FanTriangles(vs, i - 1);
      assert all[..3 * i] == all[..3 * (i - 1)] + [vs[0], vs[i], vs[i + 1]];
      pushed := pushed + [vs[0], vs[i], vs[i + 1]];
      i := i + 1;
    }
    assert pushed == all;
  }

  /** The outer loop of the ConvexPolyhedron branch: skip entries that are not arrays or have
      fewer than three vertices, push a fan for each other face. */
  method BuildConvexIndices(faces: seq<Face>) returns (indices: seq<int>)
    ensures indices == ConvexIndices(faces)
  {
    indices := [];
    var k := 0;
    while k < |faces|
      invariant 0 <= k <= |faces|
      invariant indices == ConvexIndices(faces[..k])
    {
      var face := faces[k];
      if face.Indices? && |face.vertices| >= 3 {
        var pushed := BuildFan(face.vertices);
        indices := indices + pushed;
      }
      ConvexIndicesSnoc(faces, k);
      k := k + 1;
    }
    assert faces[..k] == faces;
  }

  /** Every index of the buffer is a vertex named by some valid face. */
  lemma ConvexIndicesFromFaces(faces: seq<Face>, x: int)
    requires x in ConvexIndices(faces)
    ensures exists k :: 0 <= k < |faces| && faces[k].Indices? && |faces[k].vertices| >= 3 && x in faces[k].vertices
  {
    var parts := seq(|faces|, k requires 0 <= k < |faces| => FaceIndices(faces[k]));
    FlatMembers(parts, x);
    var t :| 0 <= t < |parts| && x in parts[t];
    FanUsesFaceVertices(faces[t], x);
  }

  lemma ConvexIndicesSnoc(faces: seq<Face>, k: nat)
    requires k < |faces|
    ensures ConvexIndices(faces[..k + 1]) == ConvexIndices(faces[..k]) + FaceIndices(faces[k])
  {
    var a := seq(k, j requires 0 <= j < k => FaceIndices(faces[..k][j]));
    var b := seq(k + 1, j requires 0 <= j < k + 1 => FaceIndices(faces[..k + 1][j]));
    assert b == a + [FaceIndices(faces[k])];
    FlatSnoc(a, FaceIndices(faces[k]));
  }

  lemma {:induction false} FlatSnoc<T>(s: seq<seq<T>>, x: seq<T>)
    ensures Flat(s + [x]) == Flat(s) + x
    decreases |s|
  {
    if |s| == 0 {
      assert s + [x] == [x];
    } else {
      assert (s + [x])[1..] == s[1..] + [x];
      FlatSnoc(s[1..], x);
    }
  }

  // ------------------------------------------------------------ heightfields

  /** The three coordinates pushed for grid point (i, j): x and z centred on the grid. */
  function GridPoint(data: seq<seq<real>>, elementSize: real, i: nat, j: nat): (p: seq<real>)
    requires i < |data| && j < |data[i]|
    ensures |p| == 3 && p[1] == data[i][j]
    ensures 2 * i == |data| ==> p[0] == 0.0
    ensures 2 * j == |data[i]| ==> p[2] == 0.0
  {
    [ (i as real - |data| as real / 2.0) * elementSize,
      data[i][j],
      (j as real - |data[i]| as real / 2.0) * elementSize ]
  }

  /** The coordinates pushed for row `i` of the grid. */
  function GridRow(data: seq<seq<real>>, elementSize: real, i: nat): seq<real>
    requires i < |data|
  {
    Flat(seq(|data[i]|, j requires 0 <= j < |data[i]| => GridPoint(data, elementSize, i, j)))
  }

  /** The vertex buffer of the Heightfield branch, row by row. */
  function HeightfieldVertices(data: seq<seq<real>>, elementSize: real): (r: seq<real>)
    ensures |r| == 3 * Sum(RowLengths(data))
  {
    var rows := seq(|data|, i requires 0 <= i < |data| => GridRow(data, elementSize, i));
    GridRowLengths(data, elementSize);
    FlatLengthScaled(rows, RowLengths(data), 3);
    Flat(rows)
  }

  /** The number of points in each row of the grid. */
  function RowLengths(data: seq<seq<real>>): (ns: seq<nat>)
    ensures |ns| == |data| && forall i :: 0 <= i < |data| ==> ns[i] == |data[i]|
  {
    seq(|data|, i requires 0 <= i < |data| => |data[i]|)
  }

  lemma GridRowLengths(data: seq<seq<real>>, elementSize: real)
    ensures forall i :: 0 <= i < |data| ==> |GridRow(data, elementSize, i)| == 3 * RowLengths(data)[i]
  {
    forall i | 0 <= i < |data|
      ensures |GridRow(data, elementSize, i)| == 3 * RowLengths(data)[i]
    {
      GridRowLength(data, elementSize, i);
    }
  }

  lemma GridRowLength(data: seq<seq<real>>, elementSize: real, i: nat)
    requires i < |data|
    ensures |GridRow(data, elementSize, i)| == 3 * |data[i]|
  {
    FlatUniformLength(seq(|data[i]|, j requires 0 <= j < |data[i]| => GridPoint(data, elementSize, i, j)), 3);
  }

  lemma GridRowAt(data: seq<seq<real>>, elementSize: real, i: nat, j: nat, c: nat)
    requires i < |data| && j < |data[i]| && c < 3
    ensures 3 * j + c < |GridRow(data, elementSize, i)|
    ensures GridRow(data, elementSize, i)[3 * j + c] == GridPoint(data, elementSize, i, j)[c]
  {
    var pts := seq(|data[i]|, j requires 0 <= j < |data[i]| => GridPoint(data, elementSize, i, j));
    FlatUniformAt(pts, 3, j, c);
  }

  /** The two triangles (a, b, c) and (b, d, c) of the cell whose top-left corner is (i, j),
      numbering points with row `i`'s length as the stride. */
  function Cell(i: nat, width: nat, j: nat): (r: seq<int>)
    ensures |r| == 6 && r[0] == i * width + j
    ensures r[1] == r[0] + 1 && r[2] == r[0] + width && r[4] == r[2] + 1
    ensures r[3] == r[1] && r[5] == r[2]
  {
    var a := i * width + j;
    var b := a + 1;
    var c := (i + 1) * width + j;
    var d := c + 1;
    [a, b, c, b, d, c]
  }

  /** The index buffer of the Heightfield branch. */
  function HeightfieldIndices(data: seq<seq<real>>): (r: seq<int>)
    ensures |data| <= 1 ==> r == []
    ensures |r| == 6 * Sum(CellCounts(data))
  {
    var rows := if |data| == 0 then 0 else |data| - 1;
    var parts := seq(rows, i requires 0 <= i < rows => CellRow(data, i));
    FlatLengthScaled(parts, CellCounts(data), 6);
    Flat(parts)
  }

  /** How many cells lie below each grid row but the last: one fewer than the row's points. */
  function CellCounts(data: seq<seq<real>>): (ns: seq<nat>)
    ensures |ns| == (if |data| == 0 then 0 else |data| - 1)
    ensures forall i :: 0 <= i < |ns| ==> ns[i] == (if |data[i]| == 0 then 0 else |data[i]| - 1)
  {
    var rows := if |data| == 0 then 0 else |data| - 1;
    seq(rows, i requires 0 <= i < rows => if |data[i]| == 0 then 0 else |data[i]| - 1)
  }

  /** The triangles of the cells between grid rows `i` and `i + 1`, two per cell. */
  function CellRow(data: seq<seq<real>>, i: nat): (r: seq<int>)
    requires i < |data|
    ensures |r| == 6 * (if |data[i]| == 0 then 0 else |data[i]| - 1)
  {
    var cells := if |data[i]| == 0 then 0 else |data[i]| - 1;
    var parts := seq(cells, j requires 0 <= j < cells => Cell(i, |data[i]|, j));
    FlatUniformLength(parts, 6);
    Flat(parts)
  }

  /** Every row has `cols` entries. */
  predicate Rectangular(data: seq<seq<real>>, cols: nat) {
    forall i :: 0 <= i < |data| ==> |data[i]| == cols
  }

  /** The grid's rows as the vertex buffer concatenates them. */
  function GridRows(data: seq<seq<real>>, elementSize: real): (rows: seq<seq<real>>)
    ensures |rows| == |data|
    ensures forall i :: 0 <= i < |data| ==> rows[i] == GridRow(data, elementSize, i)
  {
    seq(|data|, i requires 0 <= i < |data| => GridRow(data, elementSize, i))
  }

  /** In a rectangular grid every row contributes 3 cols coordinates. */
  lemma GridRowsUniform(data: seq<seq<real>>, cols: nat, elementSize: real)
    requires Rectangular(data, cols)
    ensures forall i :: 0 <= i < |data| ==> |GridRows(data, elementSize)[i]| == 3 * cols
  {
    forall i | 0 <= i < |data|
      ensures |GridRows(data, elementSize)[i]| == 3 * cols
    {
      GridRowLength(data, elementSize, i);
    }
  }

  /** For a rows x cols grid there are 3 rows cols vertex coordinates. */
  lemma HeightfieldVertexCount(data: seq<seq<real>>, cols: nat, elementSize: real)
    requires Rectangular(data, cols)
    ensures |HeightfieldVertices(data, elementSize)| == 3 * cols * |data|
  {
    GridRowsUniform(data, cols, elementSize);
    FlatUniformLength(GridRows(data, elementSize), 3 * cols);
    assert HeightfieldVertices(data, elementSize) == Flat(GridRows(data, elementSize));
  }

  /** Coordinate `c` of point (i, j) of a rows x cols grid sits at offset 3 (i cols + j) + c. */
  lemma GridCoordinateAt(data: seq<seq<real>>, cols: nat, elementSize: real, i: nat, j: nat, c: nat)
    requires Rectangular(data, cols) && i < |data| && j < cols && c < 3
    ensures 3 * (cols * i + j) + c < |HeightfieldVertices(data, elementSize)|
    ensures HeightfieldVertices(data, elementSize)[3 * (cols * i + j) + c] == GridPoint(data, elementSize, i, j)[c]
  {
    var rows := GridRows(data, elementSize);
    assert HeightfieldVertices(data, elementSize) == Flat(rows);
    GridRowsUniform(data, cols, elementSize);
    GridRowAt(data, elementSize, i, j, c);
    FlatUniformAt(rows, 3 * cols, i, 3 * j + c);
    GridOffset(cols, i, j, c);
  }

  lemma GridOffset(cols: nat, i: nat, j: nat, c: nat)
    ensures 3 * (cols * i + j) + c == (3 * cols) * i + (3 * j + c)
  {
  }

  /** Point (i, j) of a rows x cols grid sits at offset 3 (i cols + j), with
      x = (i - rows/2) size, y = data[i][j] and z = (j - cols/2) size. */
  lemma HeightfieldVertexAt(data: seq<seq<real>>, cols: nat, elementSize: real, i: nat, j: nat)
    requires Rectangular(data, cols) && i < |data| && j < cols
    ensures var v := HeightfieldVertices(data, elementSize);
            && 3 * (cols * i + j) + 2 < |v|
            && v[3 * (cols * i + j)] == (i as real - |data| as real / 2.0) * elementSize
            && v[3 * (cols * i + j) + 1] == data[i][j]
            && v[3 * (cols * i + j) + 2] == (j as real - cols as real / 2.0) * elementSize
  {
    GridCoordinateAt(data, cols, elementSize, i, j, 0);
    GridCoordinateAt(data, cols, elementSize, i, j, 1);
    GridCoordinateAt(data, cols, elementSize, i, j, 2);
  }

  /** A rows x cols grid (both at least 1) has 2 (rows-1)(cols-1) triangles, and every index
      names one of its rows cols points. */
  lemma HeightfieldTriangles(data: seq<seq<real>>, cols: nat)
    requires Rectangular(data, cols) && |data| >= 1 && cols >= 1
    ensures |HeightfieldIndices(data)| == 6 * (cols - 1) * (|data| - 1)
    ensures forall x :: x in HeightfieldIndices(data) ==> 0 <= x < |data| * cols
  {
    var n := |data| - 1;
    var rows := seq(n, i requires 0 <= i < n => CellRow(data, i));
    assert HeightfieldIndices(data) == Flat(rows);
    forall i | 0 <= i < n
      ensures |rows[i]| == 6 * (cols - 1)
      ensures forall x :: x in rows[i] ==> 0 <= x < |data| * cols
    {
      var cells := seq(cols - 1, j requires 0 <= j < cols - 1 => Cell(i, cols, j));
      assert rows[i] == Flat(cells);
      FlatUniformLength(cells, 6);
      forall x | x in rows[i]
        ensures 0 <= x < |data| * cols
      {
        FlatMembers(cells, x);
        var j :| 0 <= j < |cells| && x in cells[j];
        CellInGrid(i, j, |data|, cols);
      }
    }
    FlatUniformLength(rows, 6 * (cols - 1));
    forall x | x in Flat(rows)
      ensures 0 <= x < |data| * cols
    {
      FlatMembers(rows, x);
    }
  }

  /** The four corners of cell (i, j) lie inside a rows x cols grid. */
  lemma CellInGrid(i: nat, j: nat, rows: nat, cols: nat)
    requires i < rows - 1 && j < cols - 1
    ensures forall x :: x in Cell(i, cols, j) ==> 0 <= x < rows * cols
  {
    assert (i + 1) * cols <= (rows - 1) * cols by {
      MulLeMonoNat(i + 1, rows - 1, cols);
    }
    assert (rows - 1) * cols + cols == rows * cols;
  }

  lemma MulLeMonoNat(a: nat, b: nat, c: nat)
    requires a <= b
    ensures a * c <= b * c
  {
  }

  // ------------------------------------------------------------ teardown

  /** `CannonDebugRenderer.clear`: every wireframe it made leaves the scene and the list empties. */
  function Clear(scene: set<nat>, meshes: seq<nat>): (r: (set<nat>, seq<nat>))
    ensures r.1 == []
    ensures forall m :: m in meshes ==> m !in r.0
    ensures forall m :: m in scene && m !in meshes ==> m in r.0
    ensures r.0 <= scene
  {
    (scene - set m | m in meshes, [])
  }

  /** The world's body and constraint lists. */
  datatype World = World(bodies: seq<nat>, constraints: seq<nat>)

  /** `PhysicsManager.dispose`: a debug renderer, if there is one, is cleared out of the scene
      and dropped; then the first body is removed until none is left, then the first constraint
      until none is left. `debug` holds the renderer's wireframe list when it exists. Returns the
      world, the removal order, the scene and the (now absent) renderer. `World.removeBody` is the
      engine's; it is taken to remove the body from the front of the list. */
  method Dispose(world: Option<World>, scene: set<nat>, debug: Option<seq<nat>>)
    returns (r: Option<World>, removedBodies: seq<nat>, removedConstraints: seq<nat>,
             sceneAfter: set<nat>, debugAfter: Option<seq<nat>>)
    ensures debugAfter.None?
    ensures debug.None? ==> sceneAfter == scene
    ensures debug.Some? ==> sceneAfter == Clear(scene, debug.value).0
    ensures debug.Some? ==> forall m :: m in debug.value ==> m !in sceneAfter
    ensures forall m :: m in scene && (debug.None? || m !in debug.value) ==> m in sceneAfter
    ensures world.None? ==> r.None? && removedBodies == [] && removedConstraints == []
    ensures world.Some? ==> r == Some(World([], []))
    ensures world.Some? ==> removedBodies == world.value.bodies && removedConstraints == world.value.constraints
  {
    sceneAfter, debugAfter := scene, debug;
    if debugAfter.Some? {
      var cleared := Clear(sceneAfter, debugAfter.value);
      sceneAfter := cleared.0;
      debugAfter := None;
    }
    removedBodies, removedConstraints := [], [];
    if world.None? {
      return None, removedBodies, removedConstraints, sceneAfter, debugAfter;
    }
    var bodies := world.value.bodies;
    while |bodies| > 0
      invariant removedBodies + bodies == world.value.bodies
    {
      removedBodies := removedBodies + [bodies[0]];
      bodies := bodies[1..];
    }
    var constraints := world.value.constraints;
    while |constraints| > 0
      invariant removedConstraints + constraints == world.value.constraints
    {
      removedConstraints := removedConstraints + [constraints[0]];
      constraints := constraints[1..];
    }
    assert removedBodies == removedBodies + bodies;
    assert removedConstraints == removedConstraints + constraints;
    r := Some(World(bodies, constraints));
  }

}

=== FILE: terrain.dfy ===
/** The adjustable slope and the falling-obstacle watchdog of the terrain manager
    (js/terrain.js). Ground, walls and meshes are scene construction and are not modelled;
    the slope angle (`atan2`) and obstacle directions (`cos`/`sin`) are left to the engine. */
module Terrain {
  import opened Basics
  import Config

  // ------------------------------------------------------------ slope

  const MinSlopeHeight: real := 0.5
  const MaxSlopeHeight: real := 10.0

  /** `slopeHeight`, and the y of the slope mesh and body if they have been built
      (`updateSlopeGeometry` keeps both at half the height). */
  datatype Slope = Slope(height: real, centreY: Option<real>)

  /** The slope's geometry, when present, sits at half its height. */
  predicate Consistent(s: Slope) {
    s.centreY.Some? ==> s.centreY.value == s.height / 2.0
  }

  /** The slope as the constructor leaves it: default height, no geometry yet. */
  function InitialSlope(): (s: Slope)
    ensures Consistent(s) && MinSlopeHeight <= s.height <= MaxSlopeHeight
  {
    Slope(Config.SlopeDefaultHeight, None)
  }

  /** `updateSlopeGeometry`: a no-op until both mesh and body exist. */
  function UpdateSlopeGeometry(s: Slope): (r: Slope)
    ensures r.height == s.height
    ensures s.centreY.None? ==> r == s
    ensures Consistent(r)
  {
    if s.centreY.None? then s else Slope(s.height, Some(s.height / 2.0))
  }

  /** `adjustSlopeHeight(delta)`: one step of 0.5 per unit of delta, clamped to [0.5, 10]. */
  function AdjustSlopeHeight(s: Slope, delta: real): (r: Slope)
    ensures MinSlopeHeight <= r.height <= MaxSlopeHeight
    ensures var h := s.height + delta * Config.SlopeAdjustmentStep;
            (MinSlopeHeight <= h <= MaxSlopeHeight ==> r.height == h)
            && (h < MinSlopeHeight ==> r.height == MinSlopeHeight)
            && (h > MaxSlopeHeight ==> r.height == MaxSlopeHeight)
    ensures r.centreY.Some? <==> s.centreY.Some?
    ensures Consistent(s) ==> Consistent(r)
  {
    var h := Clamp(MinSlopeHeight, MaxSlopeHeight, s.height + delta * Config.SlopeAdjustmentStep);
    UpdateSlopeGeometry(s.(height := h))
  }

  /** `n` presses of the same slope key. */
  function AdjustN(s: Slope, delta: real, n: nat): Slope {
    if n == 0 then s else AdjustSlopeHeight(AdjustN(s, delta, n - 1), delta)
  }

  /** Holding "raise" climbs half a unit per press until it saturates at 10; holding "lower"
      descends until it saturates at 0.5. */
  lemma {:induction false} RepeatedAdjustSaturates(s: Slope, n: nat)
    requires MinSlopeHeight <= s.height <= MaxSlopeHeight
    ensures AdjustN(s, 1.0, n).height == Min(MaxSlopeHeight, s.height + 0.5 * n as real)
    ensures AdjustN(s, -1.0, n).height == Max(MinSlopeHeight, s.height - 0.5 * n as real)
  {
    if n > 0 {
      RepeatedAdjustSaturates(s, n - 1);
    }
  }

  /** A raise followed by a lower restores the slope exactly, unless the raise hit the cap. */
  lemma RaiseThenLower(s: Slope)
    requires Consistent(s) && MinSlopeHeight <= s.height <= MaxSlopeHeight - 0.5
    ensures AdjustSlopeHeight(AdjustSlopeHeight(s, 1.0), -1.0) == s
  {
  }

  // ------------------------------------------------------------ obstacles

  const ObstacleCount: nat := 10
  const MinObstacleRadius: real := 0.5
  const MaxObstacleRadius: real := 2.0
  /** Below this height a body has fallen off the world. */
  const FallLimit: real := -10.0

  /** A physics body as far as the watchdog touches it. */
  datatype Body = Body(position: Vec3, velocity: Vec3, angularVelocity: Vec3, quaternion: Quat)

  /** A mesh follows its body's position and rotation. */
  datatype Mesh = Mesh(position: Vec3, quaternion: Quat)

  datatype Obstacle = Obstacle(mesh: Mesh, body: Body, radius: real, initialPosition: Vec3)

  /** The `i`th obstacle of `createObstacles` from its two random draws (radius, distance)
      and the unit direction `(cos, sin)` of its angle. It rests on the ground: y = radius. */
  function CreateObstacle(radiusDraw: real, distanceDraw: real, dir: (real, real)): (o: Obstacle)
    requires 0.0 <= radiusDraw < 1.0 && 0.0 <= distanceDraw < 1.0
    ensures MinObstacleRadius <= o.radius < MaxObstacleRadius
    ensures o.initialPosition.y == o.radius && o.body.position == o.initialPosition
    ensures o.mesh.position == o.body.position
    ensures o.body.velocity == Zero && o.body.angularVelocity == Zero
  {
    var radius := MinObstacleRadius + radiusDraw * (MaxObstacleRadius - MinObstacleRadius);
    var distance := 20.0 + distanceDraw * 30.0;
    var p := Vec3(dir.0 * distance, radius, dir.1 * distance);
    Obstacle(Mesh(p, Identity), Body(p, Zero, Zero, Identity), radius, p)
  }

  /** `createObstacles`: ten obstacles, one per draw triple. */
  function CreateObstacles(radiusDraws: seq<real>, distanceDraws: seq<real>, dirs: seq<(real, real)>): (os: seq<Obstacle>)
    requires |radiusDraws| == ObstacleCount && |distanceDraws| == ObstacleCount && |dirs| == ObstacleCount
    requires forall i :: 0 <= i < ObstacleCount ==> 0.0 <= radiusDraws[i] < 1.0 && 0.0 <= distanceDraws[i] < 1.0
    ensures |os| == ObstacleCount
    ensures forall i :: 0 <= i < ObstacleCount ==> os[i] == CreateObstacle(radiusDraws[i], distanceDraws[i], dirs[i])
    ensures AllAboveLimit(os)
  {
    seq(ObstacleCount, i requires 0 <= i < ObstacleCount => CreateObstacle(radiusDraws[i], distanceDraws[i], dirs[i]))
  }

  /** Every obstacle's respawn point is above the fall limit. */
  predicate AllAboveLimit(os: seq<Obstacle>) {
    forall i :: 0 <= i < |os| ==> os[i].initialPosition.y >= FallLimit
  }

  /** One obstacle's step of `updateObstacles`: the mesh is synced to the body first, then a
      body that has fallen below the limit is put back at its spawn point with zero velocity. */
  function UpdateObstacle(o: Obstacle): (r: Obstacle)
    ensures r.mesh == Mesh(o.body.position, o.body.quaternion)
    ensures r.radius == o.radius && r.initialPosition == o.initialPosition
    ensures o.body.position.y >= FallLimit ==> r.body == o.body
    ensures o.body.position.y < FallLimit ==>
              r.body == o.body.(position := o.initialPosition, velocity := Zero)
  {
    var synced := o.(mesh := Mesh(o.body.position, o.body.quaternion));
    if synced.body.position.y < FallLimit then
      synced.(body := synced.body.(position := synced.initialPosition, velocity := Zero))
    else
      synced
  }

  /** `updateObstacles` over the whole list. */
  function UpdateObstacles(os: seq<Obstacle>): (rs: seq<Obstacle>)
    ensures |rs| == |os|
    ensures forall i :: 0 <= i < |os| ==> rs[i] == UpdateObstacle(os[i])
  {
    seq(|os|, i requires 0 <= i < |os| => UpdateObstacle(os[i]))
  }

  /** After a watchdog pass every body is at or above the fall limit, as long as the spawn
      points are; spawn points themselves never change. */
  lemma WatchdogRestores(os: seq<Obstacle>)
    requires AllAboveLimit(os)
    ensures AllAboveLimit(UpdateObstacles(os))
    ensures forall i :: 0 <= i < |os| ==> UpdateObstacles(os)[i].body.position.y >= FallLimit
  {
  }

  /** The reset keeps the body's spin and orientation, and the mesh lags by one frame: on the
      frame a fallen body is put back, its mesh still shows where it fell. */
  lemma RespawnKeepsSpinAndLagsMesh(o: Obstacle)
    requires o.body.position.y < FallLimit
    ensures UpdateObstacle(o).body.angularVelocity == o.body.angularVelocity
    ensures UpdateObstacle(o).body.quaternion == o.body.quaternion
    ensures UpdateObstacle(o).mesh.position.y < FallLimit
    ensures UpdateObstacle(UpdateObstacle(o)).mesh.position == o.initialPosition
  {
  }
}

=== FILE: ui.dfy ===
/** The heads-up display (js/ui.js): the speedometer reading, the three collected-item slots,
    and the instructions and loading panels. A DOM element is `None` until `init` finds it. */
module Ui {
  import opened Basics

  /** `init` looks up slots `slot-1` .. `slot-3`. */
  const SlotCount: nat := 3

  /** The default loading message. */
  const DefaultLoadingMessage: string := "読み込み中..."

  /** One item slot: its text and whether it carries the `filled` class. */
  datatype Slot = Slot(text: string, filled: bool)

  /** A panel's `display` (true for 'block') and its text. */
  datatype Panel = Panel(shown: bool, text: string)

  datatype Hud = Hud(
    speedValue: Option<int>,
    slots: seq<Slot>,
    instructions: Option<bool>,
    loading: Option<Panel>)

  /** JavaScript's `Math.round`: the nearest integer, halves rounding up. */
  function Round(x: real): (n: int)
    ensures n as real - 0.5 <= x < n as real + 0.5
  {
    (x + 0.5).Floor
  }

  /** Rounding picks the only integer within half a unit. */
  lemma RoundUnique(x: real, n: int)
    requires n as real - 0.5 <= x < n as real + 0.5
    ensures Round(x) == n
  {
  }

  /** m/s to km/h, rounded for display. */
  function Kmh(speed: real): (k: int)
    ensures k as real - 0.5 <= speed * 3.6 < k as real + 0.5
  {
    Round(speed * 3.6)
  }

  /** A faster car never shows a lower reading, and standing still shows 0. */
  lemma KmhMonotone(s1: real, s2: real)
    requires s1 <= s2
    ensures Kmh(s1) <= Kmh(s2)
    ensures Kmh(0.0) == 0
  {
    RoundUnique(0.0, 0);
  }

  /** `updateSpeed(speed)`: writes the reading if the element exists. */
  function UpdateSpeed(h: Hud, speed: real): (r: Hud)
    ensures r.speedValue.Some? <==> h.speedValue.Some?
    ensures r.speedValue.Some? ==> r.speedValue.value as real - 0.5 <= speed * 3.6 < r.speedValue.value as real + 0.5
    ensures r.slots == h.slots && r.instructions == h.instructions && r.loading == h.loading
  {
    if h.speedValue.Some? then h.(speedValue := Some(Kmh(speed))) else h
  }

  /** `updateCollectedItems(items)`: slot i shows items[i] when there is a non-empty one,
      and is cleared otherwise. */
  function UpdateCollectedItems(slots: seq<Slot>, items: seq<string>): (r: seq<Slot>)
    ensures |r| == |slots|
    ensures forall i :: 0 <= i < |r| ==> (r[i].filled <==> i < |items| && items[i] != "")
    ensures forall i :: 0 <= i < |r| && r[i].filled ==> r[i].text == items[i]
    ensures forall i :: 0 <= i < |r| && !r[i].filled ==> r[i].text == ""
  {
    seq(|slots|, i requires 0 <= i < |slots| =>
      if i < |items| && items[i] != "" then Slot(items[i], true) else Slot("", false))
  }

  /** The number of slots showing an item. */
  function FilledCount(slots: seq<Slot>): (n: nat)
    ensures n <= |slots|
    decreases |slots|
  {
    if |slots| == 0 then 0
    else FilledCount(slots[..|slots| - 1]) + (if slots[|slots| - 1].filled then 1 else 0)
  }

  /** With no empty names in the list, exactly min(items, slots) slots light up: the newest
      three collected items always fit the three slots. */
  lemma {:induction false} FilledSlotsMatchItems(slots: seq<Slot>, items: seq<string>)
    requires forall i :: 0 <= i < |items| ==> items[i] != ""
    ensures FilledCount(UpdateCollectedItems(slots, items)) == if |items| < |slots| then |items| else |slots|
    decreases |slots|
  {
    if |slots| > 0 {
      var r := UpdateCollectedItems(slots, items);
      var shorter := slots[..|slots| - 1];
      FilledSlotsMatchItems(shorter, items);
      assert r[..|slots| - 1] == UpdateCollectedItems(shorter, items);
    }
  }

  /** `showInstructions(show)`: toggles the panel if it exists. */
  function ShowInstructions(h: Hud, show: bool): (r: Hud)
    ensures h.instructions.Some? ==> r.instructions == Some(show)
    ensures h.instructions.None? ==> r == h
    ensures r.speedValue == h.speedValue && r.slots == h.slots && r.loading == h.loading
  {
    if h.instructions.Some? then h.(instructions := Some(show)) else h
  }

  /** `showLoading(show, message)`: toggles the panel; only showing it replaces the text. */
  function ShowLoading(h: Hud, show: bool, message: string): (r: Hud)
    ensures h.loading.None? ==> r == h
    ensures h.loading.Some? ==> r.loading.Some? && r.loading.value.shown == show
    ensures h.loading.Some? && show ==> r.loading.value.text == message
    ensures h.loading.Some? && !show ==> r.loading.value.text == h.loading.value.text
    ensures r.speedValue == h.speedValue && r.slots == h.slots && r.instructions == h.instructions
  {
    match h.loading
    case None => h
    case Some(p) => h.(loading := Some(Panel(show, if show then message else p.text)))
  }

  /** `showLoading()` with both defaults: the panel is shown with the default message. */
  function ShowLoadingDefault(h: Hud): (r: Hud)
    ensures h.loading.None? ==> r == h
    ensures h.loading.Some? ==> r == h.(loading := Some(Panel(true, DefaultLoadingMessage)))
  {
    ShowLoading(h, true, DefaultLoadingMessage)
  }

  /** Hiding the loading panel keeps the message it last showed. */
  lemma HidingKeepsMessage(h: Hud, message: string)
    requires h.loading.Some?
    ensures var r := ShowLoading(ShowLoading(h, true, message), false, "");
            r.loading == Some(Panel(false, message))
  {
  }
}

=== FILE: vehicle.dfy ===
/** The vehicle manager's per-frame control law (js/vehicle.js): engine force, brake
    force and steering from the six input flags and the chassis speed, the per-wheel
    calls that deliver them, the roll/pitch stabiliser, and the pose reset.

    The physics engine's own work is outside the model: speed (`velocity.length()`)
    and the two tilt angles (`asin` of a rotated axis) arrive as real inputs, and
    corrective torques are reported in chassis-local coordinates, before the
    quaternion rotation into world space. */
module Vehicle {
  import opened Basics
  import Config
  import opened Input

  // ------------------------------------------------------------------ tuning

  /** A speed-dependent attenuation: above `threshold` the value is scaled by
      `max(minFactor, 1 - (speed - threshold) / range)`. */
  datatype Curve = Curve(threshold: real, minFactor: real, range: real) {
    predicate Valid() {
      threshold >= 0.0 && 0.0 < minFactor <= 1.0 && range > 0.0
    }
  }

  /** The engine, brake and steering constants the control law reads. */
  datatype Tuning = Tuning(
    baseForce: real,
    turboMultiplier: real,
    brakeForce: real,
    maxSpeed: real,
    engineCurve: Curve,
    maxSteer: real,
    steerCurve: Curve)
  {
    predicate Valid() {
      && baseForce >= 0.0
      && turboMultiplier >= 1.0
      && brakeForce >= 0.0
      && maxSpeed >= 0.0
      && engineCurve.Valid()
      && maxSteer >= 0.0
      && steerCurve.Valid()
    }
  }

  /** The shipped tuning (VEHICLE.engine, .engineForce and .steering). */
  const Shipped: Tuning := Tuning(
    Config.BaseForce, Config.TurboMultiplier, Config.BrakeForce, Config.MaxSpeed,
    Curve(Config.EngineHighSpeedThreshold, Config.EngineMinFactorAtHighSpeed, Config.EngineReductionSpeedRange),
    Config.BaseMaxSteerVal,
    Curve(Config.SteerHighSpeedThreshold, Config.SteerMinFactorAtHighSpeed, Config.SteerReductionSpeedRange))

  lemma ShippedIsValid()
    ensures Shipped.Valid()
  {
  }

  // ------------------------------------------------------------ control law

  /** The multiplier a curve applies at `speed` (1 at or below the threshold). */
  function Factor(c: Curve, speed: real): (f: real)
    requires c.Valid()
    ensures c.minFactor <= f <= 1.0
    ensures speed <= c.threshold ==> f == 1.0
    ensures speed > c.threshold ==> f < 1.0 || c.minFactor == 1.0
  {
    if speed > c.threshold then Max(c.minFactor, 1.0 - (speed - c.threshold) / c.range) else 1.0
  }

  /** The engine force chosen from the flags alone, before any speed rule. */
  function RawEngineForce(a: Actions, t: Tuning): (r: real)
    requires t.Valid()
    ensures -0.5 * t.baseForce <= r <= t.baseForce * t.turboMultiplier
    ensures 0.0 <= t.baseForce * t.turboMultiplier
    ensures a.acceleration ==> r >= 0.0
    ensures !a.acceleration && a.braking ==> r <= 0.0
    ensures !a.acceleration && !a.braking ==> r == 0.0
    ensures a.acceleration ==> r == (if a.turbo then t.baseForce * t.turboMultiplier else t.baseForce)
    ensures !a.acceleration && a.braking ==> r == -0.5 * t.baseForce
  {
    MulLeMono(1.0, t.turboMultiplier, t.baseForce);
    if a.acceleration then (if a.turbo then t.baseForce * t.turboMultiplier else t.baseForce)
    else if a.braking then -t.baseForce * 0.5
    else 0.0
  }

  /** `engineForce` as handed to the rear wheels: the raw force, attenuated at high
      speed (the braking force included), then cut to zero when positive above top speed. */
  function EngineForce(a: Actions, speed: real, t: Tuning): (r: real)
    requires t.Valid()
    ensures -0.5 * t.baseForce <= r <= t.baseForce * t.turboMultiplier
    ensures a.acceleration ==> r >= 0.0
    ensures !a.acceleration && a.braking ==> r <= 0.0
    ensures !a.acceleration && !a.braking ==> r == 0.0
    ensures speed > t.maxSpeed ==> r <= 0.0
    ensures !(speed > t.maxSpeed && RawEngineForce(a, t) * Factor(t.engineCurve, speed) > 0.0) ==>
              r == RawEngineForce(a, t) * Factor(t.engineCurve, speed)
    ensures speed > t.maxSpeed && RawEngineForce(a, t) * Factor(t.engineCurve, speed) > 0.0 ==> r == 0.0
  {
    var raw := RawEngineForce(a, t);
    var factor := Factor(t.engineCurve, speed);
    AttenuatedWithinBounds(raw, factor, -0.5 * t.baseForce, t.baseForce * t.turboMultiplier);
    var f := raw * factor;
    if speed > t.maxSpeed && f > 0.0 then 0.0 else f
  }

  /** Scaling by a factor in (0, 1] keeps the sign and stays within any bounds around zero. */
  lemma AttenuatedWithinBounds(raw: real, f: real, lo: real, hi: real)
    requires 0.0 < f <= 1.0 && lo <= raw <= hi && lo <= 0.0 <= hi
    ensures lo <= raw * f <= hi
    ensures raw >= 0.0 ==> raw * f >= 0.0
    ensures raw <= 0.0 ==> raw * f <= 0.0
  {
    ScaleBetween(raw, f);
  }

  /** `brakeForce`: the foot brake only without throttle; the handbrake doubles and wins. */
  function BrakeForce(a: Actions, t: Tuning): (r: real)
    ensures r == 0.0 || r == t.brakeForce || r == 2.0 * t.brakeForce
    ensures a.handbrake ==> r == 2.0 * t.brakeForce
    ensures !a.handbrake && a.braking && !a.acceleration ==> r == t.brakeForce
    ensures !a.handbrake && (!a.braking || a.acceleration) ==> r == 0.0
  {
    if a.handbrake then t.brakeForce * 2.0
    else if a.braking && !a.acceleration then t.brakeForce
    else 0.0
  }

  /** `steering`: left is positive, right negative and wins over left; attenuated at speed. */
  function Steering(a: Actions, speed: real, t: Tuning): (r: real)
    requires t.Valid()
    ensures -t.maxSteer <= r <= t.maxSteer
    ensures a.right ==> r <= 0.0
    ensures a.left && !a.right ==> r >= 0.0
    ensures !a.left && !a.right ==> r == 0.0
    ensures a.right ==> r == -t.maxSteer * Factor(t.steerCurve, speed)
    ensures a.left && !a.right ==> r == t.maxSteer * Factor(t.steerCurve, speed)
  {
    var base := if a.right then -t.maxSteer else if a.left then t.maxSteer else 0.0;
    var f := Factor(t.steerCurve, speed);
    AttenuatedWithinBounds(base, f, -t.maxSteer, t.maxSteer);
    base * f
  }

  // ------------------------------------------------------------ wheels

  /** One call into the raycast vehicle's per-wheel API. */
  datatype WheelCall =
    | ApplyEngineForce(force: real, wheel: nat)
    | SetBrake(brake: real, wheel: nat)
    | SetSteeringValue(steering: real, wheel: nat)

  /** The calls `update` makes, in order: rear-wheel drive, four brakes, two steered wheels. */
  function WheelCalls(engine: real, brake: real, steering: real): (r: seq<WheelCall>)
    ensures |r| == 8
    ensures forall c :: c in r ==> c.wheel < 4
    ensures forall c :: c in r && c.SetBrake? ==> c.brake == brake
  {
    [ ApplyEngineForce(engine, 2), ApplyEngineForce(engine, 3),
      SetBrake(brake, 0), SetBrake(brake, 1), SetBrake(brake, 2), SetBrake(brake, 3),
      SetSteeringValue(steering, 0), SetSteeringValue(steering, 1) ]
  }

  /** Where a wheel is attached to the chassis, and whether it is flagged as steerable. */
  datatype WheelMount = WheelMount(x: real, y: real, z: real, isFrontWheel: bool)

  /** The four wheels of `addWheels`: front-left, front-right, rear-left, rear-right. */
  function WheelLayout(): (ws: seq<WheelMount>)
    ensures |ws| == 4
    ensures forall i :: 0 <= i < 4 ==> (ws[i].isFrontWheel <==> i < 2)
    ensures ws[0].x == -ws[1].x && ws[2].x == -ws[3].x && ws[0].z == ws[1].z && ws[2].z == ws[3].z
    ensures ws[0].x < 0.0 && ws[2].x < 0.0
    ensures ws[0].z > 0.0 && ws[2].z == -ws[0].z
  {
    var fz := Config.ChassisDepth * 0.35;
    var a := Config.AxisPosition;
    [ WheelMount(-a, 0.0, fz, true), WheelMount(a, 0.0, fz, true),
      WheelMount(-a, 0.0, -fz, false), WheelMount(a, 0.0, -fz, false) ]
  }

  /** Engine force reaches only the two rear wheels, every wheel gets the same brake,
      and steering goes only to wheels 0 and 1. */
  lemma WheelDistribution(engine: real, brake: real, steering: real)
    ensures var calls := WheelCalls(engine, brake, steering);
            && (forall c :: c in calls && c.ApplyEngineForce? ==> c.force == engine && (c.wheel == 2 || c.wheel == 3))
            && (forall w :: 0 <= w < 4 ==> SetBrake(brake, w) in calls)
            && (forall c :: c in calls && c.SetBrake? ==> c.brake == brake)
            && (forall c :: c in calls && c.SetSteeringValue? ==> c.steering == steering && c.wheel < 2)
  {
    var calls := WheelCalls(engine, brake, steering);
    forall w | 0 <= w < 4
      ensures SetBrake(brake, w) in calls
    {
      assert calls[2 + w] == SetBrake(brake, w);
    }
  }

  /** The steered wheels are exactly the ones `addWheels` flags `isFrontWheel`, and the
      driven wheels are exactly the others. */
  lemma SteeredWheelsAreFront(engine: real, brake: real, steering: real, w: nat)
    requires w < 4
    ensures var calls := WheelCalls(engine, brake, steering);
            && (WheelLayout()[w].isFrontWheel <==> SetSteeringValue(steering, w) in calls)
            && (ApplyEngineForce(engine, w) in calls <==> !WheelLayout()[w].isFrontWheel)
  {
    var calls := WheelCalls(engine, brake, steering);
    if w < 2 {
      assert calls[6 + w] == SetSteeringValue(steering, w);
    } else {
      assert calls[w - 2] == ApplyEngineForce(engine, w);
    }
  }

  // ------------------------------------------------------------ stabilisation

  datatype StabilizationTuning = StabilizationTuning(
    rollStrength: real, rollSpeed: real, pitchStrength: real, pitchSpeed: real)
  {
    predicate Valid() {
      rollStrength > 0.0 && 0.0 <= rollSpeed <= 1.0 && pitchStrength > 0.0 && 0.0 <= pitchSpeed <= 1.0
    }
  }

  const ShippedStabilization: StabilizationTuning := StabilizationTuning(
    Config.RollCorrectionStrength, Config.RollCorrectionSpeed,
    Config.PitchCorrectionStrength, Config.PitchCorrectionSpeed)

  /** The chassis tilt as the stabiliser measures it (angles in radians, from `asin`). */
  datatype Tilt = Tilt(roll: real, pitch: real)

  /** What one stabiliser pass produces: the damped angular velocity, and the two
      corrective torques in chassis-local coordinates (roll about local z, pitch about local x). */
  datatype Stabilization = Stabilization(angularVelocity: Vec3, rollTorque: Vec3, pitchTorque: Vec3)

  /** The angular-velocity damping of one stabiliser pass: roll rate (x) and pitch rate (z)
      shrink towards zero without changing sign, yaw rate (y) is left alone. */
  function Damp(w: Vec3, s: StabilizationTuning): (r: Vec3)
    requires s.Valid()
    ensures r.y == w.y
    ensures w.x >= 0.0 ==> 0.0 <= r.x <= w.x
    ensures w.x <= 0.0 ==> w.x <= r.x <= 0.0
    ensures w.z >= 0.0 ==> 0.0 <= r.z <= w.z
    ensures w.z <= 0.0 ==> w.z <= r.z <= 0.0
    ensures r.x == w.x * (1.0 - s.rollSpeed) && r.z == w.z * (1.0 - s.pitchSpeed)
  {
    ScaleBetween(w.x, 1.0 - s.rollSpeed);
    ScaleBetween(w.z, 1.0 - s.pitchSpeed);
    Vec3(w.x * (1.0 - s.rollSpeed), w.y, w.z * (1.0 - s.pitchSpeed))
  }

  /** A correction `-angle * strength` with a positive strength opposes the angle. */
  function Correction(angle: real, strength: real): (c: real)
    requires strength > 0.0
    ensures angle > 0.0 ==> c < 0.0
    ensures angle < 0.0 ==> c > 0.0
    ensures angle == 0.0 ==> c == 0.0
  {
    OpposesSign(angle, strength);
    -angle * strength
  }

  lemma OpposesSign(angle: real, strength: real)
    requires strength > 0.0
    ensures angle > 0.0 ==> -angle * strength < 0.0
    ensures angle < 0.0 ==> -angle * strength > 0.0
  {
    if angle > 0.0 {
      MulLtMono(0.0, angle, strength);
    } else if angle < 0.0 {
      MulLtMono(angle, 0.0, strength);
    }
  }

  /** `applyStabilization`: each correcting torque opposes its tilt and acts about one local
      axis only; the roll and pitch rates are damped. */
  function Stabilize(w: Vec3, tilt: Tilt, s: StabilizationTuning): (r: Stabilization)
    requires s.Valid()
    ensures r.angularVelocity == Vec3(w.x * (1.0 - s.rollSpeed), w.y, w.z * (1.0 - s.pitchSpeed))
    ensures Abs(r.angularVelocity.x) <= Abs(w.x) && Abs(r.angularVelocity.z) <= Abs(w.z)
    ensures r.rollTorque.x == 0.0 && r.rollTorque.y == 0.0
    ensures r.pitchTorque.y == 0.0 && r.pitchTorque.z == 0.0
    ensures r.rollTorque.z == -tilt.roll * s.rollStrength && r.pitchTorque.x == -tilt.pitch * s.pitchStrength
    ensures tilt.roll > 0.0 ==> r.rollTorque.z < 0.0
    ensures tilt.roll < 0.0 ==> r.rollTorque.z > 0.0
    ensures tilt.roll == 0.0 ==> r.rollTorque.z == 0.0
    ensures tilt.pitch > 0.0 ==> r.pitchTorque.x < 0.0
    ensures tilt.pitch < 0.0 ==> r.pitchTorque.x > 0.0
    ensures tilt.pitch == 0.0 ==> r.pitchTorque.x == 0.0
  {
    Stabilization(
      Damp(w, s),
      Vec3(0.0, 0.0, Correction(tilt.roll, s.rollStrength)),
      Vec3(Correction(tilt.pitch, s.pitchStrength), 0.0, 0.0))
  }

  /** The stabiliser run for `n` frames with the tilt held fixed. */
  function StabilizeN(w: Vec3, tilt: Tilt, s: StabilizationTuning, n: nat): Vec3
    requires s.Valid()
  {
    if n == 0 then w else Stabilize(StabilizeN(w, tilt, s, n - 1), tilt, s).angularVelocity
  }

  /** One pass's angular velocity is the damping alone (the torques do not feed back here). */
  lemma StabilizeDamps(w: Vec3, tilt: Tilt, s: StabilizationTuning)
    requires s.Valid()
    ensures Stabilize(w, tilt, s).angularVelocity == Damp(w, s)
  {
  }

  /** Run frame after frame with the tilt held fixed, the stabiliser never lets the roll or
      pitch rate grow or flip sign, and never touches the yaw rate: each rate stays between
      zero and its value at any earlier frame. */
  lemma {:induction false} StabilizationDecays(w: Vec3, tilt: Tilt, s: StabilizationTuning, m: nat, n: nat)
    requires s.Valid() && m <= n
    ensures StabilizeN(w, tilt, s, n).y == w.y
    ensures var xm, xn := StabilizeN(w, tilt, s, m).x, StabilizeN(w, tilt, s, n).x;
            (xm >= 0.0 ==> 0.0 <= xn <= xm) && (xm <= 0.0 ==> xm <= xn <= 0.0)
    ensures var zm, zn := StabilizeN(w, tilt, s, m).z, StabilizeN(w, tilt, s, n).z;
            (zm >= 0.0 ==> 0.0 <= zn <= zm) && (zm <= 0.0 ==> zm <= zn <= 0.0)
    decreases n
  {
    if n > m {
      StabilizationDecays(w, tilt, s, m, n - 1);
      StabilizeDamps(StabilizeN(w, tilt, s, n - 1), tilt, s);
    } else if n > 0 {
      StabilizationDecays(w, tilt, s, 0, n - 1);
      StabilizeDamps(StabilizeN(w, tilt, s, n - 1), tilt, s);
    }
  }

  /** `x` scaled by `q` once per frame for `n` frames. */
  function Decay(x: real, q: real, n: nat): real
  {
    if n == 0 then x else Decay(x, q, n - 1) * q
  }

  /** Scaling by `q` for `n` frames is scaling by `q^n`. */
  lemma {:induction false} DecayIsGeometric(x: real, q: real, n: nat)
    ensures Decay(x, q, n) == x * Pow(q, n)
  {
    if n > 0 {
      DecayIsGeometric(x, q, n - 1);
      ScaledTwice(x, Pow(q, n - 1), q);
    }
  }

  /** Since the torques never feed back into the angular velocity, `n` stabiliser passes
      scale the roll rate by `1 - rollSpeed` and the pitch rate by `1 - pitchSpeed` once
      per pass, and leave the yaw rate alone; with `DecayIsGeometric`, the roll rate after
      `n` frames is `w.x * (1 - rollSpeed)^n`. */
  lemma {:induction false} StabilizeNDecays(w: Vec3, tilt: Tilt, s: StabilizationTuning, n: nat)
    requires s.Valid()
    ensures StabilizeN(w, tilt, s, n)
            == Vec3(Decay(w.x, 1.0 - s.rollSpeed, n), w.y, Decay(w.z, 1.0 - s.pitchSpeed, n))
  {
    if n > 0 {
      StabilizeNDecays(w, tilt, s, n - 1);
      PassDecays(StabilizeN(w, tilt, s, n - 1), w, tilt, s, n);
    }
  }

  /** One more pass on rates decayed for `n - 1` frames gives rates decayed for `n`. */
  lemma PassDecays(prev: Vec3, w: Vec3, tilt: Tilt, s: StabilizationTuning, n: nat)
    requires s.Valid() && n > 0
    requires prev == Vec3(Decay(w.x, 1.0 - s.rollSpeed, n - 1), w.y, Decay(w.z, 1.0 - s.pitchSpeed, n - 1))
    ensures Stabilize(prev, tilt, s).angularVelocity
            == Vec3(Decay(w.x, 1.0 - s.rollSpeed, n), w.y, Decay(w.z, 1.0 - s.pitchSpeed, n))
  {
    var qr, qp := 1.0 - s.rollSpeed, 1.0 - s.pitchSpeed;
    assert prev.x * qr == Decay(w.x, qr, n);
    assert prev.z * qp == Decay(w.z, qp, n);
    var r := Stabilize(prev, tilt, s).angularVelocity;
    assert r.x == prev.x * qr && r.y == w.y && r.z == prev.z * qp;
  }

  // ------------------------------------------------------------ chassis

  /** The chassis body's pose, velocities and torque accumulator. */
  datatype Chassis = Chassis(position: Vec3, velocity: Vec3, angularVelocity: Vec3, quaternion: Quat, torque: Vec3)

  /** `reset(p)`: teleport to `p` at rest and upright; without a chassis nothing happens. */
  function Reset(body: Option<Chassis>, p: Vec3): (r: Option<Chassis>)
    ensures r.Some? <==> body.Some?
    ensures r.Some? ==> r.value.position == p && r.value.velocity == Zero
                        && r.value.angularVelocity == Zero && r.value.quaternion == Identity
    ensures r.Some? ==> r.value.torque == body.value.torque
  {
    match body
    case None => None
    case Some(c) => Some(c.(position := p, velocity := Zero, angularVelocity := Zero, quaternion := Identity))
  }

  /** Resetting twice to the same place is the same as resetting once. */
  lemma ResetIdempotent(body: Option<Chassis>, p: Vec3)
    ensures Reset(Reset(body, p), p) == Reset(body, p)
  {
  }

  /** Two resets to the same place agree whatever state they start from, up to the untouched torque. */
  lemma ResetForgetsMotion(c1: Chassis, c2: Chassis, p: Vec3)
    requires c1.torque == c2.torque
    ensures Reset(Some(c1), p) == Reset(Some(c2), p)
  {
  }

  /** `getSpeed`: the engine's velocity length, or 0 when there is no chassis. */
  function GetSpeed(body: Option<Chassis>, velocityLength: real): (r: real)
    requires velocityLength >= 0.0
    ensures r >= 0.0
    ensures body.None? ==> r == 0.0
    ensures body.Some? ==> r == velocityLength
  {
    if body.Some? then velocityLength else 0.0
  }

  // ------------------------------------------------------------ one frame

  /** What `update` does in one frame. */
  datatype FrameOutput = FrameOutput(calls: seq<WheelCall>, stabilization: Option<Stabilization>)

  /** `update(inputActions, deltaTime)`; `deltaTime` is unused by the law and left out.
      `present` says whether the raycast vehicle exists. */
  function Update(present: bool, a: Actions, speed: real, w: Vec3, tilt: Tilt,
                  stabilizationEnabled: bool, t: Tuning, s: StabilizationTuning): (r: FrameOutput)
    requires t.Valid() && s.Valid()
    ensures !present ==> r.calls == [] && r.stabilization.None?
    ensures present ==> |r.calls| == 8
    ensures present ==> (r.stabilization.Some? <==> stabilizationEnabled)
    ensures present ==> forall c :: c in r.calls && c.ApplyEngineForce? ==> -0.5 * t.baseForce <= c.force <= t.baseForce * t.turboMultiplier
    ensures present ==> forall c :: c in r.calls && c.SetSteeringValue? ==> -t.maxSteer <= c.steering <= t.maxSteer
    ensures present ==> r.calls == WheelCalls(EngineForce(a, speed, t), BrakeForce(a, t), Steering(a, speed, t))
    ensures present && stabilizationEnabled ==> r.stabilization == Some(Stabilize(w, tilt, s))
  {
    if !present then FrameOutput([], None)
    else
      var calls := WheelCalls(EngineForce(a, speed, t), BrakeForce(a, t), Steering(a, speed, t));
      FrameOutput(calls, if stabilizationEnabled then Some(Stabilize(w, tilt, s)) else None)
  }

  /** One frame against the chassis layout: every wheel is braked with the frame's brake
      force, exactly the front wheels are steered, and exactly the rear wheels are driven. */
  lemma UpdateFollowsWheelLayout(a: Actions, speed: real, w: Vec3, tilt: Tilt, stabilizationEnabled: bool,
                                 t: Tuning, s: StabilizationTuning, wheel: nat)
    requires t.Valid() && s.Valid() && wheel < 4
    ensures var calls := Update(true, a, speed, w, tilt, stabilizationEnabled, t, s).calls;
            && SetBrake(BrakeForce(a, t), wheel) in calls
            && (SetSteeringValue(Steering(a, speed, t), wheel) in calls <==> WheelLayout()[wheel].isFrontWheel)
            && (ApplyEngineForce(EngineForce(a, speed, t), wheel) in calls <==> !WheelLayout()[wheel].isFrontWheel)
  {
    var e, b, st := EngineForce(a, speed, t), BrakeForce(a, t), Steering(a, speed, t);
    WheelDistribution(e, b, st);
    SteeredWheelsAreFront(e, b, st, wheel);
  }

  /** A pulled handbrake locks all four wheels at twice the brake force, whatever else is held. */
  lemma HandbrakeBrakesEveryWheel(a: Actions, speed: real, w: Vec3, tilt: Tilt, stabilizationEnabled: bool,
                                  t: Tuning, s: StabilizationTuning)
    requires t.Valid() && s.Valid() && a.handbrake
    ensures var calls := Update(true, a, speed, w, tilt, stabilizationEnabled, t, s).calls;
            forall c :: c in calls && c.SetBrake? ==> c.brake == 2.0 * t.brakeForce
  {
    WheelDistribution(EngineForce(a, speed, t), BrakeForce(a, t), Steering(a, speed, t));
  }

  // ------------------------------------------------------------ properties

  /** Holding the throttle never brakes (unless the handbrake is pulled) and never pushes
      backwards; braking alone never pushes forwards. */
  lemma AccelerationVersusBraking(a: Actions, speed: real, t: Tuning)
    requires t.Valid()
    ensures a.acceleration ==> EngineForce(a, speed, t) >= 0.0
    ensures a.acceleration && !a.handbrake ==> BrakeForce(a, t) == 0.0
    ensures !a.acceleration && a.braking ==> EngineForce(a, speed, t) <= 0.0
    ensures !a.acceleration && a.braking && !a.handbrake ==> BrakeForce(a, t) == t.brakeForce
  {
  }

  /** Above top speed any forward force is cut to zero, but the reverse push of the brake
      key is not capped: it survives, attenuated, at every speed. */
  lemma TopSpeedCapsForwardOnly(a: Actions, speed: real, t: Tuning)
    requires t.Valid() && speed > t.maxSpeed
    ensures a.acceleration ==> EngineForce(a, speed, t) == 0.0
    ensures !a.acceleration && a.braking ==>
              EngineForce(a, speed, t) == -0.5 * t.baseForce * Factor(t.engineCurve, speed)
    ensures !a.acceleration && a.braking && t.baseForce > 0.0 ==> EngineForce(a, speed, t) < 0.0
  {
    var f := Factor(t.engineCurve, speed);
    if !a.acceleration && a.braking {
      assert RawEngineForce(a, t) * f == -0.5 * t.baseForce * f;
      if t.baseForce > 0.0 {
        assert t.baseForce * f > 0.0;
      }
    }
  }

  /** Braking (with or without the handbrake) applies reverse engine force and brake force
      in the same frame. */
  lemma BrakeKeyPushesAndBrakes(a: Actions, speed: real, t: Tuning)
    requires t.Valid() && t.baseForce > 0.0 && t.brakeForce > 0.0
    requires !a.acceleration && a.braking
    ensures EngineForce(a, speed, t) < 0.0
    ensures BrakeForce(a, t) > 0.0
  {
    var f := Factor(t.engineCurve, speed);
    assert t.baseForce * f > 0.0;
    assert RawEngineForce(a, t) * f == -0.5 * (t.baseForce * f);
  }

  /** The attenuation factor never grows with speed, for either curve. */
  lemma FactorNonIncreasing(c: Curve, s1: real, s2: real)
    requires c.Valid() && s1 <= s2
    ensures Factor(c, s2) <= Factor(c, s1)
  {
    if s2 > c.threshold && s1 > c.threshold {
      DivLeMono(s1 - c.threshold, s2 - c.threshold, c.range);
    }
  }

  /** At or below the engine threshold and the top speed the engine force is exactly the
      flag table: full-force drive and half-force reverse push. */
  lemma LowSpeedEngineIsTheFlagTable(a: Actions, speed: real, t: Tuning)
    requires t.Valid()
    requires speed <= t.engineCurve.threshold && speed <= t.maxSpeed
    ensures EngineForce(a, speed, t) == RawEngineForce(a, t)
  {
  }

  /** At or below the steering threshold a held key gives the unscaled full lock, with
      right overriding left. */
  lemma LowSpeedSteeringIsFullLock(a: Actions, speed: real, t: Tuning)
    requires t.Valid()
    requires speed <= t.steerCurve.threshold
    ensures a.right ==> Steering(a, speed, t) == -t.maxSteer
    ensures a.left && !a.right ==> Steering(a, speed, t) == t.maxSteer
  {
  }

  /** Above the steering threshold a held steering key gives the full lock scaled by the
      curve's factor, which lies in [minFactor, 1): less lock than at low speed, never less
      than the floor. */
  lemma HighSpeedSteering(a: Actions, speed: real, t: Tuning)
    requires t.Valid() && t.steerCurve.minFactor < 1.0
    requires speed > t.steerCurve.threshold && (a.left || a.right)
    ensures Abs(Steering(a, speed, t)) == t.maxSteer * Factor(t.steerCurve, speed)
    ensures t.steerCurve.minFactor <= Factor(t.steerCurve, speed) < 1.0
  {
    var f := Factor(t.steerCurve, speed);
    if a.right {
      assert Steering(a, speed, t) == -t.maxSteer * f;
      ScaleBetween(t.maxSteer, f);
    }
  }

  /** With the shipped tuning the top-speed cut (25 m/s) sits below the attenuation
      threshold (30 m/s), so a forward force that survives the cut is never attenuated:
      the attenuation only ever changes the brake key's reverse push. */
  lemma ShippedAttenuationOnlyReachesReversePush(a: Actions, speed: real)
    ensures EngineForce(a, speed, Shipped) > 0.0 ==> EngineForce(a, speed, Shipped) == RawEngineForce(a, Shipped)
    ensures !a.acceleration && a.braking && speed > Config.EngineHighSpeedThreshold ==>
              EngineForce(a, speed, Shipped) > RawEngineForce(a, Shipped)
    ensures speed <= Config.MaxSpeed ==> EngineForce(a, speed, Shipped) == RawEngineForce(a, Shipped)
  {
    ShippedIsValid();
    var f := Factor(Shipped.engineCurve, speed);
    if !a.acceleration && a.braking && speed > Config.EngineHighSpeedThreshold {
      assert f < 1.0;
      assert RawEngineForce(a, Shipped) == -350.0;
      assert -350.0 * f > -350.0;
    }
  }
}

=== FILE: vehicle_specs.dfy ===
/** The per-model vehicle records and their lookups (js/vehicle-specs.js): two named cars,
    a generic fallback, and the projections handed to the physics and audio set-up.
    The 3-D model, gameplay and dashboard sections are not read by any lookup and are omitted. */
module VehicleSpecs {

  datatype Info = Info(name: string, displayName: string, manufacturer: string, year: string, kind: string)

  datatype Dimensions = Dimensions(width: real, height: real, length: real)

  datatype Chassis = Chassis(mass: real, dimensions: Dimensions)

  /** The wheel settings that differ between the records; the remaining wheel fields
      (mass 15, stiffness 40, rest length 0.35, friction slip 3, damping 2.3 / 4.4,
      maximum force 100000, roll influence 0.05, sliding speed -30) are shared by all three. */
  datatype Wheel = Wheel(radius: real, width: real, maxSuspensionTravel: real)

  datatype Engine = Engine(baseForce: real, maxForce: real, turboMultiplier: real, maxSpeed: real, engineBrake: real)

  datatype Modulation = Modulation(frequency: real, depth: real)

  datatype Turbo = Turbo(enabled: bool, whineFrequency: real, spoolTime: real)

  datatype AudioEngine = AudioEngine(
    kind: string,
    mode: string,
    baseFrequency: real,
    harmonics: seq<real>,
    modulation: Modulation,
    turbo: Turbo)

  datatype Effects = Effects(backfire: bool, turboWastegate: bool, transmission: string)

  datatype Spec = Spec(info: Info, chassis: Chassis, wheel: Wheel, engine: Engine, audio: AudioEngine, effects: Effects)

  const Rx7: Spec := Spec(
    Info("Mazda RX-7", "RX-7", "Mazda", "1991-2002", "sports"),
    Chassis(180.0, Dimensions(1.6, 0.5, 3.2)),
    Wheel(0.3, 0.2, 0.3),
    Engine(500.0, 1500.0, 3.0, 20.0, 15.0),
    AudioEngine("rotary", "advanced", 90.0, [1.0, 0.8, 0.6, 0.4, 0.3, 0.2], Modulation(7.0, 5.0), Turbo(true, 2500.0, 0.5)),
    Effects(true, true, "manual"))

  const R360: Spec := Spec(
    Info("Mazda R360", "R360", "Mazda", "1960-1966", "kei-car"),
    Chassis(180.0, Dimensions(1.2, 0.4, 2.5)),
    Wheel(0.3, 0.2, 0.2),
    Engine(500.0, 1500.0, 3.0, 20.0, 15.0),
    AudioEngine("v-twin", "simple", 60.0, [1.0, 0.5, 0.3], Modulation(3.0, 2.0), Turbo(false, 0.0, 0.0)),
    Effects(false, false, "manual"))

  /** `DEFAULT_VEHICLE_SPEC`: what any unknown id gets. */
  const Default: Spec := Spec(
    Info("Generic Vehicle", "Vehicle", "Unknown", "Unknown", "standard"),
    Chassis(180.0, Dimensions(1.5, 0.5, 3.0)),
    Wheel(0.3, 0.2, 0.4),
    Engine(500.0, 1500.0, 3.0, 20.0, 15.0),
    AudioEngine("inline-4", "simple", 80.0, [1.0, 0.6, 0.4, 0.2], Modulation(5.0, 3.0), Turbo(false, 2000.0, 0.3)),
    Effects(false, false, "manual"))

  /** The ids of `VEHICLE_SPECS`. */
  const KnownIds: set<string> := {"rx7", "r360"}

  /** `getVehicleSpec(id)`: the table entry, or the fallback for any other id. */
  function GetVehicleSpec(id: string): (s: Spec)
    ensures id == "rx7" ==> s == Rx7
    ensures id == "r360" ==> s == R360
    ensures id !in KnownIds ==> s == Default
  {
    if id == "rx7" then Rx7
    else if id == "r360" then R360
    else Default
  }

  /** What `getPhysicsConfig` hands to the physics set-up. */
  datatype PhysicsConfig = PhysicsConfig(
    chassisMass: real,
    chassisShape: Dimensions,
    wheelInfo: Wheel,
    engineForce: real,
    maxEngineForce: real,
    maxSpeed: real)

  /** `getPhysicsConfig(spec)`: a field-by-field projection. */
  function GetPhysicsConfig(spec: Spec): (c: PhysicsConfig)
    ensures c.chassisMass == spec.chassis.mass && c.chassisShape == spec.chassis.dimensions
    ensures c.wheelInfo == spec.wheel
    ensures c.engineForce == spec.engine.baseForce && c.maxEngineForce == spec.engine.maxForce
    ensures c.maxSpeed == spec.engine.maxSpeed
  {
    PhysicsConfig(spec.chassis.mass, spec.chassis.dimensions, spec.wheel,
                  spec.engine.baseForce, spec.engine.maxForce, spec.engine.maxSpeed)
  }

  /** What `getAudioConfig` hands to the audio set-up. */
  datatype AudioConfig = AudioConfig(
    engineType: string,
    engineMode: string,
    baseFrequency: real,
    harmonics: seq<real>,
    modulation: Modulation,
    turboEnabled: bool,
    effects: Effects)

  /** `getAudioConfig(spec)`: a projection that flattens the turbo section to its flag. */
  function GetAudioConfig(spec: Spec): (c: AudioConfig)
    ensures c.engineType == spec.audio.kind && c.engineMode == spec.audio.mode
    ensures c.baseFrequency == spec.audio.baseFrequency && c.harmonics == spec.audio.harmonics
    ensures c.modulation == spec.audio.modulation && c.effects == spec.effects
    ensures c.turboEnabled == spec.audio.turbo.enabled
  {
    AudioConfig(spec.audio.kind, spec.audio.mode, spec.audio.baseFrequency, spec.audio.harmonics,
                spec.audio.modulation, spec.audio.turbo.enabled, spec.effects)
  }

  /** Every spec the lookup can return. */
  predicate Reachable(s: Spec) {
    s == Rx7 || s == R360 || s == Default
  }

  /** Lookup never fails: whatever the id, the result is one of the three records, and it is
      the fallback exactly when the id is not in the table. */
  lemma LookupTotal(id: string)
    ensures Reachable(GetVehicleSpec(id))
    ensures GetVehicleSpec(id) == Default <==> id !in KnownIds
  {
  }

  /** In every record the maximum force is the base force times the turbo multiplier, and the
      physics projection carries both unchanged. */
  lemma MaxForceIsTurboForce(id: string)
    ensures var s := GetVehicleSpec(id);
            s.engine.maxForce == s.engine.baseForce * s.engine.turboMultiplier
            && GetPhysicsConfig(s).maxEngineForce == GetPhysicsConfig(s).engineForce * s.engine.turboMultiplier
  {
  }

  /** Only the RX-7 asks for the advanced engine sound and a turbo; every other id, known or
      not, gets the simple sound without turbo. */
  lemma OnlyRx7IsAdvancedWithTurbo(id: string)
    ensures GetAudioConfig(GetVehicleSpec(id)).engineMode == "advanced" <==> id == "rx7"
    ensures GetAudioConfig(GetVehicleSpec(id)).turboEnabled <==> id == "rx7"
    ensures id != "rx7" ==> GetAudioConfig(GetVehicleSpec(id)).engineMode == "simple"
  {
  }

  /** Each record's harmonic table starts at the fundamental and decreases strictly. */
  lemma HarmonicTablesDecrease(id: string)
    ensures var h := GetAudioConfig(GetVehicleSpec(id)).harmonics;
            |h| >= 3 && h[0] == 1.0
            && forall i :: 0 < i < |h| ==> h[i] < h[i - 1]
  {
  }
}
